=== FILE: README.md ===
# Easy Buy marketplace — a Dafny model

Easy Buy is a second-hand marketplace. An Express/MongoDB backend holds users, products, orders, carts,
wishlists, footer content and seller feedback. A React front end gives buyers, sellers and admins their
own dashboards. This project models the deterministic logic of both halves as pure Dafny functions over
immutable values, and proves what the code promises.

**Backend.** A collection is a sequence of documents in insertion order, so `findOne` and `findById`
return the first match. A request is a record, and every handler returns the new collections or the HTTP
error status it answers with (400, 401, 403, 404). The modelled routes are:
- order creation and its update state machine;
- cart and wishlist collections;
- user update, deletion and activation;
- registration, the login decision chain and e-mail verification;
- product listing, the view counter and owner checks;
- footer upsert and seller feedback.

**Front end.** The pages become functions of the data they fetch:
- dashboard statistics, month buckets and chart data;
- price filters and top-k selections;
- the time-ago label;
- the card and expiry input formatters;
- the cart total and quantity buttons;
- the image list of the product form;
- the two image viewers;
- the route guard;
- the two login pages;
- the virtual assistant's catalogue helpers.

Shared building blocks:
- `Wrappers`: the result type and statuses;
- `Entities`: the documents;
- `Seqs`: filter, count, sum, sort, de-duplication and tallies, each with its facts;
- `Text`: the JavaScript string operations the code uses;
- `OrderStats`: revenue filters and month bucketing, which several dashboards share.

Two copies of some pages exist in the repository:
- `Dashboard/AdminDashboard.js` is an older copy of `components/Dashboard/AdminDashboard.js`.
- `Auth/Login.js` is an older copy of `components/Auth/Login.js`.

The older admin dashboard computes the same statistics, so its rows cite the same members. The older login
page is modelled separately as `LegacyLogin`, because its navigation rules differ.

**Where intent and code disagree.** Findings lists three places. The most visible one: the buyer branch of `PUT /api/orders/:id` is commented "Buyer
can edit pending orders" (routes/orders.js:154), and the purchase history offers an Edit Order button on
every pending order (History/BuyHistory.js:186-194). Yet the branch sits behind a guard that only an admin
or the order's seller passes (routes/orders.js:126-129). The model follows the code
(`OrderRoutes.UpdateOrder`). The intended behaviour is modelled beside it
(`OrderRoutes.UpdateOrderIntended`); see Findings.

## Model

| member | source | states |
|---|---|---|
| OrderRoutes.CreateOrder | routes/orders.js:9-39 | Only buyers may order (403). An unknown product gives 404 and a product that is not available gives 400, with both collections unchanged. On success one order is appended, priced, sold by and pointing at the product, all statuses Pending except a card payment that is Completed, and exactly that product becomes sold. |
| OrderRoutes.NewestFirst | routes/orders.js:69 | The orders are rearranged, none lost or added, into non-increasing creation time. |
| OrderRoutes.MyOrders | routes/orders.js:54-71 | An order is listed iff it is stored and is the buyer's purchase, the seller's sale, or any order for an admin; newest first. Each such order is listed exactly as many times as it is stored, and no other order at all. |
| OrderRoutes.AllOrders | routes/orders.js:78-86 | Admins only; every stored order, newest first. |
| OrderRoutes.AdminSeesAll | routes/orders.js:59-63 | For an admin, `my-orders` and `/all` return the same orders. |
| OrderRoutes.GetOrder | routes/orders.js:93-111 | 404 for an unknown id; 403 unless admin, buyer or seller; otherwise the stored order with that id. |
| OrderRoutes.MyOrdersAreReadable | routes/orders.js:105-109 | Every order `my-orders` lists for a caller opens for that caller. |
| OrderRoutes.ApplyUpdate | routes/orders.js:131-163 | Every field is given as a function of the order, the caller and the body. The order status is Confirmed after an admin approval, Cancelled after an admin rejection, else the body's status, else unchanged. Approval moves only to an admin's body value. Payment: an admin approval completes it, else an admin's value is written, else a delivery completes it, else it stays; a non-admin's value is ignored, and a pending buyer edit with a method re-derives it. Delivered stamps the delivery time. Address and method change only in the buyer's edit of a pending order. Price, product, parties and creation time never change, and an empty body changes nothing. |
| OrderRoutes.EditPending | routes/orders.js:155-163 | Only a pending order changes, and only its address, method and payment status. A truthy address and method are taken, and the payment status follows the method. |
| OrderRoutes.UpdateOrder | routes/orders.js:118-165 | 404 for an unknown id, 403 for anyone but an admin or the order's seller. Otherwise the stored order is replaced in place by the update and products are untouched. |
| OrderRoutes.BuyerEditNeedsSellerIdentity | routes/orders.js:127-129 | The buyer-edit branch only runs for a caller who is also the order's seller. |
| OrderRoutes.BuyerRefused | routes/orders.js:127-129 | A buyer who is not the seller gets 403 for their own order, whatever the body. |
| OrderRoutes.SoldStaysSold | routes/orders.js:37-39 | After a successful purchase, no sequence of updates makes the product available again. |
| OrderRoutes.ApplyAllKeepsProducts | routes/orders.js:118-165 | Any sequence of update requests leaves the product collection as it was. |
| OrderRoutes.UpdateIdempotent | routes/orders.js:131-152 | Applying the same body twice equals applying it once. |
| OrderRoutes.UpdateOrderIdempotent | routes/orders.js:118-165 | Sending the same request twice leaves the store as sending it once. |
| OrderRoutes.AdminCanFlipApproval | routes/orders.js:144-151 | Approval is not gated on the current status: an admin can reject an approved order and approve it again. |
| OrderRoutes.UpdateOrderIntended | routes/orders.js:126-163 | The corrected guard also lets the order's buyer through, but only to the pending-order edit. Admins and sellers get exactly what `UpdateOrder` gives them, and products are never touched. |
| OrderRoutes.IntendedBuyerEdit | routes/orders.js:154-162 | Under the corrected guard, a buyer's edit of a pending order stores the new address, the new method and the payment status that method implies, and changes nothing else. An order that is already decided stays as it was. |
| CartRoutes.GetCart | routes/cart.js:9-17 | Returns the caller's cart. One is created empty when none exists; an existing cart leaves the collection untouched. |
| CartRoutes.GetCartIdempotent | routes/cart.js:11-15 | A second fetch changes nothing more. |
| CartRoutes.MergeItem | routes/cart.js:43-49 | With a line for the product present, no line is added. Otherwise exactly one line with the requested quantity is appended. Existing lines keep their ids and products. |
| CartRoutes.MergeQuantity | routes/cart.js:43-49 | Adding raises the added product's total quantity by the added amount and leaves every other product's total alone. |
| CartRoutes.MergeKeepsUnique | routes/cart.js:43-49 | A cart with one line per product still has one line per product after an add. |
| CartRoutes.MergeFacts | routes/cart.js:43-49 | Both facts of the merge together, for every product. |
| CartRoutes.AddToCart | routes/cart.js:24-52 | 404 for an unknown product and 400 for an unavailable one, with no cart created. Otherwise the caller's cart, created when missing, gains the quantity (default 1) for that product only; the line-per-product invariant is kept and other users' carts are untouched. |
| CartRoutes.UpdateItem | routes/cart.js:63-79 | 404 without a cart or without a line of that id. Otherwise exactly one line of that id takes the new quantity, with no range check, and every other line and cart stays as it was. |
| CartRoutes.UpdateKeepsUnique | routes/cart.js:72-77 | Setting a quantity keeps one line per product. |
| CartRoutes.RemoveItem | routes/cart.js:90-100 | 404 without a cart. Otherwise the cart becomes its lines whose id differs from the removed one, in their original order, and other carts are untouched. |
| CartRoutes.RemoveSplicesLine | routes/cart.js:90-100 | With line ids unique, removing a line splices exactly it out and keeps the others in order. |
| CartRoutes.RemoveUnknownIsNoop | routes/cart.js:98 | Removing an id no line carries succeeds and changes nothing. |
| CartRoutes.RemoveIdempotent | routes/cart.js:98 | Removing twice equals removing once. |
| CartRoutes.RemoveKeepsUnique | routes/cart.js:98 | Removal keeps one line per product. |
| CartRoutes.ClearCart | routes/cart.js:111-121 | 404 without a cart. Otherwise the caller's cart is empty and every other cart is unchanged. |
| WishlistRoutes.GetWishlist | routes/wishlist.js:9-17 | Returns the caller's wishlist, created empty when missing; an existing one leaves the collection untouched. |
| WishlistRoutes.GetWishlistIdempotent | routes/wishlist.js:11-15 | A second fetch changes nothing more. |
| WishlistRoutes.AddToWishlist | routes/wishlist.js:24-47 | 404 for an unknown product, with no availability check. 400 iff the product is already listed. Otherwise the product id is appended once, and a list without duplicates stays without duplicates. |
| WishlistRoutes.AddsKeepDistinct | routes/wishlist.js:39-45 | From lists without duplicates, any run of adds leaves every list without duplicates. |
| WishlistRoutes.RemoveFromWishlist | routes/wishlist.js:58-68 | 404 only without a wishlist. Otherwise the list becomes its entries for other products, in their original order, and other users' lists are untouched. |
| WishlistRoutes.RemoveSplicesEntry | routes/wishlist.js:58-68 | On a duplicate-free list, removing an entry splices exactly it out and keeps the others in order. |
| WishlistRoutes.RemoveIdempotent | routes/wishlist.js:66 | Removing twice equals removing once. |
| WishlistRoutes.RemoveKeepsDistinct | routes/wishlist.js:66 | Removal keeps a list free of duplicates. |
| UserRoutes.NormalizePhone | routes/users.js:55-64 | The phone is trimmed. A blank value is stored as null; a value of exactly ten digits is stored trimmed; anything else is 400. |
| UserRoutes.PhoneUpdate | routes/users.js:55 | An absent phone skips the rule and an explicit null is stored as given. A given value passes iff `NormalizePhone` accepts it. |
| UserRoutes.Apply | routes/users.js:66-70 | The body is written through: each given field (name, role, address, location, e-mail, password, activation, verification flag and token) replaces the stored one, the password unhashed; the phone is the normalized one; absent fields, the id, the token expiry and the last-active time are kept. |
| UserRoutes.UpdateUser | routes/users.js:47-76 | 403 unless the caller is an admin or the user themself, then 400 for a bad phone, then 404 for an unknown id. Otherwise only that user is replaced, by the write-through of the body. |
| UserRoutes.SelfRoleChange | routes/users.js:50-52 | A buyer may give themself the seller role through their own profile update. |
| UserRoutes.SelfAccountRewrite | routes/users.js:66-70 | A user may rewrite their own e-mail, mark it verified and set a password, which is stored exactly as sent; nothing else changes. |
| UserRoutes.DeleteUser | routes/users.js:83-101 | In order: 403 for a non-admin or for one's own id (before any lookup), 404 for an unknown id, 403 for an admin target. Otherwise exactly that user is removed and everyone else is kept. |
| UserRoutes.AdminsSurviveDelete | routes/users.js:95-98 | No successful delete removes an admin. |
| UserRoutes.CoerceActive | routes/users.js:115-124 | A string maps to whether it is `'true'`, a boolean is kept, and any other value is 400. |
| UserRoutes.SetStatus | routes/users.js:108-134 | In order: 403 for a non-admin or one's own id, 400 for a non-boolean value, 404 for an unknown id. Otherwise only that user's activation changes, to the coerced value. |
| UserRoutes.CannotDeactivateSelf | routes/users.js:111-113 | A caller's status request for their own account is always 403. |
| AuthRoutes.NormalizeEmail | routes/auth.js:39 | The stored form of an e-mail is the lowered input with white space, and only white space, cut from both ends (a contiguous slice, as `trim()` keeps). So it has no upper-case letter, neither starts nor ends with white space, and is empty iff the input is blank. |
| Text.TrimOfUnique | routes/auth.js:39 | At most one string is a trimmed form of a given string (a slice with only white space cut from both ends and none left at either end), so that property, which Text.Trim ensures, determines `trim()` exactly. |
| AuthRoutes.NormalizeEmailIdempotent | routes/auth.js:39 | Normalizing an already normalized e-mail changes nothing. |
| AuthRoutes.FindByEmail | routes/auth.js:40 | Returns a position holding that e-mail, or none exists. |
| AuthRoutes.PhoneRulesAgree | routes/auth.js:27-36 | Registration and profile update accept the same non-blank phones and store the same trimmed value. |
| AuthRoutes.Register | routes/auth.js:22-67 | Succeeds iff the phone is acceptable and the normalized e-mail is new; every failure is 400. The new user is appended with the normalized e-mail, the role given or buyer, the token and its 24-hour expiry, and verified iff an admin. Stored e-mails stay unique. |
| AuthRoutes.AppendNewEmail | routes/auth.js:40-66 | Appending a user whose e-mail is new keeps e-mails unique, and the e-mail lookup then finds that user. |
| AuthRoutes.Authenticate | routes/auth.js:101-182 | 400 iff a field is missing, and 401 iff the credentials are not valid (unknown e-mail, no stored password, or a mismatch). A deactivated non-admin gets 403. Otherwise the user is the one stored under the normalized e-mail. |
| AuthRoutes.Login | routes/auth.js:96-258 | Authentication failures leave the users unchanged. After authentication `lastActive` is stamped before the role gate. A requested `'admin'` role succeeds only for an admin; another non-empty role must match the stored one; the stored role is returned. |
| AuthRoutes.RoleGate | routes/auth.js:218-245 | After authentication, a login succeeds exactly when the requested role is empty or names the stored role. |
| AuthRoutes.CredentialFailuresIndistinguishable | routes/auth.js:156-172 | An unknown e-mail, a missing stored password and a wrong password all give the same 401 with no change. |
| AuthRoutes.RegisterThenLogin | routes/auth.js:39-61 | A freshly registered account logs in with the e-mail as typed and the same password, and gets its registered role. |
| AuthRoutes.FindByToken | routes/auth.js:279-282 | Finds a user holding the token with an expiry later than now, or none holds it. |
| AuthRoutes.VerifyEmail | routes/auth.js:275-294 | 400 iff no user holds the unexpired token. Otherwise that one user becomes verified and loses the token and expiry, and everyone else is unchanged. |
| AuthRoutes.TokenSingleUse | routes/auth.js:291-293 | With one holder per token, a verification token works only once. |
| ProductRoutes.NewestFirst | routes/products.js:28-30 | The listing order is a permutation of its input with creation dates never increasing. |
| ProductRoutes.ListProducts | routes/products.js:8-32 | A product is listed iff it is stored and passes every supplied filter: exact category, status and seller, case-insensitive location, and a case-insensitive search over title, description, category and location. Each such product is listed exactly as many times as it is stored, newest first. |
| ProductRoutes.EmptyQueryListsAll | routes/products.js:10-30 | With no query parameters every stored product is listed, each exactly once. |
| ProductRoutes.SearchIgnoresCase | routes/products.js:19-25 | Searching for a term and for its lower-case form selects the same products. |
| ProductRoutes.ViewProduct | routes/products.js:39-52 | 404 iff the id is unknown. Otherwise the product comes back with one more view, and nothing else in the collection changes. |
| ProductRoutes.ViewsCountReads | routes/products.js:48-50 | After n reads a product has exactly n more views and every other product is untouched. |
| ProductRoutes.CreateProduct | routes/products.js:59-78 | Only sellers and admins may create (403 otherwise). The new product is appended and is the body itself, except that the caller is its seller whatever the body says, it gets the fresh id, and its creation date is the current time. |
| ProductRoutes.ApplyPatch | routes/products.js:99-102 | The body is written through: each given field (title, description, price, category, location, images, status, seller, view count, sale date) replaces the stored one and absent fields are kept; the id and creation date never change, and an empty patch changes nothing. |
| ProductRoutes.UpdateProduct | routes/products.js:86-104 | 404 for an unknown id. Otherwise success iff the caller is an admin or the product's seller (403 otherwise), and then only that product is patched. |
| ProductRoutes.SellerSetsViews | routes/products.js:94-102 | A product's seller can set its view count to any value, and nothing else in the collection changes. |
| ProductRoutes.DeleteProduct | routes/products.js:111-126 | 404 for an unknown id. Otherwise success iff the caller is an admin or the product's seller, and then exactly that product is removed and the others keep their order. |
| ProductRoutes.OthersProductsAreSafe | routes/products.js:94-122 | A seller gets 403 when updating or deleting another seller's product. |
| FooterRoutes.FindKind | routes/footer.js:35 | Finds the first record of the type, or reports that none has it. |
| FooterRoutes.GetContent | routes/footer.js:18-24 | 404 iff no record has the type. Otherwise it returns a stored record of that type. |
| FooterRoutes.Upsert | routes/footer.js:31-56 | Admins only. An existing record takes the new title and content, and takes each contact field only when it is supplied; every other record is unchanged. A new type is appended with missing contact fields as empty strings. At most one record per type is kept. |
| FooterRoutes.UpsertsKeepOnePerKind | routes/footer.js:35-54 | Any run of admin upserts keeps one record per type and leaves a record for every type posted. |
| FooterRoutes.UpsertAllKeepsKinds | routes/footer.js:37-44 | A type that is present stays present under any run of upserts. |
| FooterRoutes.DeleteContent | routes/footer.js:63-71 | Admins only, with 404 iff the type is absent. Otherwise exactly the first record of the type is removed; with one record per type, the type is then gone. |
| FeedbackRoutes.OrNull | routes/feedback.js:18-20 | An id is kept iff it is truthy, and is null otherwise. |
| FeedbackRoutes.Submit | routes/feedback.js:8-27 | The feedback is appended. A falsy rating becomes 5, a falsy role becomes "guest" and falsy ids become null, so a stored rating is never 0. |
| FeedbackRoutes.SellerRatingList | routes/feedback.js:41-47 | The summary's ratings come from the stored feedback and contain no falsy rating. |
| FeedbackRoutes.SellerSummary | routes/feedback.js:47-66 | The total is the number of the seller's truthy ratings and the sum (the average's numerator) is their sum. Each of the five distribution buckets counts the ratings equal to its star value. With no ratings the sum, and so the average, is 0. |
| FeedbackRoutes.RatingSumAppend | routes/feedback.js:48-50 | One more rating adds exactly its value to the sum. |
| FeedbackRoutes.SubmitUpdatesSummary | routes/feedback.js:8-27 | A submission for a seller adds its own rating at the end of that seller's rating list, so the total grows by one and the sum by that rating; a submission for anyone else leaves the list as it was. |
| FeedbackRoutes.StarsDistinct | routes/feedback.js:52-58 | The five buckets are keyed by distinct star values. |
| FeedbackRoutes.DistributionBounded | routes/feedback.js:52-65 | The buckets never count more ratings than the total reports. |
| FeedbackRoutes.RatingsInRange | routes/feedback.js:47 | When every stored rating is between 1 and 5, every collected rating has a bucket. |
| FeedbackRoutes.DistributionComplete | routes/feedback.js:52-65 | When every stored rating is between 1 and 5, the buckets add up exactly to the total. |
| FeedbackRoutes.DeleteFeedback | routes/feedback.js:99-113 | Admins only, with 404 iff no feedback has the id. Otherwise exactly the first feedback with that id is removed, and every other feedback keeps its place in order. |
| FeedbackRoutes.DeleteFeedbackRemovesOnlyThatId | routes/feedback.js:99-113 | With feedback ids unique, an admin's delete splices out exactly the document with the id. |
| Entities.PaymentStatusFor | routes/orders.js:31 | A new order is settled iff it is paid by Visa or MasterCard. |
| Entities.FindProduct | routes/products.js:41 | Finds the first product with the id, or reports that none has it. |
| Entities.FindOrder | routes/orders.js:95 | Finds the first order with the id, or reports that none has it. |
| Entities.FindUser | routes/users.js:90 | Finds the first user with the id, or reports that none has it. |
| OrderStats.PaidRevenueAtMostSuccessful | components/Dashboard/AdminDashboard.js:193-195 | The admin dashboard's revenue counts only paid orders. It never exceeds the buyer and seller pages' revenue, which also counts approved ones (components/Dashboard/BuyerDashboard.js:75). |
| OrderStats.RevenueBounds | components/Dashboard/BuyerDashboard.js:75-76 | Paid revenue ≤ successful revenue ≤ the sum of all prices. |
| OrderStats.RevenueAgreesWithoutUnpaidApprovals | components/History/SellHistory.js:74-75 | The two revenue definitions agree exactly when no order is approved but unpaid. |
| OrderStats.RevenueEmpty | components/Dashboard/AdminDashboard.js:193-195 | The revenue of no orders is 0. |
| OrderStats.RevenueAppend | components/Dashboard/AdminDashboard.js:193-195 | One more order adds its price to the revenue exactly when it counts as a sale, and nothing otherwise. |
| OrderStats.MonthsBack | components/Dashboard/AdminDashboard.js:211 | The month offset is below 12, leads from the order's month to the current one, and is 0 iff the months are the same. |
| OrderStats.MonthsBackUnique | components/Dashboard/AdminDashboard.js:211 | That offset is the only one below 12 that leads to the current month. |
| OrderStats.Slot | components/Dashboard/AdminDashboard.js:212-213 | An order gets a bar iff its month lies within the last six months. The bar index is below 6, and the last bar is the current month's. |
| OrderStats.SlotInjective | components/Dashboard/AdminDashboard.js:212-213 | Two different months never share a bar. |
| OrderStats.Zeros | components/Dashboard/AdminDashboard.js:205 | The initial chart has n bars, each 0. |
| OrderStats.TotalUpdate | components/Dashboard/AdminDashboard.js:213 | Adding a price to one bar adds it to the chart's total. |
| OrderStats.SalesByMonth | components/Dashboard/AdminDashboard.js:202-216 | The sales chart always has six bars. |
| OrderStats.SalesByMonthBars | components/Dashboard/AdminDashboard.js:207-215 | Bar k holds exactly the total price of the orders whose month lands in bar k. |
| OrderStats.SalesByMonthTotal | components/History/SellHistory.js:83-89 | The six bars together hold exactly the revenue of the orders from the last six months. |
| OrderStats.WindowRevenueBounded | components/History/SellHistory.js:83-89 | With non-negative prices, that revenue lies between 0 and the sum of all prices. |
| OrderStats.SalesChartBounded | Dashboard/AdminDashboard.js:110-124 | The chart never shows more than the revenue it is drawn from. |
| OrderStats.PaidSalesChart | components/History/SellHistory.js:77-101 | The chart has six bars and one to six labels, and the last label is the current month. |
| OrderStats.PaidSalesChartWithinRevenue | components/History/SellHistory.js:74-101 | The chart's bars add up to no more than the paid revenue shown beside it. |
| OrderStats.ChartLabels | components/Dashboard/AdminDashboard.js:218 | The labels as written: min(current month + 1, 6) consecutive month names, ending with the current month. |
| OrderStats.LabelsMatchBarsFromJune | Dashboard/AdminDashboard.js:126 | From June on, each label names the month whose sales its bar holds. |
| OrderStats.LabelsMisplacedBeforeJune | components/History/SellHistory.js:92 | From January to May there are fewer labels than bars, and "Jan" labels the bar of a month of the previous year. |
| OrderStats.WrappedLabels | components/History/SellHistory.js:92 | The corrected labels: six month names that wrap into the previous year and end with the current month. |
| OrderStats.WrappedLabelsMatchBars | components/Dashboard/AdminDashboard.js:218 | With the corrected labels every bar is labelled with its own month, all year round. |
| OrderStats.Customers | components/Dashboard/AdminDashboard.js:196 | The customer count counts each non-empty buyer id exactly once: each is distinct, comes from an order, and every order's buyer is included. |
| ProductLists.AvailableOnly | components/Landing/LandingPage.js:82 | Keeps the stored products whose status is available, each as many times as it occurs, and drops every other. |
| ProductLists.AvailableOnlyAppend | components/Landing/LandingPage.js:82 | Order is kept: a product added at the end of the list appears at the end of the result iff it is available. |
| ProductLists.NewestFirst | components/Landing/LandingPage.js:83-84 | At most k products taken from the input, never more copies of one than it holds, newest first. No product left out is newer than one kept. |
| ProductLists.CheapestFirst | components/Pages/ShopPage.js:41-42 | At most k products taken from the input, never more copies of one than it holds, cheapest first. No product left out is cheaper than one kept. |
| ProductLists.NewestAvailable | components/Pages/ShopPage.js:45-50 | At most k available products, never more copies of one than the input holds, newest first. No available product left out is newer than one kept. |
| ProductLists.CheapestWhere | components/Landing/LandingPage.js:87-92 | At most k admitted products, never more copies of one than the input holds, cheapest first. No admitted product left out is cheaper than one kept. |
| ProductLists.UniqueCategories | components/Pages/ShopPage.js:29 | Each non-empty category of the products appears exactly once, and nothing else appears. |
| ProductLists.UniqueCategoriesAppend | components/Pages/ShopPage.js:29 | The list is in order of first occurrence: one more product adds its category at the end exactly when it is non-empty and not yet listed. |
| ProductLists.AvailableIn | components/Pages/ShopPage.js:120 | A category card's count never exceeds the number of available products. |
| ProductLists.AvailableInDistinct | components/Pages/ShopPage.js:117-121 | Two different categories' cards together count no more than the available products. |
| ProductLists.AvailableInIsCount | components/Pages/ShopPage.js:120 | A card's count is the number of times its category occurs among the available products. |
| BuyerDashboard.BucketOf | components/Dashboard/BuyerDashboard.js:176-181 | Every price passes one of the four narrowing price filters. |
| BuyerDashboard.PriceBucketsPartition | components/Dashboard/BuyerDashboard.js:177-180 | A price passes a narrowing filter iff it is that price's own bucket, so the four filters partition the prices. |
| BuyerDashboard.FilterByPrice | components/Dashboard/BuyerDashboard.js:173-184 | Keeps the products whose price passes the filter, each as many times as it occurs and in list order (the result is `Seqs.Filter` of the list by the bucket), and drops every other; "all" keeps the list as it is. |
| BuyerDashboard.BucketCountsAddUp | components/Dashboard/BuyerDashboard.js:173-184 | Between them the four narrowing filters show every product exactly once. |
| BuyerDashboard.SortProducts | components/Dashboard/BuyerDashboard.js:187-193 | The sorted list is a permutation of its input: newest first, cheapest first or dearest first. |
| BuyerDashboard.Catalogue | components/Dashboard/BuyerDashboard.js:162-195 | A product is shown iff it is stored and available, is in the chosen category unless that is "all", matches the search when one is typed, and passes the price filter. The list is in the chosen order. |
| BuyerDashboard.ListingMeaning | components/Dashboard/BuyerDashboard.js:165-169 | The listing request the page sends selects exactly the available products of the category that match the search. |
| BuyerDashboard.CalculateBuyerStats | components/Dashboard/BuyerDashboard.js:74-111 | The amount spent is the revenue of the successful (paid or approved) orders; pending and approved are the counts of orders with that approval status, together at most the total, and the approved are among the successful. The month table and the payment-method table are each a counting object of the orders: one distinct key per month (method) that occurs, each paired with its number of orders. |
| BuyerDashboard.ApprovedAreSuccessful | components/Dashboard/BuyerDashboard.js:75-79 | The approved orders never outnumber the successful ones. |
| BuyerDashboard.CardCheck | components/Dashboard/BuyerDashboard.js:243-262 | The card checks pass iff the name, number, expiry, CVC and PIN are non-blank, with a number of at least 16 characters other than white space, a CVC of at least 3 and a PIN of at least 4. Otherwise the first failing check's message is given. |
| BuyerDashboard.ValidatePayment | components/Dashboard/BuyerDashboard.js:236-263 | The form passes iff the address is non-blank and, for Visa or MasterCard only, the card passes. A blank address is reported first. |
| BuyerDashboard.CodIgnoresCard | components/Dashboard/BuyerDashboard.js:242 | Cash on delivery gives the same verdict whatever the card fields hold. |
| BuyerDashboard.FormattedCardAccepted | components/Dashboard/BuyerDashboard.js:243-262 | For card fields as the form's formatters store them, the card passes iff at least 16 characters other than white space, 1 expiry digit, 3 CVC digits and 4 PIN digits were typed. |
| BuyerDashboard.NumberFieldAccepted | components/Dashboard/BuyerDashboard.js:247 | A formatted card number passes its check iff 16 characters other than white space were typed. |
| BuyerDashboard.ExpiryFieldAccepted | components/Dashboard/BuyerDashboard.js:251 | A formatted expiry is non-blank iff a digit was typed. |
| BuyerDashboard.DigitsFieldAccepted | components/Dashboard/BuyerDashboard.js:255-261 | A digits-only field cut to k characters passes its check iff k digits were typed. |
| BuyerDashboard.CartCheckout | components/Dashboard/BuyerDashboard.js:368-399 | A missing or empty cart is refused. A first line whose product is gone is invalid. Otherwise the first line's stored product and its line id are picked. |
| BuyerDashboard.CheckoutUsesFirstLine | components/Dashboard/BuyerDashboard.js:375 | Only the first line is ever checked out: later lines make no difference. |
| BuyerDashboard.Pay | components/Dashboard/BuyerDashboard.js:235-296 | The form is refused iff validation fails, with the same message. Otherwise the outcome is exactly the order route's (its error, or the order and store it creates). A cart pick also loses exactly its line from the buyer's cart, and everyone else's cart is untouched. |
| BuyerDashboard.CartPickSoldAndRemoved | components/Dashboard/BuyerDashboard.js:272-291 | A successful checkout of a cart pick marks its product sold and removes its line. |
| BuyerDashboard.AddToCartGuard | components/Dashboard/BuyerDashboard.js:318-328 | The page sends the request iff a token is stored and the product is available, and it names the login message first. |
| BuyerDashboard.AddToCartGuardAgreesWithServer | components/Dashboard/BuyerDashboard.js:325-333 | For a signed-in buyer and a stored product, the page's guard passes iff the server accepts the request, and the server then adds exactly one unit. |
| CardInput.Spaced | components/Dashboard/BuyerDashboard.js:969 | A displayed number starts and ends with the typed value's first and last characters. |
| CardInput.SpacedLength | components/Dashboard/BuyerDashboard.js:969 | Displaying adds one space per complete group of four after the first. |
| CardInput.GroupFoursIsSpaced | components/Dashboard/BuyerDashboard.js:969 | The regular-expression replacement differs from the displayed shape only by one trailing space, when the length is a multiple of four. |
| CardInput.SpacedLayout | components/Dashboard/BuyerDashboard.js:969 | The spaces of a displayed number sit exactly at every fifth position. |
| CardInput.SpacedUnspaced | components/Dashboard/BuyerDashboard.js:968-969 | Removing the spaces from a displayed number gives the typed characters back. |
| CardInput.CardDigits | components/Dashboard/BuyerDashboard.js:968 | The first min(n, 16) of the n typed characters other than white space: a prefix of them, of exactly that length. |
| CardInput.Display | components/Dashboard/BuyerDashboard.js:969 | The display is at most 19 long, gives back the kept characters when its spaces are removed, and has a space exactly at every fifth position. |
| CardInput.FormatCardNumber | components/Dashboard/BuyerDashboard.js:967-971 | The stored number is at most 19 long, and its characters other than white space are the first 16 typed. |
| CardInput.FormatCardNumberIdempotent | components/Dashboard/BuyerDashboard.js:967-971 | Reformatting a stored number leaves it unchanged. |
| CardInput.FormatCardNumberIgnoresSpaces | components/Dashboard/BuyerDashboard.js:968 | A space typed anywhere in the number makes no difference. |
| CardInput.ExpiryOf | components/Dashboard/BuyerDashboard.js:986-988 | Fewer than two digits are shown as typed. From two digits on, the first two are shown followed by a slash. The shown digits are always the first four typed. |
| CardInput.FormatExpiry | components/Dashboard/BuyerDashboard.js:984-990 | The stored expiry is at most 5 long, and its digits are the first four typed. Under two digits it is the digits as typed; otherwise the first two digits, a slash, then the third and fourth digits when typed. |
| CardInput.FormatExpiryIdempotent | components/Dashboard/BuyerDashboard.js:984-990 | Reformatting a stored expiry leaves it unchanged. |
| CardInput.ExpiryOfFirstFour | components/Dashboard/BuyerDashboard.js:987 | Only the first four digits affect the expiry shown. |
| CardInput.SlashComesBack | components/Dashboard/BuyerDashboard.js:986-988 | Once two digits are typed, deleting the slash does not remove it: the next change puts it back. |
| CardInput.DigitsUpTo | components/Dashboard/BuyerDashboard.js:1002 | The kept value is digits only, a prefix of the typed digits, and exactly as long as the shorter of the typed digits and n. |
| CardInput.DigitsUpToIdempotent | components/Dashboard/BuyerDashboard.js:1002 | Refiltering a stored CVC or PIN leaves it unchanged. |
| CardInput.FormatCvc | components/Dashboard/BuyerDashboard.js:1001-1003 | The stored CVC is a prefix of the typed digits, as long as the shorter of those digits and 3. |
| CardInput.FormatPin | components/Dashboard/BuyerDashboard.js:1015-1017 | The stored PIN is a prefix of the typed digits, as long as the shorter of those digits and 4. |
| BuyHistory.StartEdit | History/BuyHistory.js:51-60 | The edit opens iff the order is still pending, prefilled with the order's current address and payment method. |
| BuyHistory.EditButtonMatchesGuard | History/BuyHistory.js:186-200 | The edit button is shown exactly for the orders the edit accepts, and never beside the approval note. |
| BuyHistory.SavePayload | History/BuyHistory.js:66-71 | The save sends only the address and the payment method, with no status field. The address counts as given iff it is non-empty. |
| BuyHistory.SaveEdit | History/BuyHistory.js:63-82 | The save as written: it never changes the products, and a buyer who is not the order's seller always gets 403. |
| BuyHistory.OwnBuyerSaveRefused | History/BuyHistory.js:63-82 | The buyer of a pending order can open the edit, but the save is always refused with 403. |
| BuyHistory.SaveEditIntended | History/BuyHistory.js:63-82 | The save against the corrected route never changes the products. |
| BuyHistory.IntendedSaveStoresForm | History/BuyHistory.js:63-75 | With the corrected route, the buyer's save of a pending order stores exactly the form's address and method and re-derives the payment status from the method. No other order changes. |
| BuyHistory.TotalSpent | History/BuyHistory.js:88-89 | The history's total spent is the revenue of the paid orders, and never exceeds what the buyer dashboard reports for the same orders. |
| AdminDashboard.Stats | components/Dashboard/AdminDashboard.js:189-199 | Sales are the number of paid orders and revenue their price sum; customers are the distinct buyers; buyers and sellers are the counts of users with that role, together at most the users; user and product counts are the collection sizes. Revenue is 0 without a sale and never exceeds the other dashboards' successful revenue, and there are no customers iff no order has a buyer. |
| AdminDashboard.CategoryData | components/Dashboard/AdminDashboard.js:230-234 | One slice per distinct category, each sized by its number of products and never empty. Every product's category has a slice, and the slices add up to the catalogue. |
| AdminDashboard.CategoryCountIsSize | Dashboard/AdminDashboard.js:136-142 | A category's tally is its number of products. |
| AdminDashboard.FilterUsers | components/Dashboard/AdminDashboard.js:257-260 | Keeps the users whose name or e-mail contains the term, ignoring case, each as many times as it occurs and in list order (the result is `Seqs.Filter` of the list by the match), and drops every other. An empty term keeps the list as it is. |
| AdminDashboard.FilterProducts | components/Dashboard/AdminDashboard.js:300-303 | Keeps the products whose title or category contains the term, ignoring case, each as many times as it occurs and in list order (the result is `Seqs.Filter` of the list by the match), and drops every other. An empty term keeps the list as it is. |
| AdminDashboard.EmptyTermHits | Dashboard/AdminDashboard.js:165-168 | The empty search term is contained in every string. |
| AdminDashboard.FilterOrders | components/Dashboard/AdminDashboard.js:476-482 | Keeps the orders whose product title, buyer name or seller name contains the term, ignoring case, each as many times as it occurs, and drops every other. A missing name never matches. |
| AdminDashboard.FilterOrdersAppend | components/Dashboard/AdminDashboard.js:476-482 | Order is kept: an order added at the end appears at the end of the result iff it matches. |
| AdminDashboard.EmptyOrderSearch | components/Dashboard/AdminDashboard.js:476-482 | Even with an empty search the list hides an order none of whose three names is populated, and shows every other order. |
| AdminDashboard.TimeAgo | components/Dashboard/AdminDashboard.js:263-298 | No date gives "New user". Under a minute, or a future date, gives "Just now". Otherwise the label uses the largest unit of which at least one whole unit has passed, counted in whole units and below the next unit's size. |
| AdminDashboard.NatToString | components/Dashboard/AdminDashboard.js:278 | A count prints as one or more decimal digits with no leading zero. |
| AdminDashboard.NatToStringValue | components/Dashboard/AdminDashboard.js:278 | The printed digits read back as the number. |
| AdminDashboard.Render | components/Dashboard/AdminDashboard.js:264-297 | A label is the count's digits, a space and the unit word, then a plural "s" iff the count exceeds 1, then " ago"; a missing date reads "New user" and under a minute "Just now". |
| AdminDashboard.RenderInjective | components/Dashboard/AdminDashboard.js:278-297 | Two labels that read alike come from the same count of the same unit. |
| AdminDashboard.RenderedCountReadsBack | components/Dashboard/AdminDashboard.js:278-297 | The number at the head of a label reads back as the count. |
| AdminDashboard.RenderNewUserOnly | components/Dashboard/AdminDashboard.js:264-266 | Only a missing date reads "New user". |
| AdminDashboard.LastActiveLabel | components/Dashboard/AdminDashboard.js:610 | A user's label is the rendered time since their last-active date, or since their creation date when there is no last-active date; it reads "New user" iff they have neither. |
| AdminDashboard.Decide | components/Dashboard/AdminDashboard.js:507-549 | For an admin and a stored order, approving marks the order approved, paid and confirmed. Rejecting marks it rejected and cancelled and leaves its payment. No other order or product changes, and an unknown order gives 404. |
| AdminDashboard.DecisionLeavesQueue | Dashboard/AdminDashboard.js:345-388 | A decided order no longer offers the buttons, and the pending count drops by exactly one. |
| AdminDashboard.CountIfReplace | components/Dashboard/AdminDashboard.js:507 | Replacing one order changes a count by at most that order's own contribution. |
| SellerDashboard.CategoryOrOther | Dashboard/SellerDashboard.js:88 | A product without a category is counted under "Other", so no category key is empty. |
| SellerDashboard.AvailablePlusSold | Dashboard/SellerDashboard.js:336-340 | The available and sold cards add up to the total card. |
| SellerDashboard.SellerStatsOf | Dashboard/SellerDashboard.js:76-97 | Available and sold are the counts of products with that status and add up to the total; revenue is the price sum of the successful (paid or approved) orders and lies between the paid revenue and the sum of all prices. The category table is a counting object of the products' categories ("Other" for an empty one) and the month table one of their months: distinct keys, each paired with its number of products. |
| Seqs.TalliesTotal | Dashboard/SellerDashboard.js:85-97 | Whatever its key order, a counting object's values add up to the number of elements counted. |
| SellerDashboard.AddImages | Dashboard/SellerDashboard.js:142-174 | The images are unchanged iff the batch is empty. A batch that would pass five images is refused whole, offering the room left. A batch with any file of another type is refused. A batch is accepted iff it is non-empty, fits and holds only valid files, and then the encoded files are appended to the old images. |
| SellerDashboard.AddedKeepsEveryFile | Dashboard/SellerDashboard.js:147-174 | The cut to five never drops a file: the earlier check has already refused any batch it would shorten. |
| SellerDashboard.RemoveAt | Dashboard/SellerDashboard.js:200-203 | Removing a valid index shortens the list by one, keeps the images before it and shifts those after it down. An index past the end changes nothing. |
| SellerDashboard.RemoveAtSplice | Dashboard/SellerDashboard.js:201 | Removing an index splices the list around it. |
| SellerDashboard.RemoveAtInverse | Dashboard/SellerDashboard.js:201 | Putting the removed image back where it was restores the list. |
| SellerDashboard.Reinsert | Dashboard/SellerDashboard.js:201 | Any list that agrees with the original except at the removed index gives the original back once the image is reinserted. |
| SellerDashboard.SubmitPayload | Dashboard/SellerDashboard.js:249-254 | "Other" is replaced by the custom category, and every other field is sent as it is. |
| SellerDashboard.SubmitGuard | Dashboard/SellerDashboard.js:211-222 | The form is sent iff a token is stored and the known role, if any, is seller or admin. The login message comes first. |
| SellerDashboard.SubmitGuardAgreesWithServer | Dashboard/SellerDashboard.js:218-222 | For a signed-in user with a known role, the page's guard passes iff the server creates the product. |
| SellerDashboard.EditFormOf | Dashboard/SellerDashboard.js:295-306 | A listed category is selected as it is. Any other category selects "Other" and goes into the custom field. |
| SellerDashboard.EditSubmitRoundTrip | Dashboard/SellerDashboard.js:250-303 | Editing a product and submitting the untouched form sends back the product's own fields, including its category, listed or not. |
| SellHistory.SummaryOf | components/History/SellHistory.js:74-157 | "Total Sales" counts every order, "Successful Sales" is the number of paid orders and revenue their price sum. The charts appear iff some order is paid, and revenue is 0 otherwise. |
| SellHistory.PaymentMethodData | components/History/SellHistory.js:104-113 | A counting object of the paid orders' methods: one distinct slice per method used by a paid order, at most three, each the number of paid orders with that method, adding up to the "Successful Sales" box. |
| SellHistory.PaidMethods | components/History/SellHistory.js:106-107 | Lists one method per paid order, and a method appears iff some paid order used it. |
| SellHistory.AtMostThreeMethods | components/History/SellHistory.js:111 | The chart has at most three labels, since there are three payment methods. |
| SellHistory.DistinctWithin | components/History/SellHistory.js:111 | Distinct labels drawn from a finite set are no more numerous than the set. |
| BuyerHome.CountOf | Home/BuyerHome.js:39-58 | A card shows 0 iff the fetch failed or answered with no list or an empty one. Otherwise it shows the list's length. |
| BuyerHome.HomeStatsOf | Home/BuyerHome.js:69-78 | Orders are counted, pending is the number awaiting approval, and spending is the revenue of the successful (paid or approved) orders, between the paid revenue and the sum of all prices. The cart and wishlist cards show the fetched counts, 0 after a failed fetch. |
| BuyerHome.HomeAgreesWithDashboard | Home/BuyerHome.js:69-75 | The home page and the buyer dashboard report the same order count, pending count and spending for the same orders. |
| BuyerHome.Featured | Home/BuyerHome.js:61-67 | At most six available products, none shown more often than it is stored, newest first. No available product left out is newer than one shown. |
| BuyerHome.RecentOrders | Home/BuyerHome.js:80 | The first five orders in the server's order, or all of them when there are fewer. |
| SellerHome.HomeStatsOf | components/Home/SellerHome.js:45-58 | Products and orders are counted; available, sold and pending are the counts with that status, available plus sold being the total; revenue is the price sum of the successful (paid or approved) orders. |
| SellerHome.HomeAgreesWithDashboard | components/Home/SellerHome.js:45-56 | The home page and the seller dashboard report the same product counts, revenue and order count. |
| SellerHome.Recent | components/Home/SellerHome.js:60-61 | The first six products and the first five orders, in the server's order. |
| CartPage.AddLinesIsSum | Cart/Cart.js:96-101 | The running sum adds exactly the line totals of the priced lines. |
| CartPage.CalculateTotal | Cart/Cart.js:94-102 | Without a cart the total is 0. Otherwise it is the sum of the line totals of the lines whose product exists with a truthy price. |
| CartPage.TotalCoversEachLine | Cart/Cart.js:94-102 | With no negative price or quantity, the total is at least any one priced line's total, and that line total is non-negative. |
| CartPage.TotalNonNegative | Cart/Cart.js:94-102 | With no negative price or quantity the total is never negative. |
| CartPage.QuantityChange | Cart/Cart.js:48-52 | A change to a quantity below 1 becomes a removal of that line. Any other change is an update to exactly the requested quantity. |
| CartPage.Send | Cart/Cart.js:48-77 | A removal reaches the remove route and an update reaches the update route, with the same line and quantity. |
| CartPage.PageNeverStoresBelowOne | Cart/Cart.js:48-64 | Through the page a line never ends up below 1: the changed line is either gone or holds exactly the requested quantity, which is at least 1. |
| CartPage.PlusThenMinus | Cart/Cart.js:150-152 | Pressing + and then − on a line gives back the cart unchanged. |
| CartPage.SetQuantityAt | routes/cart.js:63-88 | With unique line ids, updating a line changes exactly that line. |
| CartPage.SetThenRestore | routes/cart.js:63-88 | Setting a line's quantity and then setting the old quantity back gives the original cart. |
| CartPage.MinusAtOneRemoves | Cart/Cart.js:49-51 | At quantity 1 the − button removes the line, and only lines with that id. |
| LandingPage.Latest | components/Landing/LandingPage.js:80-85 | The eight newest available products, or all of them when there are fewer, none shown more often than it is stored, newest first. No available product left out is newer than one shown. |
| LandingPage.BestDeals | components/Landing/LandingPage.js:87-92 | The eight cheapest available products priced above 2000, or all of them when there are fewer, none shown more often than it is stored, cheapest first. No such deal left out is cheaper than one shown. |
| LandingPage.Target | components/Landing/LandingPage.js:63-78 | A signed-in buyer goes to the dashboard and anyone else to the login page with the dashboard as redirect. The address ends with the product id. |
| LandingPage.BuyTarget | components/Landing/LandingPage.js:63-69 | The buy button goes to the dashboard iff the visitor is a signed-in buyer, carrying the product id. |
| LandingPage.ViewTarget | components/Landing/LandingPage.js:71-78 | The view button goes to the dashboard iff the visitor is a signed-in buyer, carrying the product id. |
| LandingPage.BuyAndViewDiffer | components/Landing/LandingPage.js:65-76 | The buy and view buttons of the same product never lead to the same address. |
| LandingPage.Categories | components/Landing/LandingPage.js:56 | Each category is listed once, and a category is listed iff some product has it and it is non-empty. |
| LandingPage.CategoriesAppend | components/Landing/LandingPage.js:56 | The list is in order of first occurrence in the catalogue. |
| ShopPage.BestDeals | components/Pages/ShopPage.js:38-43 | The twelve cheapest available products, or all of them when there are fewer, none shown more often than it is stored, cheapest first. No available product left out is cheaper than one shown. |
| ShopPage.NewArrivals | components/Pages/ShopPage.js:45-50 | The twelve newest available products, or all of them when there are fewer, none shown more often than it is stored, newest first. No available product left out is newer than one shown. |
| ShopPage.BrowseCount | components/Pages/ShopPage.js:94 | The browse heading is the number of available products, and is 0 iff none is available. |
| ShopPage.BrowseCountAppend | components/Pages/ShopPage.js:94 | One more product raises the browse count by one iff it is available. |
| ShopPage.CategoryCards | components/Pages/ShopPage.js:29-121 | One card per distinct non-empty category of the catalogue, each with the number of its available products. |
| ShopPage.CardsAddUp | components/Pages/ShopPage.js:94-121 | The cards together count every available product that has a category exactly once, so never more than the browse heading. |
| ProductViewer.ShownCount | components/Product360Viewer/Product360Viewer.js:76 | At most five images are shown, and all of them when there are fewer. |
| ProductViewer.Next | components/Product360Viewer/Product360Viewer.js:75-78 | Defined iff there is an image. For any index, also one past the shown images, the result is the shown position congruent to index + 1 modulo the shown count; so it steps forward by one and wraps from the last shown image to 0. |
| ProductViewer.Prev | components/Product360Viewer/Product360Viewer.js:80-83 | Defined iff there is an image. For any index, the result is the shown position one step before the index modulo the shown count; so it steps back by one and wraps from 0 to the last shown image. |
| ProductViewer.PrevNextInverse | components/Product360Viewer/Product360Viewer.js:75-83 | On a shown position, back undoes forward and forward undoes back. |
| ProductViewer.AutoStep | components/Product360Viewer/Product360Viewer.js:15 | The auto-rotate step stays within the full image list. |
| ProductViewer.DragTarget | components/Product360Viewer/Product360Viewer.js:38-40 | The drag target is the index plus a fifth of the drag, rounded half up. |
| ProductViewer.Drag | components/Product360Viewer/Product360Viewer.js:35-46 | A drag moves to its target iff the target lies within the full image list, and otherwise leaves the index alone. |
| ProductViewer.Render | components/Product360Viewer/Product360Viewer.js:85-157 | No images gives the placeholder. Otherwise the shown position is the index when it is below the shown count and the last shown position otherwise, and the image is the one at that position. The arrows and thumbnails appear iff more than one image is shown, and the badge iff images were cut. |
| ProductViewer.ThumbnailShowsItsImage | components/Product360Viewer/Product360Viewer.js:141-153 | Clicking thumbnail k shows exactly image k. |
| ProductViewer.AutoRotatePastShown | components/Product360Viewer/Product360Viewer.js:12-27 | With more than five images, auto-rotate carries the index past the shown ones, and the view stays on the fifth image until the index wraps. |
| ImageViewer.Next | components/ImageViewer360.js:36-41 | Without images nothing changes. Otherwise the index becomes the next one modulo the image count (0 after the last) and the rotation is reset. |
| ImageViewer.Prev | components/ImageViewer360.js:43-48 | Without images nothing changes. Otherwise the index becomes the one whose successor, modulo the image count, is the current index (the last from the first), and the rotation is reset. |
| ImageViewer.NextPrevInverse | components/ImageViewer360.js:36-48 | On a valid index, back undoes forward and forward undoes back, apart from the rotation reset. |
| ImageViewer.ImagesChanged | components/ImageViewer360.js:11-15 | A non-empty new list restarts at the first image and keeps the rotation. An empty one changes nothing. |
| ImageViewer.Render | components/ImageViewer360.js:50-84 | No images gives the placeholder. Otherwise the current image is shown iff the index is in range, and the arrows and counter appear iff there is more than one image. |
| ImageViewer.NavigationKeepsIndexValid | components/ImageViewer360.js:11-48 | After navigation or the reset effect the render always finds an image. |
| PrivateRoute.DashboardOf | components/PrivateRoute.js:32-54 | The dashboard of a role is "/role/dashboard", and "/undefined/dashboard" without a role. |
| PrivateRoute.AreaOf | components/PrivateRoute.js:25-49 | A path belongs to the first of the admin, buyer and seller areas whose prefix it starts with. |
| PrivateRoute.Guard | components/PrivateRoute.js:5-58 | The guard shows loading iff the session is loading. A signed-out user goes to the admin login from an admin path and to the plain login elsewhere. A signed-in user sees the page iff the path is outside the three areas or in their own. Otherwise they go to their own dashboard, or to the admin login for an admin path without a role. |
| PrivateRoute.RedirectLandsOnOwnDashboard | components/PrivateRoute.js:31-54 | A signed-in user with a role who is turned away lands on their own dashboard, which the guard admits, so the redirect never loops. |
| PrivateRoute.OwnDashboardAdmitted | components/PrivateRoute.js:25-56 | Each role's dashboard path is one the guard admits that role to. |
| PrivateRoute.AreasAreExclusive | components/PrivateRoute.js:25-56 | A signed-in user sees an area page iff it is their role's area. |
| LoginPage.AlreadySignedIn | components/Auth/Login.js:30-34 | The page moves on iff it is the admin login page and an admin is already signed in, and then to the admin dashboard. |
| LoginPage.AlreadySignedInAdmitted | components/Auth/Login.js:30-34 | The route guard lets that admin into the page they are sent to. |
| LoginPage.CheckRegistration | components/Auth/Login.js:90-98 | Registration is sent iff the two passwords match and are at least 6 long. A mismatch is reported as such, and a matching short password as too short. |
| LoginPage.MismatchReportedFirst | components/Auth/Login.js:90-98 | A short password typed differently twice is reported as a mismatch, not as too short. |
| LoginPage.TypePhone | components/Auth/Login.js:280-286 | A typed phone value is taken iff it is empty or one to ten digits. Otherwise the field keeps its value. |
| LoginPage.Initial | components/Auth/Login.js:11-45 | The admin page starts with the admin role and any other page with buyer. The login form shows and the registration form is empty. |
| LoginPage.Step | components/Auth/Login.js:105-227 | Only the back link changes which page it is: it leaves the admin page for the plain one and keeps every other piece of state, the admin role included. A role button changes the role only off the admin page and never to admin. A successful registration clears the form, returns to the login form, and prefills the registered email and role. Editing the phone goes through the filter. |
| LoginPage.InitialConsistent | components/Auth/Login.js:11-15 | The first render is strictly consistent: admin page ⇔ admin role, no registration form on the admin page, no registration as admin, and a valid phone field. |
| LoginPage.StepConsistent | components/Auth/Login.js:159-332 | Every event keeps the page consistent: the admin page holds the admin role and no registration form, nobody registers as admin, and the phone field is valid. |
| LoginPage.Run | components/Auth/Login.js:159-332 | No run of events leads from the plain page to the admin page. |
| LoginPage.PlainPageStaysNonAdmin | components/Auth/Login.js:159-178 | On a consistent plain page with a non-admin role, no event brings the admin role back or opens the admin page. |
| LoginPage.RunConsistent | components/Auth/Login.js:159-332 | Any run of events from a consistent state stays consistent, so nobody registers as admin. |
| LoginPage.BackLinkKeepsAdminRole | components/Auth/Login.js:223-227 | Following the back link from the admin page's first render gives the plain page with the admin role: consistent, but not strictly. |
| LoginPage.StepIntended | components/Auth/Login.js:223-227 | The back link as intended shows the plain page's first render (buyer role, login form); every other event is as written. |
| LoginPage.StepIntendedConsistent | components/Auth/Login.js:159-332 | The intended step keeps the page strictly consistent. |
| LoginPage.RunIntendedConsistent | components/Auth/Login.js:159-332 | With the intended back link every run from a strictly consistent state stays so: the plain page never logs in as admin. |
| LoginPage.ClearedFormRefused | components/Auth/Login.js:110-118 | The cleared form cannot be sent again as it is, because it fails the length rule. |
| LoginPage.UserRole | components/Auth/Login.js:58 | The role the server answered with takes precedence over the form's. |
| LoginPage.AfterLogin | components/Auth/Login.js:58-79 | A buyer with a redirect parameter goes exactly there, followed by the product parameter if present, else the view one, else nothing. Everyone else goes to their own dashboard. |
| LoginPage.OwnDashboardAdmitted | components/Auth/Login.js:76-78 | A login that ignores the redirect lands on a page the route guard lets that user into. |
| LoginPage.LinkQuery | components/Landing/LandingPage.js:67-76 | The landing page's login link carries the buyer dashboard as redirect and the product in exactly one of the two parameters. |
| LoginPage.LoginResumesLandingClick | components/Auth/Login.js:67-72 | A visitor who follows a landing-page button to the login and signs in as a buyer lands exactly where the same button takes a signed-in buyer. |
| LegacyLogin.PressRoleButton | Auth/Login.js:114-136 | Pressing one of the three role buttons sets the form's role to that button's role; nothing else does. |
| LegacyLogin.EveryRoleSelectable | Auth/Login.js:114-136 | On the older page every role, admin included, is one button press from the starting form, whereas the current page's plain route ignores an admin press. |
| LegacyLogin.AfterLogin | Auth/Login.js:46-49 | A login goes to the dashboard of the role the server answered with, else the form's, and no URL parameter is consulted. |
| LegacyLogin.AfterRegister | Auth/Login.js:56-79 | The page moves on iff both checks pass and the server accepts, and then to the registered role's dashboard. |
| LegacyLogin.PagesAgreeWithoutRedirect | Auth/Login.js:46-49 | Without a redirect that applies, both pages send a login to the same dashboard, and the guard admits the user there. |
| LegacyLogin.RegisterLandsOnOwnDashboard | Auth/Login.js:75-79 | A registration always lands on a dashboard the new user's role is admitted to. |
| VirtualAssistant.NormalTerm | components/VirtualAssistant/VirtualAssistant.js:148 | The compared term is the lowered input with white space, and only white space, cut from both ends (a contiguous slice, as `trim()` keeps). So it has no upper-case letter, neither starts nor ends with white space, and is empty iff the input is blank. |
| VirtualAssistant.NormalTermIdempotent | components/VirtualAssistant/VirtualAssistant.js:148 | Normalizing a normalized term changes nothing. |
| VirtualAssistant.CheckAvailability | components/VirtualAssistant/VirtualAssistant.js:143-178 | Nothing is found without products or for a blank term. Otherwise a product is found iff it matches, by category in either direction, by title or description, or by a word of more than two letters. Every hit is a catalogue product. |
| VirtualAssistant.AvailabilityKeepsOrder | components/VirtualAssistant/VirtualAssistant.js:151-175 | Hits come in catalogue order: one more product at the end adds at most that product, at the end. |
| VirtualAssistant.UncategorisedMatchesEverything | components/VirtualAssistant/VirtualAssistant.js:157 | A product with an empty category is a hit for every non-blank term. |
| VirtualAssistant.FirstKeyIn | components/VirtualAssistant/VirtualAssistant.js:212-217 | The result is the first table entry whose key the lowercased name contains, and None iff there is none. |
| VirtualAssistant.CategoryFromProduct | components/VirtualAssistant/VirtualAssistant.js:181-218 | `null` iff the name contains no key. Otherwise the categories of the earliest key it contains. |
| VirtualAssistant.TabletIsElectronics | components/VirtualAssistant/VirtualAssistant.js:192-197 | Key order decides overlaps: a tablet is electronics, not furniture. |
| VirtualAssistant.CategoryEmoji | components/VirtualAssistant/VirtualAssistant.js:221-243 | The emoji of the earliest key the category contains, and the parcel when it contains none. |
| VirtualAssistant.ClothesGetsParcel | components/VirtualAssistant/VirtualAssistant.js:224-242 | The marketplace's own "Clothes" category gets the parcel, since "clothing" is not part of it. |
| VirtualAssistant.Categories | components/VirtualAssistant/VirtualAssistant.js:43-51 | Each category appears once, and a category is listed iff it is non-empty and some available product carries it. |
| VirtualAssistant.CategoriesAppend | components/VirtualAssistant/VirtualAssistant.js:43-51 | The list is in order of first occurrence among the available products. |

## Left out

- Persistence, HTTP transport, JWT signing, bcrypt hashing, e-mail sending, timers, toasts and `console` output. Each is replaced by the value it yields: a token or hash becomes a parameter, and the clock becomes a `now` parameter.
- Concurrency: two requests racing for the same product or the same unique e-mail are not modelled; each request runs against one snapshot.
- Mongoose schema validation. A value outside an enum makes the database answer 500; the model's enums cannot hold such values.
- The `authorize` middleware becomes the 403 branch of each route. The 401 branch of `routes/products.js:62` needs a missing user, which `protect` already rules out, so it is not modelled.
- The read-only user routes: the list of users, `GET /api/users/:id`, `GET /api/auth/me` and the resend-verification mail. The footer's public `GET /` and the admin's feedback `GET /` are left out too. Each only reads one collection.
- The assistant's `getResponse`. It dispatches on regular expressions and picks a random greeting, so it is neither deterministic nor about the catalogue's data.
- Floating point. Prices and amounts are integers. The average rating's `toFixed(1)` rounding, the image viewer's rotation angle and drag rotation are not modelled. A drag distance is an integer.
- Locale month names. A month label is an abstract `monthKey` function of the date.
- JavaScript string lengths count UTF-16 code units. The model counts characters, which differ only outside the Basic Multilingual Plane.
- URL encoding of query parameters: the model carries the raw values.
- `window.confirm` dialogs, as the reject-order and clear-cart confirmations. The model takes the confirmed path.
- The file-size checks of the image form (the 10 MB notice and the 35 MB and 40 MB limits) and the image compression. Compressed files are a parameter.
- The product form's `condition` field, which is passed through unchanged.
- The buyer dashboard's re-fetch of the product at checkout (`components/Dashboard/BuyerDashboard.js:385-392`). The model uses the product it was given.
- The login pages' effect timing: a redirect effect is a function of the state it reads.
- SellerDashboard.SellerStatsOf: the per-month revenue series `revenueByMonth` is not modelled.
- BuyerDashboard.CalculateBuyerStats: the per-month spending series `spendingByMonth` is not modelled.
- Seqs.CountingObject: JavaScript lists integer-like object keys first, in numeric order. The model keeps first-insertion order for every key. That agrees for the month labels and payment-method names, which are never integer-like. It does not agree for a custom category that looks like an integer (the "Other" option's free text, Dashboard/SellerDashboard.js:249-252): JavaScript lists such a category first, and the model lists it where it first occurs.
- UserRoutes.UpdateUser: a body e-mail that another account already holds makes the unique index refuse the write with 500. The model writes it through, so this route does not keep e-mails unique. The body fields `tokenExpiry`, `lastActive` and `_id` are not modelled either.
- UserRoutes.Apply: the User schema's own validators (e-mail format, required fields) are not part of this model; every given value is written.
- ProductRoutes.ApplyPatch: a body `createdAt` is taken to be ignored, as Mongoose does for a timestamp field; a body `_id` is not modelled.
- ProductRoutes.CreateProduct: the creation date is the server's clock at the request; a `createdAt` or `_id` sent in the body is not modelled, since the Product schema is not part of this model.
- ProductRoutes.ListProducts: the `location` and `search` parameters are MongoDB regular expressions. The model reads them as literal substrings, which agrees only for patterns without metacharacters: there a `.` matches any character, and a malformed pattern such as `(` makes the route answer 500.
- Text.Lower: folds the ASCII letters only. JavaScript's `toLowerCase()` and MongoDB's `i` option also fold letters of other scripts (`É`, `Σ`), so every case-insensitive comparison below is exact only on ASCII text.
- AdminDashboard.FilterUsers: case-insensitive only on ASCII letters (see Text.Lower).
- AdminDashboard.FilterProducts: case-insensitive only on ASCII letters (see Text.Lower).
- AdminDashboard.FilterOrders: case-insensitive only on ASCII letters (see Text.Lower).
- VirtualAssistant.CheckAvailability: case-insensitive only on ASCII letters (see Text.Lower).
- VirtualAssistant.NormalTerm: lowers ASCII letters only (see Text.Lower).
- AuthRoutes.NormalizeEmail: lowers ASCII letters only (see Text.Lower).
- UserRoutes.DeleteUser: removes the account alone, as the route does; the user's products, orders, carts and wishlists keep pointing at it.
- OrderRoutes.CreateOrder: the route populates the product's seller and reads `product.seller._id`; for a product whose seller account was deleted this throws and the route answers 500. The model has no users here and treats every seller reference as live.
- OrderRoutes.GetOrder: for a non-admin caller the route reads `order.buyer._id` and `order.seller._id` of the populated order; a deleted buyer or seller makes this throw and the route answer 500. The model compares the stored ids.
- AuthRoutes.Login: the two hardcoded credential pairs of `routes/auth.js` are special-cased before the database lookup. They are not modelled, and the login is required not to use them.

## Findings

| source | as written | input that shows it | evidently intended | confidence | as-written member | corrected member |
|---|---|---|---|---|---|---|
| components/Dashboard/AdminDashboard.js:218 | The month chart labels the six bars with the month names from January up to the current month. | In March the labels are Jan, Feb and Mar against six bars. Jan sits on the October bar and the last three bars have no label. | Label the six bars with the six months ending with the current one, wrapping over the year boundary. | not executed | OrderStats.LabelsMisplacedBeforeJune | OrderStats.WrappedLabelsMatchBars |
| routes/orders.js:127-129 | `PUT /api/orders/:id` refuses everyone but an admin or the order's seller before it reaches the buyer branch at line 155. | A buyer who is not the seller saves the address of their own pending order, and the route answers 403. | The order's buyer may edit the address and payment method of a pending order. | not executed | OrderRoutes.BuyerRefused | OrderRoutes.IntendedBuyerEdit |
| components/Auth/Login.js:223-227 | The "Back to regular login" link navigates to `/login`, which renders the same component in the same place (App.js:26-27), so the page keeps its state and its role stays `admin`. | Open `/login/admin` and follow the back link: the regular page shows no role highlighted, and the form sends role `admin`, with which an admin account signs in from the regular page. | The regular page starts over with the buyer role, as its first render does. | not executed | LoginPage.BackLinkKeepsAdminRole | LoginPage.RunIntendedConsistent |

=== FILE: admin_dashboard.dfy ===
/** The admin dashboard: the headline statistics, the sales and category charts, the three search boxes,
    the "last active" label of the user table and the approve/reject buttons of the order list. */
module AdminDashboard {
  import opened Wrappers
  import opened Entities
  import Seqs
  import Text
  import OrderStats
  import ProductLists
  import ProductRoutes
  import OrderRoutes

  // ----- statistics -----

  datatype AdminStats = AdminStats(
    totalUsers: nat,
    totalProducts: nat,
    totalSales: nat,
    totalRevenue: int,
    totalCustomers: nat,
    totalBuyers: nat,
    totalSellers: nat)

  predicate IsBuyer(u: User)
  {
    u.role == Buyer
  }

  predicate IsSeller(u: User)
  {
    u.role == Seller
  }

  /** The `stats` object: sales and revenue count paid orders only, customers are the distinct buyers of
      all orders, and buyers and sellers are counted by role. */
  function Stats(users: seq<User>, products: seq<Product>, orders: seq<Order>): (r: AdminStats)
    ensures r.totalUsers == |users| && r.totalProducts == |products|
    ensures r.totalSales == Seqs.CountIf(orders, OrderStats.Paid)
    ensures r.totalRevenue == OrderStats.Revenue(orders, OrderStats.Paid)
    ensures r.totalCustomers == |OrderStats.Customers(orders)|
    ensures r.totalBuyers == Seqs.CountIf(users, IsBuyer) && r.totalSellers == Seqs.CountIf(users, IsSeller)
    ensures r.totalSales <= |orders| && r.totalCustomers <= |orders|
    ensures r.totalBuyers + r.totalSellers <= r.totalUsers
    ensures r.totalSales == 0 ==> r.totalRevenue == 0
    ensures OrderStats.NonNegativePrices(orders) ==>
              0 <= r.totalRevenue <= OrderStats.Revenue(orders, OrderStats.Successful)
    ensures r.totalCustomers == 0 <==> forall j :: 0 <= j < |orders| ==> orders[j].buyer == ""
  {
    Seqs.CountIfDisjoint(users, IsBuyer, IsSeller);
    OrderStats.PaidRevenueAtMostSuccessful(orders);
    var customers := OrderStats.Customers(orders);
    assert |customers| > 0 ==> customers[0] in customers;
    AdminStats(|users|, |products|, Seqs.CountIf(orders, OrderStats.Paid), OrderStats.Revenue(orders, OrderStats.Paid),
               |customers|, Seqs.CountIf(users, IsBuyer), Seqs.CountIf(users, IsSeller))
  }

  // ----- charts -----

  /** The number of products of one category. */
  function CategorySize(products: seq<Product>, category: string): nat
    decreases |products|
  {
    if |products| == 0 then 0
    else (if products[0].category == category then 1 else 0) + CategorySize(products[1..], category)
  }

  /** `getCategoryData`: one slice per category, in order of first appearance, each as large as the
      number of products of that category; the slices add up to the whole catalogue. */
  function CategoryData(products: seq<Product>): (r: (seq<string>, seq<nat>))
    ensures Seqs.Distinct(r.0) && |r.1| == |r.0|
    ensures forall j :: 0 <= j < |products| ==> products[j].category in r.0
    ensures forall i :: 0 <= i < |r.0| ==> r.1[i] == CategorySize(products, r.0[i]) && r.1[i] > 0
    ensures Seqs.Sum(r.1) == |products|
  {
    var names := Seqs.Map(products, ProductLists.CategoryOf);
    var r := Seqs.CountingObject(names);
    forall i | 0 <= i < |r.0|
      ensures r.1[i] == CategorySize(products, r.0[i])
    {
      CategoryCountIsSize(products, r.0[i]);
    }
    assert forall j :: 0 <= j < |products| ==> names[j] == products[j].category;
    r
  }

  lemma {:induction false} CategoryCountIsSize(products: seq<Product>, category: string)
    ensures Seqs.Count(Seqs.Map(products, ProductLists.CategoryOf), category) == CategorySize(products, category)
    decreases |products|
  {
    if |products| > 0 {
      CategoryCountIsSize(products[1..], category);
      assert Seqs.Map(products, ProductLists.CategoryOf)[1..] == Seqs.Map(products[1..], ProductLists.CategoryOf);
    }
  }

  // ----- search boxes -----

  predicate UserHit(u: User, term: string)
  {
    ProductRoutes.ContainsIgnoringCase(u.name, term) || ProductRoutes.ContainsIgnoringCase(u.email, term)
  }

  /** `filteredUsers`: the users whose name or e-mail contains the term, ignoring case. */
  function FilterUsers(users: seq<User>, term: string): (r: seq<User>)
    ensures forall u :: u in r <==> u in users && UserHit(u, term)
    ensures forall u :: multiset(r)[u] == if UserHit(u, term) then multiset(users)[u] else 0
    ensures r == Seqs.Filter(users, (u: User) => UserHit(u, term))
    ensures term == "" ==> r == users
  {
    Seqs.FilterCount(users, (u: User) => UserHit(u, term));
    if term == "" then
      forall u | u in users ensures UserHit(u, term) { EmptyTermHits(u.name); }
      Seqs.FilterAll(users, (u: User) => UserHit(u, term));
      Seqs.Filter(users, (u: User) => UserHit(u, term))
    else
      Seqs.Filter(users, (u: User) => UserHit(u, term))
  }

  predicate ProductHit(p: Product, term: string)
  {
    ProductRoutes.ContainsIgnoringCase(p.title, term) || ProductRoutes.ContainsIgnoringCase(p.category, term)
  }

  /** `filteredProducts`: the products whose title or category contains the term, ignoring case. */
  function FilterProducts(products: seq<Product>, term: string): (r: seq<Product>)
    ensures forall p :: p in r <==> p in products && ProductHit(p, term)
    ensures forall p :: multiset(r)[p] == if ProductHit(p, term) then multiset(products)[p] else 0
    ensures r == Seqs.Filter(products, (p: Product) => ProductHit(p, term))
    ensures term == "" ==> r == products
  {
    Seqs.FilterCount(products, (p: Product) => ProductHit(p, term));
    if term == "" then
      forall p | p in products ensures ProductHit(p, term) { EmptyTermHits(p.title); }
      Seqs.FilterAll(products, (p: Product) => ProductHit(p, term));
      Seqs.Filter(products, (p: Product) => ProductHit(p, term))
    else
      Seqs.Filter(products, (p: Product) => ProductHit(p, term))
  }

  /** An empty search term is contained in every string. */
  lemma EmptyTermHits(s: string)
    ensures ProductRoutes.ContainsIgnoringCase(s, "")
  {
    assert Text.StartsWith(Text.Lower(s), Text.Lower(""));
  }

  /** An order as the order list receives it: the product, buyer and seller are populated, and each of
      the three searched names may be missing. */
  datatype OrderView = OrderView(order: Order, productTitle: Option<string>, buyerName: Option<string>, sellerName: Option<string>)

  /** `field?.toLowerCase().includes(term)`: a missing field never matches. */
  predicate FieldHit(field: Option<string>, term: string)
  {
    field.Some? && ProductRoutes.ContainsIgnoringCase(field.value, term)
  }

  predicate OrderHit(v: OrderView, term: string)
  {
    FieldHit(v.productTitle, term) || FieldHit(v.buyerName, term) || FieldHit(v.sellerName, term)
  }

  predicate HasSomeName(v: OrderView)
  {
    v.productTitle.Some? || v.buyerName.Some? || v.sellerName.Some?
  }

  /** The order list's filter: the orders whose product title, buyer name or seller name contains the term,
      ignoring case. */
  function FilterOrders(views: seq<OrderView>, term: string): (r: seq<OrderView>)
    ensures forall v :: v in r <==> v in views && OrderHit(v, term)
    ensures forall v :: multiset(r)[v] == if OrderHit(v, term) then multiset(views)[v] else 0
  {
    Seqs.FilterCount(views, (v: OrderView) => OrderHit(v, term));
    Seqs.Filter(views, (v: OrderView) => OrderHit(v, term))
  }

  /** The order filter keeps the list order: an order added at the end shows up at the end, exactly when it
      matches. */
  lemma FilterOrdersAppend(views: seq<OrderView>, term: string, v: OrderView)
    ensures FilterOrders(views + [v], term) == FilterOrders(views, term) + if OrderHit(v, term) then [v] else []
  {
    Seqs.FilterAppend(views, [v], (v: OrderView) => OrderHit(v, term));
  }

  /** Even with an empty search box the list hides an order none of whose three names was populated
      (its product, buyer and seller all deleted), and shows every other. */
  lemma EmptyOrderSearch(views: seq<OrderView>)
    ensures forall v :: v in FilterOrders(views, "") <==> v in views && HasSomeName(v)
  {
    forall v | v in views && HasSomeName(v)
      ensures OrderHit(v, "")
    {
      if v.productTitle.Some? {
        EmptyTermHits(v.productTitle.value);
      } else if v.buyerName.Some? {
        EmptyTermHits(v.buyerName.value);
      } else {
        EmptyTermHits(v.sellerName.value);
      }
    }
  }

  // ----- "last active" -----

  datatype TimeUnit = Minute | Hour | Day | Month | Year

  /** The label of `formatTimeAgo`. */
  datatype Elapsed = NewUser | JustNow | Ago(count: nat, unit: TimeUnit)

  /** The length of one unit in seconds; a month is thirty days and a year twelve such months. */
  function UnitSeconds(u: TimeUnit): nat
  {
    match u
    case Minute => 60
    case Hour => 3600
    case Day => 86400
    case Month => 2592000
    case Year => 31104000
  }

  /** How many of a unit make the next one up; a year has no next unit. */
  function UnitsInNext(u: TimeUnit): nat
  {
    match u
    case Minute => 60
    case Hour => 24
    case Day => 30
    case Month => 12
    case Year => 0
  }

  /** `Math.floor((now - past) / 1000)`: whole seconds, rounded down also for a date in the future.
      For a positive divisor, Dafny's `/` rounds down as `Math.floor` does. */
  function SecondsBetween(past: int, now: int): int
  {
    (now - past) / 1000
  }

  /** `formatTimeAgo(date)` with `now` the clock reading: no date is a new user, less than a minute
      (or a date in the future) is "just now", otherwise the largest unit of which at least one whole has
      passed, counted in whole units. */
  function TimeAgo(date: Option<int>, now: int): (r: Elapsed)
    ensures r == NewUser <==> date.None?
    ensures r == JustNow <==> date.Some? && SecondsBetween(date.value, now) < 60
    ensures r.Ago? ==>
              var s := SecondsBetween(date.value, now);
              && r.count >= 1
              && r.count == s / UnitSeconds(r.unit)
              && UnitSeconds(r.unit) <= s
              && (r.unit != Year ==> r.count < UnitsInNext(r.unit) && s < UnitSeconds(r.unit) * UnitsInNext(r.unit))
  {
    match date
    case None => NewUser
    case Some(past) =>
      var s := SecondsBetween(past, now);
      if s < 60 then JustNow
      else
        var minutes := s / 60;
        if minutes < 60 then Ago(minutes, Minute)
        else
          var hours := minutes / 60;
          if hours < 24 then Ago(hours, Hour)
          else
            var days := hours / 24;
            if days < 30 then Ago(days, Day)
            else
              var months := days / 30;
              if months < 12 then Ago(months, Month)
              else
                Ago(months / 12, Year)
  }

  function UnitName(u: TimeUnit): string
  {
    match u
    case Minute => "minute"
    case Hour => "hour"
    case Day => "day"
    case Month => "month"
    case Year => "year"
  }

  function Digit(d: nat): char
    requires d < 10
  {
    ('0' as int + d) as char
  }

  /** A number in decimal, as a template literal shows it. */
  function NatToString(n: nat): (r: string)
    ensures |r| >= 1 && Text.AllDigits(r)
    ensures r[0] == '0' ==> n == 0
  {
    if n < 10 then [Digit(n)] else NatToString(n / 10) + [Digit(n % 10)]
  }

  /** The value of a string of decimal digits. */
  function DigitsValue(s: string): nat
    requires Text.AllDigits(s)
  {
    if |s| == 0 then 0 else DigitsValue(s[..|s| - 1]) * 10 + (s[|s| - 1] as int - '0' as int)
  }

  /** Reading the printed number back gives the number. */
  lemma {:induction false} NatToStringValue(n: nat)
    ensures DigitsValue(NatToString(n)) == n
    decreases n
  {
    if n >= 10 {
      NatToStringValue(n / 10);
      var r := NatToString(n);
      assert r[..|r| - 1] == NatToString(n / 10);
    }
  }

  /** The text of the label: `${n} ${unit}${n > 1 ? 's' : ''} ago`. */
  function Render(e: Elapsed): (r: string)
    ensures e.NewUser? ==> r == "New user"
    ensures e.JustNow? ==> r == "Just now"
    ensures e.Ago? ==>
              && |r| > 5 && r[|r| - 4..] == " ago"
              && (r[|r| - 5] == 's' <==> e.count > 1)
    ensures e.Ago? ==>
              var digits := NatToString(e.count);
              var word := UnitName(e.unit);
              && |r| == |digits| + 1 + |word| + (if e.count > 1 then 1 else 0) + 4
              && r[..|digits|] == digits
              && r[|digits|..|digits| + 1 + |word|] == " " + word
  {
    match e
    case NewUser => "New user"
    case JustNow => "Just now"
    case Ago(n, u) =>
      var digits := NatToString(n);
      var plural := if n > 1 then "s" else "";
      LabelLayout(digits, UnitName(u), plural);
      digits + " " + UnitName(u) + plural + " ago"
  }

  /** Where each part of `${digits} ${word}${plural} ago` sits. */
  lemma LabelLayout(digits: string, word: string, plural: string)
    requires |word| > 0 && |plural| <= 1
    ensures var r := digits + " " + word + plural + " ago";
            && |r| == |digits| + 1 + |word| + |plural| + 4
            && r[..|digits|] == digits
            && r[|digits|..|digits| + 1 + |word|] == " " + word
            && r[|r| - 4..] == " ago"
            && r[|r| - 5] == (if |plural| == 1 then plural[0] else word[|word| - 1])
  {
    var head := digits + " " + word;
    var r := head + plural + " ago";
    assert r[..|head|] == head;
    assert head[..|digits|] == digits;
    assert head[|digits|..] == " " + word;
  }

  /** The number at the head of a label reads back as the count. */
  lemma RenderedCountReadsBack(n: nat, u: TimeUnit)
    ensures var r := Render(Ago(n, u));
            var k := |NatToString(n)|;
            k <= |r| && Text.AllDigits(r[..k]) && DigitsValue(r[..k]) == n
  {
    var r := Render(Ago(n, u));
    assert r[..|NatToString(n)|] == NatToString(n);
    NatToStringValue(n);
  }

  /** A label names its count and unit unambiguously: two labels that read alike come from the same
      count of the same unit. */
  lemma RenderInjective(n1: nat, u1: TimeUnit, n2: nat, u2: TimeUnit)
    requires Render(Ago(n1, u1)) == Render(Ago(n2, u2))
    ensures n1 == n2 && u1 == u2
  {
    var r := Render(Ago(n1, u1));
    var d1, d2 := NatToString(n1), NatToString(n2);
    SameLayout(r, d1, UnitName(u1), d2, UnitName(u2));
    NatToStringValue(n1);
    NatToStringValue(n2);
    UnitNameInitials(u1, u2);
  }

  /** Two readings of one string as digits, a space and a word of two or more letters agree on the
      digits and on the word's first two letters. */
  lemma SameLayout(r: string, d1: string, w1: string, d2: string, w2: string)
    requires Text.AllDigits(d1) && |w1| >= 2 && |d1| + 1 + |w1| <= |r|
    requires r[..|d1|] == d1 && r[|d1|..|d1| + 1 + |w1|] == " " + w1
    requires Text.AllDigits(d2) && |w2| >= 2 && |d2| + 1 + |w2| <= |r|
    requires r[..|d2|] == d2 && r[|d2|..|d2| + 1 + |w2|] == " " + w2
    ensures d1 == d2 && w1[..2] == w2[..2]
  {
    assert r[|d1|..|d1| + 1 + |w1|][0] == r[|d1|];
    assert r[|d2|..|d2| + 1 + |w2|][0] == r[|d2|];
    DigitRunEnds(r, |d1|, |d2|);
    DigitRunEnds(r, |d2|, |d1|);
    assert d1 == r[..|d1|] == d2;
    assert w1[0] == (" " + w1)[1] == r[|d1| + 1] == (" " + w2)[1] == w2[0];
    assert w1[1] == (" " + w1)[2] == r[|d1| + 2] == (" " + w2)[2] == w2[1];
    assert w1[..2] == [w1[0], w1[1]] && w2[..2] == [w2[0], w2[1]];
  }

  /** No two unit words share their first two letters. */
  lemma UnitNameInitials(u1: TimeUnit, u2: TimeUnit)
    requires UnitName(u1)[..2] == UnitName(u2)[..2]
    ensures u1 == u2
  {
    assert UnitName(u1)[..2][0] == UnitName(u2)[..2][0];
    assert UnitName(u1)[..2][1] == UnitName(u2)[..2][1];
  }

  /** Where a label's leading run of digits stops: at the space after the count. */
  lemma DigitRunEnds(r: string, k1: nat, k2: nat)
    requires k1 < |r| && k2 <= |r| && r[k1] == ' ' && Text.AllDigits(r[..k2])
    ensures k2 <= k1
  {
  }

  /** Only a missing date reads "New user". */
  lemma RenderNewUserOnly(e: Elapsed)
    ensures Render(e) == "New user" <==> e.NewUser?
  {
    if e.Ago? {
      assert Render(e)[|Render(e)| - 4..] == " ago";
      assert "New user"[4..] != " ago";
    } else if e.JustNow? {
      assert "Just now"[0] != "New user"[0];
    }
  }

  /** The table shows `formatTimeAgo(u.lastActive || u.createdAt)`. */
  function LastActiveLabel(u: User, createdAt: Option<int>, now: int): (r: string)
    ensures u.lastActive.None? && createdAt.None? <==> r == "New user"
    ensures u.lastActive.Some? ==> r == Render(TimeAgo(u.lastActive, now))
    ensures u.lastActive.None? ==> r == Render(TimeAgo(createdAt, now))
  {
    var date := if u.lastActive.Some? then u.lastActive else createdAt;
    var e := TimeAgo(date, now);
    RenderNewUserOnly(e);
    Render(e)
  }

  // ----- approve and reject -----

  /** The approve and reject buttons are rendered for pending orders only. */
  predicate OffersDecision(o: Order)
  {
    o.approvalStatus == ApprovalPending
  }

  /** The body each button sends: `{ approvalStatus: 'Approved' }` or `{ approvalStatus: 'Rejected' }`. */
  function DecisionBody(approve: bool): OrderRoutes.UpdateBody
  {
    OrderRoutes.UpdateBody(None, None, Some(if approve then Approved else Rejected), None, None)
  }

  /** A button press against the update route. For an admin and a stored order, approving also marks the
      order paid and confirmed, rejecting cancels it and leaves its payment as it was, and nothing else
      about the order or the store changes. */
  function Decide(st: OrderRoutes.Store, admin: Caller, o: Order, approve: bool, now: int): (r: Result<(OrderRoutes.Store, Order)>)
    ensures FindOrder(st.orders, o.id).None? ==> r == Err(NotFound)
    ensures admin.role == Admin && FindOrder(st.orders, o.id).Some? ==>
              var i := FindOrder(st.orders, o.id).value;
              var stored := st.orders[i];
              && r.Ok?
              && r.value.1 == (if approve then stored.(approvalStatus := Approved, paymentStatus := PaymentCompleted, orderStatus := Confirmed)
                               else stored.(approvalStatus := Rejected, orderStatus := Cancelled))
              && r.value.0 == OrderRoutes.Store(st.products, st.orders[i := r.value.1])
  {
    OrderRoutes.UpdateOrder(st, admin, o.id, DecisionBody(approve), now)
  }

  /** A decided order leaves the queue of pending orders: the pending count drops by one. */
  lemma DecisionLeavesQueue(st: OrderRoutes.Store, admin: Caller, i: nat, approve: bool, now: int)
    requires admin.role == Admin && i < |st.orders| && FindOrder(st.orders, st.orders[i].id) == Some(i)
    requires OffersDecision(st.orders[i])
    ensures var r := Decide(st, admin, st.orders[i], approve, now);
            && r.Ok? && !OffersDecision(r.value.1)
            && Seqs.CountIf(r.value.0.orders, OrderStats.AwaitingApproval)
               == Seqs.CountIf(st.orders, OrderStats.AwaitingApproval) - 1
  {
    var r := Decide(st, admin, st.orders[i], approve, now);
    CountIfReplace(st.orders, i, r.value.1, OrderStats.AwaitingApproval);
  }

  /** Replacing one element changes a count by at most the element's own contribution. */
  lemma {:induction false} CountIfReplace<T>(s: seq<T>, i: nat, x: T, p: T -> bool)
    requires i < |s|
    ensures Seqs.CountIf(s[i := x], p) == Seqs.CountIf(s, p) - (if p(s[i]) then 1 else 0) + (if p(x) then 1 else 0)
    decreases |s|
  {
    if i > 0 {
      CountIfReplace(s[1..], i - 1, x, p);
      assert s[i := x][1..] == s[1..][i - 1 := x];
    }
  }
}

=== FILE: auth_routes.dfy ===
/** The authentication endpoints (`/api/auth`): registration, the login decision chain and e-mail
    verification. Password hashing is abstract: `matches(candidate, stored)` stands for `comparePassword`,
    and a registered password is stored as given (the hashing hook is not part of this model). */
module AuthRoutes {
  import opened Wrappers
  import opened Entities
  import Text
  import Seqs
  import UserRoutes

  /** Verification tokens live for 24 hours, in milliseconds. */
  const TokenLifetime: int := 24 * 60 * 60 * 1000

  /** `email.toLowerCase().trim()`: the form in which e-mails are stored and looked up. */
  function NormalizeEmail(email: string): (r: string)
    ensures |r| <= |email|
    ensures forall i :: 0 <= i < |r| ==> !('A' <= r[i] <= 'Z')
    ensures |r| > 0 ==> !Text.IsSpace(r[0]) && !Text.IsSpace(r[|r| - 1])
    ensures forall i :: 0 <= i < |r| ==> r[i] in Text.Lower(email)
    ensures r == "" <==> Text.IsBlank(email)
    ensures Text.IsTrimOf(Text.Lower(email), r)
  {
    Text.TrimLowerFacts(email);
    Text.Trim(Text.Lower(email))
  }

  /** Normalizing twice is normalizing once, so a stored e-mail is found again under its own form. */
  lemma NormalizeEmailIdempotent(email: string)
    ensures NormalizeEmail(NormalizeEmail(email)) == NormalizeEmail(email)
  {
    var r := NormalizeEmail(email);
    Text.LowerNoop(r);
    Text.TrimNoop(r);
  }

  /** Emails are unique among stored users. */
  ghost predicate UniqueEmails(users: seq<User>)
  {
    forall i, j :: 0 <= i < j < |users| ==> users[i].email != users[j].email
  }

  /** `User.findOne({ email })`. */
  function FindByEmail(users: seq<User>, email: string): (r: Option<nat>)
    ensures r.Some? ==> r.value < |users| && users[r.value].email == email
    ensures r.None? ==> forall i :: 0 <= i < |users| ==> users[i].email != email
  {
    Seqs.FindIndex(users, (u: User) => u.email == email)
  }

  /** The body of `POST /register`; `None` stands for an absent or empty field. */
  datatype RegisterRequest = RegisterRequest(
    name: string,
    email: string,
    password: string,
    role: Option<Role>,
    phone: Option<string>,
    address: string,
    location: Option<string>)

  /** The registration phone rule: a non-blank phone must be ten digits once trimmed. */
  predicate PhoneAcceptable(phone: Option<string>)
  {
    !(phone.Some? && Text.Trim(phone.value) != "" && !Text.IsTenDigits(Text.Trim(phone.value)))
  }

  /** Registration and profile update agree on non-blank phones: the same values pass, and the same
      trimmed string is stored. They differ on blank ones, which registration keeps and the update nulls. */
  lemma PhoneRulesAgree(raw: string)
    requires !Text.IsBlank(raw)
    ensures PhoneAcceptable(Some(raw)) <==> UserRoutes.NormalizePhone(raw).Ok?
    ensures PhoneAcceptable(Some(raw)) ==> UserRoutes.NormalizePhone(raw) == Ok(Some(Text.Trim(raw)))
  {
    Text.BlankIffTrimmedEmpty(raw);
  }

  /** `POST /register`: 400 for a bad phone, then 400 for an e-mail already registered (after
      normalization); otherwise a new user is appended, holding `token` until `now` plus 24 hours.
      Only an admin account starts verified. */
  function Register(users: seq<User>, req: RegisterRequest, newId: Id, token: string, now: int): (r: Result<(seq<User>, User)>)
    ensures r.Ok? <==> PhoneAcceptable(req.phone) && FindByEmail(users, NormalizeEmail(req.email)).None?
    ensures r.Err? ==> r.status == BadRequest
    ensures r.Ok? ==>
              var u := r.value.1;
              && r.value.0 == users + [u]
              && u.email == NormalizeEmail(req.email)
              && u.role == req.role.GetOr(Buyer)
              && (u.isEmailVerified <==> u.role == Admin)
              && u.verificationToken == Some(token) && u.tokenExpiry == Some(now + TokenLifetime)
              && u.password == Some(req.password) && u.isActive
              && (Truthy(req.phone) ==> u.phone == Some(Text.Trim(req.phone.value)))
    ensures r.Ok? && UniqueEmails(users) ==> UniqueEmails(r.value.0)
  {
    if !PhoneAcceptable(req.phone) then Err(BadRequest)
    else
      var email := NormalizeEmail(req.email);
      match FindByEmail(users, email)
      case Some(_) => Err(BadRequest)
      case None =>
        var role := req.role.GetOr(Buyer);
        var u := User(newId, req.name, email, Some(req.password), role,
                      if Truthy(req.phone) then Some(Text.Trim(req.phone.value)) else req.phone,
                      req.address,
                      if Truthy(req.location) then Text.Trim(req.location.value) else "",
                      true, role == Admin, Some(token), Some(now + TokenLifetime), None);
        AppendNewEmail(users, u);
        Ok((users + [u], u))
  }

  /** Appending a user whose e-mail no stored user has keeps the e-mails unique, and the lookup of that
      e-mail then finds the new user. */
  lemma AppendNewEmail(users: seq<User>, u: User)
    requires forall i :: 0 <= i < |users| ==> users[i].email != u.email
    ensures UniqueEmails(users) ==> UniqueEmails(users + [u])
    ensures FindByEmail(users + [u], u.email) == Some(|users|)
  {
    var all := users + [u];
    assert forall i :: 0 <= i < |users| ==> all[i] == users[i];
    assert all[|users|] == u;
  }

  /** The body of `POST /login`; a missing field is the empty string. */
  datatype LoginRequest = LoginRequest(email: string, password: string, role: string)

  /** The two fixed credential pairs the handler special-cases; they are outside this model. */
  predicate FixedCredentials(req: LoginRequest)
  {
    || (Text.Lower(req.email) == "superadmin" && req.password == "superadmin")
    || (Text.Lower(req.email) == "nirajanbhattarai20@gmail.com" && req.password == "1234")
  }

  /** A login's outcome: the store (the `lastActive` stamp is saved before the role gate runs, so it
      persists even when the gate refuses) and either the role handed back or an error. */
  datatype LoginOutcome = LoginOutcome(users: seq<User>, result: Result<Role>)

  /** Both fields were supplied (`email && password`). */
  predicate Filled(req: LoginRequest)
  {
    req.email != "" && req.password != ""
  }

  /** The stored account for the e-mail exists, has a password, and the password matches. */
  predicate ValidCredentials(users: seq<User>, req: LoginRequest, matches: (string, string) -> bool)
  {
    match FindByEmail(users, NormalizeEmail(req.email))
    case None => false
    case Some(i) => Truthy(users[i].password) && matches(req.password, users[i].password.value)
  }

  /** The checks before the role gate: 400 for a missing field, 401 for an unknown e-mail, a missing stored
      password or a wrong password (one status for all three), 403 for a deactivated non-admin. */
  function Authenticate(users: seq<User>, req: LoginRequest, matches: (string, string) -> bool): (r: Result<nat>)
    ensures r == Err(BadRequest) <==> !Filled(req)
    ensures r == Err(Unauthorized) <==> Filled(req) && !ValidCredentials(users, req, matches)
    ensures r.Ok? ==> FindByEmail(users, NormalizeEmail(req.email)) == Some(r.value)
    ensures Filled(req) && ValidCredentials(users, req, matches) ==>
              var u := users[FindByEmail(users, NormalizeEmail(req.email)).value];
              (r.Ok? <==> u.role == Admin || u.isActive) && (r.Err? ==> r.status == Forbidden)
  {
    if req.email == "" || req.password == "" then Err(BadRequest)
    else
      match FindByEmail(users, NormalizeEmail(req.email))
      case None => Err(Unauthorized)
      case Some(i) =>
        var u := users[i];
        if !Truthy(u.password) then Err(Unauthorized)
        else if !matches(req.password, u.password.value) then Err(Unauthorized)
        else if u.role != Admin && !u.isActive then Err(Forbidden)
        else Ok(i)
  }

  /** `POST /login`, without the fixed-credential branches. After authentication `lastActive` is stamped;
      then a requested `'admin'` role succeeds only for an admin, any other non-empty requested role must
      equal the stored one, and the stored role is returned. */
  function Login(users: seq<User>, req: LoginRequest, matches: (string, string) -> bool, now: int): (r: LoginOutcome)
    requires !FixedCredentials(req)
    ensures Authenticate(users, req, matches).Err? ==>
              r == LoginOutcome(users, Err(Authenticate(users, req, matches).status))
    ensures Authenticate(users, req, matches).Ok? ==>
              var i := Authenticate(users, req, matches).value;
              var u := users[i];
              && r.users == users[i := u.(lastActive := Some(now))]
              && (req.role == "admin" ==> r.result == (if u.role == Admin then Ok(Admin) else Err(Forbidden)))
              && (req.role != "admin" ==>
                    r.result == (if req.role != "" && RoleName(u.role) != req.role then Err(Forbidden) else Ok(u.role)))
    ensures r.result.Ok? ==> r.result.value == users[Authenticate(users, req, matches).value].role
  {
    match Authenticate(users, req, matches)
    case Err(s) => LoginOutcome(users, Err(s))
    case Ok(i) =>
      var u := users[i];
      var stamped := users[i := u.(lastActive := Some(now))];
      if req.role == "admin" then
        LoginOutcome(stamped, if u.role == Admin then Ok(Admin) else Err(Forbidden))
      else if req.role != "" && RoleName(u.role) != req.role then LoginOutcome(stamped, Err(Forbidden))
      else LoginOutcome(stamped, Ok(u.role))
  }

  /** The role gate in one line: a login succeeds exactly when the requested role is empty or names the
      stored role, and it then returns the stored role. */
  lemma RoleGate(users: seq<User>, req: LoginRequest, matches: (string, string) -> bool, now: int)
    requires !FixedCredentials(req)
    requires Authenticate(users, req, matches).Ok?
    ensures var u := users[Authenticate(users, req, matches).value];
            Login(users, req, matches, now).result
              == if req.role == "" || req.role == RoleName(u.role) then Ok(u.role) else Err(Forbidden)
  {
    var u := users[Authenticate(users, req, matches).value];
    assert RoleName(u.role) == "admin" <==> u.role == Admin by {
      match u.role
      case Buyer => assert RoleName(Buyer)[0] != 'a';
      case Seller => assert RoleName(Seller)[0] != 'a';
      case Admin =>
    }
  }

  /** The three credential failures look the same to the client. */
  lemma CredentialFailuresIndistinguishable(users: seq<User>, req: LoginRequest, matches: (string, string) -> bool, now: int)
    requires !FixedCredentials(req)
    requires req.email != "" && req.password != ""
    requires var i := FindByEmail(users, NormalizeEmail(req.email));
             i.None? || !Truthy(users[i.value].password) || !matches(req.password, users[i.value].password.value)
    ensures Login(users, req, matches, now) == LoginOutcome(users, Err(Unauthorized))
  {
  }

  /** A freshly registered account can log in with the same e-mail as typed and the same password, without
      naming a role, and gets the role it registered with. */
  lemma RegisterThenLogin(users: seq<User>, req: RegisterRequest, newId: Id, token: string, now: int,
                          matches: (string, string) -> bool, later: int)
    requires UniqueEmails(users)
    requires Register(users, req, newId, token, now).Ok?
    requires req.email != "" && req.password != ""
    requires matches(req.password, req.password)
    requires !FixedCredentials(LoginRequest(req.email, req.password, ""))
    ensures var users' := Register(users, req, newId, token, now).value.0;
            Login(users', LoginRequest(req.email, req.password, ""), matches, later).result == Ok(req.role.GetOr(Buyer))
  {
    var reg := Register(users, req, newId, token, now).value;
    var users' := reg.0;
    var email := NormalizeEmail(req.email);
    assert users' == users + [reg.1] && reg.1.email == email;
    AppendNewEmail(users, reg.1);
    assert users'[|users|] == reg.1;
    var lr := LoginRequest(req.email, req.password, "");
    assert ValidCredentials(users', lr, matches);
    assert Authenticate(users', lr, matches) == Ok(|users|);
  }

  /** `GET /verify-email/:token`: the first user holding the token with an expiry later than `now`. */
  function FindByToken(users: seq<User>, token: string, now: int): (r: Option<nat>)
    ensures r.Some? ==> r.value < |users| && HoldsToken(users[r.value], token, now)
    ensures r.None? ==> forall i :: 0 <= i < |users| ==> !HoldsToken(users[i], token, now)
  {
    Seqs.FindIndex(users, (u: User) => HoldsToken(u, token, now))
  }

  predicate HoldsToken(u: User, token: string, now: int)
  {
    u.verificationToken == Some(token) && u.tokenExpiry.Some? && u.tokenExpiry.value > now
  }

  /** `GET /verify-email/:token`: 400 unless some user holds the unexpired token; that user becomes verified
      and loses the token. */
  function VerifyEmail(users: seq<User>, token: string, now: int): (r: Result<seq<User>>)
    ensures r.Ok? <==> exists i :: 0 <= i < |users| && HoldsToken(users[i], token, now)
    ensures r.Err? ==> r.status == BadRequest
    ensures r.Ok? ==>
              var i := FindByToken(users, token, now).value;
              && |r.value| == |users|
              && r.value[i] == users[i].(isEmailVerified := true, verificationToken := None, tokenExpiry := None)
              && forall j :: 0 <= j < |users| && j != i ==> r.value[j] == users[j]
  {
    match FindByToken(users, token, now)
    case None => Err(BadRequest)
    case Some(i) =>
      Ok(users[i := users[i].(isEmailVerified := true, verificationToken := None, tokenExpiry := None)])
  }

  /** A token held by one user works once: a second verification with it is refused. */
  lemma TokenSingleUse(users: seq<User>, token: string, now: int, later: int)
    requires forall i, j :: 0 <= i < j < |users| && users[i].verificationToken == Some(token)
                            ==> users[j].verificationToken != Some(token)
    requires VerifyEmail(users, token, now).Ok?
    ensures VerifyEmail(VerifyEmail(users, token, now).value, token, later) == Err(BadRequest)
  {
    var i := FindByToken(users, token, now).value;
    var after := VerifyEmail(users, token, now).value;
    forall j | 0 <= j < |after|
      ensures !HoldsToken(after[j], token, later)
    {
      if j != i {
        assert after[j] == users[j];
        if j < i {
          assert users[j].verificationToken != Some(token);
        } else {
          assert users[i].verificationToken == Some(token);
        }
      }
    }
  }
}

=== FILE: buy_history.dfy ===
/** The buyer's purchase history page: the pending-only edit of an order, the request its save sends, and
    the amount spent. */
module BuyHistory {
  import opened Wrappers
  import opened Entities
  import Seqs
  import OrderStats
  import OrderRoutes

  /** The edit form: the shipping address and the payment method. */
  datatype EditForm = EditForm(shippingAddress: string, paymentMethod: PaymentMethod)

  const NotPendingMessage := "Only pending orders can be edited"

  /** `handleEditOrder`: refused unless the order is still pending; otherwise the form opens prefilled with
      the order's current address and method. */
  function StartEdit(o: Order): (r: Result<EditForm>)
    ensures r.Ok? <==> o.approvalStatus == ApprovalPending
    ensures r.Ok? ==> r.value.shippingAddress == o.shippingAddress && r.value.paymentMethod == o.paymentMethod
  {
    if o.approvalStatus != ApprovalPending then Err(BadRequest)
    else Ok(EditForm(o.shippingAddress, o.paymentMethod))
  }

  /** The edit button is rendered for pending orders only; approved orders show a confirmation instead. */
  predicate ShowsEditButton(o: Order)
  {
    o.approvalStatus == ApprovalPending
  }

  predicate ShowsApprovedNote(o: Order)
  {
    o.approvalStatus == Approved
  }

  /** The button is offered exactly for the orders `handleEditOrder` accepts, and never next to the
      approval note. */
  lemma EditButtonMatchesGuard(o: Order)
    ensures ShowsEditButton(o) <==> StartEdit(o).Ok?
    ensures !(ShowsEditButton(o) && ShowsApprovedNote(o))
  {
  }

  /** The body `handleSaveEdit` sends: the address (ignored by the server when empty) and the method, and
      nothing else. */
  function SavePayload(form: EditForm): (r: OrderRoutes.UpdateBody)
    ensures r.orderStatus.None? && r.paymentStatus.None? && r.approvalStatus.None?
    ensures r.paymentMethod == Some(form.paymentMethod)
    ensures Truthy(r.shippingAddress) <==> form.shippingAddress != ""
    ensures r.shippingAddress.Some? ==> r.shippingAddress.value == form.shippingAddress
  {
    OrderRoutes.UpdateBody(None, None, None,
                           if form.shippingAddress != "" then Some(form.shippingAddress) else None,
                           Some(form.paymentMethod))
  }

  /** `handleSaveEdit` against the update route as written. */
  function SaveEdit(st: OrderRoutes.Store, caller: Caller, o: Order, form: EditForm, now: int): (r: Result<(OrderRoutes.Store, Order)>)
    ensures r.Ok? ==> r.value.0.products == st.products
    ensures (&& FindOrder(st.orders, o.id).Some? && caller.role == Buyer
             && st.orders[FindOrder(st.orders, o.id).value].seller != caller.id) ==> r == Err(Forbidden)
  {
    OrderRoutes.UpdateOrder(st, caller, o.id, SavePayload(form), now)
  }

  /** As written the save never works for the order's own buyer: the route's seller-or-admin guard refuses
      it before the buyer branch is reached, so a buyer who is not also the seller gets 403 however the form
      is filled. */
  lemma OwnBuyerSaveRefused(st: OrderRoutes.Store, caller: Caller, i: nat, form: EditForm, now: int)
    requires i < |st.orders| && FindOrder(st.orders, st.orders[i].id) == Some(i)
    requires caller.role == Buyer && st.orders[i].buyer == caller.id && st.orders[i].seller != caller.id
    requires st.orders[i].approvalStatus == ApprovalPending
    ensures StartEdit(st.orders[i]).Ok?
    ensures SaveEdit(st, caller, st.orders[i], form, now) == Err(Forbidden)
  {
  }

  /** `handleSaveEdit` against the route with the guard it evidently means. */
  function SaveEditIntended(st: OrderRoutes.Store, caller: Caller, o: Order, form: EditForm, now: int): (r: Result<(OrderRoutes.Store, Order)>)
    ensures r.Ok? ==> r.value.0.products == st.products
  {
    OrderRoutes.UpdateOrderIntended(st, caller, o.id, SavePayload(form), now)
  }

  /** With the intended guard, the buyer's save of a pending order stores exactly the form's address and
      method, re-derives the payment status from the method, and changes nothing else. */
  lemma IntendedSaveStoresForm(st: OrderRoutes.Store, caller: Caller, i: nat, form: EditForm, now: int)
    requires i < |st.orders| && FindOrder(st.orders, st.orders[i].id) == Some(i)
    requires caller.role == Buyer && st.orders[i].buyer == caller.id
    requires st.orders[i].approvalStatus == ApprovalPending && form.shippingAddress != ""
    ensures var o := st.orders[i];
            var r := SaveEditIntended(st, caller, o, form, now);
            && r.Ok?
            && r.value.1 == o.(shippingAddress := form.shippingAddress, paymentMethod := form.paymentMethod,
                               paymentStatus := PaymentStatusFor(form.paymentMethod))
            && r.value.0.orders == st.orders[i := r.value.1]
  {
    OrderRoutes.IntendedBuyerEdit(st, caller, st.orders[i].id, form.shippingAddress, form.paymentMethod, now);
  }

  /** The page's total spent: paid orders only, which never exceeds what the buyer dashboard reports for
      the same orders. */
  function TotalSpent(orders: seq<Order>): (r: int)
    ensures r == OrderStats.Revenue(orders, OrderStats.Paid)
    ensures OrderStats.NonNegativePrices(orders) ==>
              0 <= r <= OrderStats.Revenue(orders, OrderStats.Successful)
  {
    OrderStats.PaidRevenueAtMostSuccessful(orders);
    OrderStats.Revenue(orders, OrderStats.Paid)
  }
}

=== FILE: buyer_dashboard.dfy ===
/** The buyer dashboard's own logic: the catalogue's price filter and sort, the order statistics, the
    checkout form's validation, the cart-checkout selection and the add-to-cart guard. */
module BuyerDashboard {
  import opened Wrappers
  import opened Entities
  import Seqs
  import Text
  import CardInput
  import OrderStats
  import ProductRoutes
  import OrderRoutes
  import CartRoutes

  /** The price filter's options: `'all'`, `'under-1000'`, `'1000-5000'`, `'5000-10000'`, `'over-10000'`. */
  datatype PriceFilter = AllPrices | Under1000 | From1000To5000 | From5000To10000 | Over10000

  /** Whether a price (a missing one read as 0) passes the filter. */
  predicate InPriceBucket(f: PriceFilter, price: int)
  {
    match f
    case AllPrices => true
    case Under1000 => price < 1000
    case From1000To5000 => 1000 <= price <= 5000
    case From5000To10000 => 5000 < price <= 10000
    case Over10000 => price > 10000
  }

  /** The one narrowing filter a price passes. */
  function BucketOf(price: int): (r: PriceFilter)
    ensures r != AllPrices && InPriceBucket(r, price)
  {
    if price < 1000 then Under1000
    else if price <= 5000 then From1000To5000
    else if price <= 10000 then From5000To10000
    else Over10000
  }

  /** The four narrowing filters partition the prices: each price passes exactly one of them. */
  lemma PriceBucketsPartition(f: PriceFilter, price: int)
    requires f != AllPrices
    ensures InPriceBucket(f, price) <==> f == BucketOf(price)
  {
  }

  /** The price-filter step of `fetchProducts`, skipped for `'all'`. */
  function FilterByPrice(products: seq<Product>, f: PriceFilter): (r: seq<Product>)
    ensures forall p :: p in r <==> p in products && InPriceBucket(f, p.price)
    ensures forall p :: multiset(r)[p] == if InPriceBucket(f, p.price) then multiset(products)[p] else 0
    ensures r == Seqs.Filter(products, (p: Product) => InPriceBucket(f, p.price))
    ensures f == AllPrices ==> r == products
  {
    if f == AllPrices then
      Seqs.FilterAll(products, (p: Product) => InPriceBucket(f, p.price));
      products
    else
      Seqs.FilterCount(products, (p: Product) => InPriceBucket(f, p.price));
      Seqs.Filter(products, (p: Product) => InPriceBucket(f, p.price))
  }

  /** Between them the four narrowing filters show every product exactly once. */
  lemma {:induction false} BucketCountsAddUp(products: seq<Product>)
    ensures |FilterByPrice(products, Under1000)| + |FilterByPrice(products, From1000To5000)|
            + |FilterByPrice(products, From5000To10000)| + |FilterByPrice(products, Over10000)| == |products|
    decreases |products|
  {
    if |products| > 0 {
      var rest := products[1..];
      BucketCountsAddUp(rest);
      BucketHead(products, Under1000);
      BucketHead(products, From1000To5000);
      BucketHead(products, From5000To10000);
      BucketHead(products, Over10000);
      PriceBucketsPartition(Under1000, products[0].price);
      PriceBucketsPartition(From1000To5000, products[0].price);
      PriceBucketsPartition(From5000To10000, products[0].price);
      PriceBucketsPartition(Over10000, products[0].price);
    }
  }

  /** A narrowing filter's result grows by one exactly when the first product passes it. */
  lemma BucketHead(products: seq<Product>, f: PriceFilter)
    requires |products| > 0 && f != AllPrices
    ensures |FilterByPrice(products, f)|
            == |FilterByPrice(products[1..], f)| + (if InPriceBucket(f, products[0].price) then 1 else 0)
  {
  }

  /** The sort options: `'latest'`, `'price-low'`, `'price-high'`. */
  datatype SortOrder = Latest | PriceLow | PriceHigh

  /** The sort step of `fetchProducts`: a rearrangement of the list in the chosen order. */
  function SortProducts(products: seq<Product>, order: SortOrder): (r: seq<Product>)
    ensures multiset(r) == multiset(products)
    ensures order == Latest ==> forall i, j :: 0 <= i < j < |r| ==> r[i].createdAt >= r[j].createdAt
    ensures order == PriceLow ==> forall i, j :: 0 <= i < j < |r| ==> r[i].price <= r[j].price
    ensures order == PriceHigh ==> forall i, j :: 0 <= i < j < |r| ==> r[i].price >= r[j].price
  {
    match order
    case Latest =>
      var r := Seqs.SortBy(products, (p: Product) => -p.createdAt);
      assert forall i, j :: 0 <= i < j < |r| ==> -r[i].createdAt <= -r[j].createdAt;
      r
    case PriceLow =>
      Seqs.SortBy(products, (p: Product) => p.price)
    case PriceHigh =>
      var r := Seqs.SortBy(products, (p: Product) => -p.price);
      assert forall i, j :: 0 <= i < j < |r| ==> -r[i].price <= -r[j].price;
      r
  }

  /** `fetchProducts`: the listing request (available products, the search term when one is typed, the
      category unless `'all'`), then the price filter, then the sort. */
  function Catalogue(products: seq<Product>, search: string, category: string, price: PriceFilter,
                     order: SortOrder): (r: seq<Product>)
    ensures forall p :: p in r <==>
              && p in products && p.status == Available
              && (category != "all" && category != "" ==> p.category == category)
              && (search != "" ==> ProductRoutes.SearchHit(p, search))
              && InPriceBucket(price, p.price)
    ensures order == Latest ==> forall i, j :: 0 <= i < j < |r| ==> r[i].createdAt >= r[j].createdAt
    ensures order == PriceLow ==> forall i, j :: 0 <= i < j < |r| ==> r[i].price <= r[j].price
    ensures order == PriceHigh ==> forall i, j :: 0 <= i < j < |r| ==> r[i].price >= r[j].price
  {
    var q := ProductRoutes.Query(if category != "all" && category != "" then Some(category) else None,
                                 Some("available"), None, None, if search != "" then Some(search) else None);
    var listed := ProductRoutes.ListProducts(products, q);
    var filtered := FilterByPrice(listed, price);
    var r := SortProducts(filtered, order);
    assert forall p :: p in r <==> p in filtered by {
      forall p ensures p in r <==> p in filtered {
        assert p in r <==> p in multiset(r);
      }
    }
    ListingMeaning(products, q, search, category);
    r
  }

  /** What the listing request of `fetchProducts` selects. */
  lemma ListingMeaning(products: seq<Product>, q: ProductRoutes.Query, search: string, category: string)
    requires q == ProductRoutes.Query(if category != "all" && category != "" then Some(category) else None,
                                      Some("available"), None, None, if search != "" then Some(search) else None)
    ensures forall p :: ProductRoutes.Selected(q, p) <==>
              && p.status == Available
              && (category != "all" && category != "" ==> p.category == category)
              && (search != "" ==> ProductRoutes.SearchHit(p, search))
  {
    assert StatusName(Sold) != "available" by {
      assert StatusName(Sold)[0] != "available"[0];
    }
  }

  /** `calculateBuyerStats`. Months are given by `monthKey`, which stands for the locale month-and-year
      label of an order's date; the spending-by-month table is not modelled. */
  datatype BuyerStats = BuyerStats(
    totalSpent: int,
    totalOrders: nat,
    pendingOrders: nat,
    approvedOrders: nat,
    ordersByMonth: (seq<int>, seq<nat>),
    paymentMethods: (seq<PaymentMethod>, seq<nat>))

  /** Every order is counted once per table; the pending and approved counts never exceed the order count,
      the approved ones are all among the successful ones, and what was spent covers at least the paid
      orders and at most all of them. */
  function CalculateBuyerStats(orders: seq<Order>, monthKey: Order -> int): (r: BuyerStats)
    ensures r.totalOrders == |orders|
    ensures r.totalSpent == OrderStats.Revenue(orders, OrderStats.Successful)
    ensures r.pendingOrders == Seqs.CountIf(orders, OrderStats.AwaitingApproval)
    ensures r.approvedOrders == Seqs.CountIf(orders, OrderStats.IsApproved)
    ensures r.pendingOrders + r.approvedOrders <= r.totalOrders
    ensures r.approvedOrders <= |Seqs.Filter(orders, OrderStats.Successful)|
    ensures Seqs.Sum(r.ordersByMonth.1) == |orders| && Seqs.Sum(r.paymentMethods.1) == |orders|
    ensures |r.paymentMethods.1| == |r.paymentMethods.0|
    ensures forall i :: 0 <= i < |r.paymentMethods.0| ==>
              r.paymentMethods.1[i] == Seqs.Count(Seqs.Map(orders, OrderStats.MethodOf), r.paymentMethods.0[i])
    ensures forall i :: 0 <= i < |orders| ==> orders[i].paymentMethod in r.paymentMethods.0
    ensures Seqs.Tallies(Seqs.Map(orders, monthKey), r.ordersByMonth)
    ensures Seqs.Tallies(Seqs.Map(orders, OrderStats.MethodOf), r.paymentMethods)
    ensures OrderStats.NonNegativePrices(orders) ==>
              OrderStats.Revenue(orders, OrderStats.Paid) <= r.totalSpent <= Seqs.SumBy(orders, OrderStats.Price)
  {
    var pending := Seqs.CountIf(orders, OrderStats.AwaitingApproval);
    var approved := Seqs.CountIf(orders, OrderStats.IsApproved);
    Seqs.CountIfDisjoint(orders, OrderStats.AwaitingApproval, OrderStats.IsApproved);
    ApprovedAreSuccessful(orders);
    var spent := OrderStats.Revenue(orders, OrderStats.Successful);
    OrderStats.RevenueBounds(orders);
    var methods := Seqs.Map(orders, OrderStats.MethodOf);
    BuyerStats(spent, |orders|, pending, approved,
               Seqs.CountingObject(Seqs.Map(orders, monthKey)), Seqs.CountingObject(methods))
  }

  lemma {:induction false} ApprovedAreSuccessful(orders: seq<Order>)
    ensures Seqs.CountIf(orders, OrderStats.IsApproved) <= |Seqs.Filter(orders, OrderStats.Successful)|
    decreases |orders|
  {
    if |orders| > 0 {
      ApprovedAreSuccessful(orders[1..]);
    }
  }

  /** The card fields of the payment form. */
  datatype CardDetails = CardDetails(cardholderName: string, cardNumber: string, expiryDate: string, cvc: string, pin: string)

  const AddressMessage := "Please enter shipping address"
  const NameMessage := "Please enter cardholder name"
  const NumberMessage := "Please enter valid card number (16 digits)"
  const ExpiryMessage := "Please enter expiry date"
  const CvcMessage := "Please enter valid CVC (3 digits)"
  const PinMessage := "Please enter valid PIN (4 digits)"

  /** The card checks of `handlePayment`, all of which must hold for a card payment. */
  predicate CardAccepted(c: CardDetails)
  {
    && !Text.IsBlank(c.cardholderName)
    && !Text.IsBlank(c.cardNumber) && |Text.RemoveSpaces(c.cardNumber)| >= 16
    && !Text.IsBlank(c.expiryDate)
    && !Text.IsBlank(c.cvc) && |c.cvc| >= 3
    && !Text.IsBlank(c.pin) && |c.pin| >= 4
  }

  /** The card checks of `handlePayment`, in order; the first one that fails names its message. */
  function CardCheck(c: CardDetails): (r: Check)
    ensures r == Pass <==> CardAccepted(c)
  {
    if Text.IsBlank(c.cardholderName) then Fail(NameMessage)
    else if Text.IsBlank(c.cardNumber) || |Text.RemoveSpaces(c.cardNumber)| < 16 then Fail(NumberMessage)
    else if Text.IsBlank(c.expiryDate) then Fail(ExpiryMessage)
    else if Text.IsBlank(c.cvc) || |c.cvc| < 3 then Fail(CvcMessage)
    else if Text.IsBlank(c.pin) || |c.pin| < 4 then Fail(PinMessage)
    else Pass
  }

  /** `handlePayment`'s checks: the shipping address first, then, for a card payment only, the card. */
  function ValidatePayment(address: string, pm: PaymentMethod, c: CardDetails): (r: Check)
    ensures r == Pass <==> !Text.IsBlank(address) && (IsCard(pm) ==> CardAccepted(c))
    ensures r == Fail(AddressMessage) <==> Text.IsBlank(address)
  {
    if Text.IsBlank(address) then Fail(AddressMessage)
    else if !IsCard(pm) then Pass
    else CardCheck(c)
  }

  /** Cash on delivery never looks at the card fields. */
  lemma CodIgnoresCard(address: string, c1: CardDetails, c2: CardDetails)
    ensures ValidatePayment(address, COD, c1) == ValidatePayment(address, COD, c2)
  {
  }

  /** A string with a character other than white space is not blank. */
  lemma NotBlankAt(s: string, i: nat)
    requires i < |s| && !Text.IsSpace(s[i])
    ensures !Text.IsBlank(s)
  {
    assert !Text.IsBlank(s);
  }

  /** The card fields as the form's formatters store them pass the card checks exactly when enough was
      typed: sixteen characters other than white space in the number, a digit in the expiry, three digits
      in the CVC and four in the PIN. */
  lemma FormattedCardAccepted(name: string, number: string, expiry: string, cvc: string, pin: string)
    requires !Text.IsBlank(name)
    ensures CardAccepted(CardDetails(name, CardInput.FormatCardNumber(number), CardInput.FormatExpiry(expiry),
                                     CardInput.FormatCvc(cvc), CardInput.FormatPin(pin)))
            <==> && |Text.RemoveSpaces(number)| >= 16 && |Text.KeepDigits(expiry)| >= 1
                 && |Text.KeepDigits(cvc)| >= 3 && |Text.KeepDigits(pin)| >= 4
  {
    NumberFieldAccepted(number);
    ExpiryFieldAccepted(expiry);
    DigitsFieldAccepted(cvc, 3);
    DigitsFieldAccepted(pin, 4);
  }

  /** The formatted card number passes its check exactly when sixteen characters other than white space
      were typed. */
  lemma NumberFieldAccepted(number: string)
    ensures var n := CardInput.FormatCardNumber(number);
            (!Text.IsBlank(n) && |Text.RemoveSpaces(n)| >= 16) <==> |Text.RemoveSpaces(number)| >= 16
  {
    var n := CardInput.FormatCardNumber(number);
    var digits := CardInput.CardDigits(number);
    assert Text.RemoveSpaces(n) == digits;
    if |Text.RemoveSpaces(number)| >= 16 {
      assert |digits| == 16;
      NonBlankKeepsSomething(n);
    }
  }

  /** The formatted expiry is non-blank exactly when a digit was typed. */
  lemma ExpiryFieldAccepted(expiry: string)
    ensures !Text.IsBlank(CardInput.FormatExpiry(expiry)) <==> |Text.KeepDigits(expiry)| >= 1
  {
    var e := CardInput.FormatExpiry(expiry);
    var d := Text.KeepDigits(expiry);
    if |d| >= 1 {
      assert Text.KeepDigits(e) == Seqs.Take(d, 4);
      NonBlankHasDigits(e);
    } else {
      assert e == "";
    }
  }

  /** A digits-only field cut to `k` characters passes a "non-blank and at least `k` long" check exactly
      when `k` digits were typed. */
  lemma DigitsFieldAccepted(raw: string, k: nat)
    requires k > 0
    ensures var v := CardInput.DigitsUpTo(raw, k);
            (!Text.IsBlank(v) && |v| >= k) <==> |Text.KeepDigits(raw)| >= k
  {
    var v := CardInput.DigitsUpTo(raw, k);
    if |v| > 0 {
      assert Text.IsDigit(v[0]);
      NotBlankAt(v, 0);
    }
  }

  /** A string whose white-space-free part is non-empty is not blank. */
  lemma NonBlankKeepsSomething(s: string)
    requires |Text.RemoveSpaces(s)| > 0
    ensures !Text.IsBlank(s)
  {
    var t := Text.RemoveSpaces(s);
    assert !Text.IsSpace(t[0]);
    assert t[0] in s;
    var i :| 0 <= i < |s| && s[i] == t[0];
    NotBlankAt(s, i);
  }

  /** A string with a digit is not blank. */
  lemma NonBlankHasDigits(s: string)
    requires |Text.KeepDigits(s)| > 0
    ensures !Text.IsBlank(s)
  {
    var t := Text.KeepDigits(s);
    assert Text.IsDigit(t[0]);
    assert t[0] in s;
    var i :| 0 <= i < |s| && s[i] == t[0];
    NotBlankAt(s, i);
  }

  /** What `handleCartCheckout` does with a cart: refuse an empty or missing one, refuse a first line whose
      product no longer exists, or hand the first line's product and line id to the payment form. */
  datatype CheckoutPick = EmptyCart | InvalidItem | Pick(product: Product, cartItemId: Id)

  function CartCheckout(cart: Option<seq<CartRoutes.Item>>, products: seq<Product>): (r: CheckoutPick)
    ensures r == EmptyCart <==> cart.None? || |cart.value| == 0
    ensures r.Pick? ==> cart.Some? && |cart.value| > 0 && r.product in products
                        && r.product.id == cart.value[0].product && r.cartItemId == cart.value[0].id
    ensures r == InvalidItem <==> cart.Some? && |cart.value| > 0 && FindProduct(products, cart.value[0].product).None?
  {
    if cart.None? || |cart.value| == 0 then EmptyCart
    else
      var first := cart.value[0];
      match FindProduct(products, first.product)
      case None => InvalidItem
      case Some(i) => Pick(products[i], first.id)
  }

  /** Only the first line is ever checked out: the rest of the cart makes no difference. */
  lemma CheckoutUsesFirstLine(items: seq<CartRoutes.Item>, more: seq<CartRoutes.Item>, products: seq<Product>)
    requires |items| > 0
    ensures CartCheckout(Some(items + more), products) == CartCheckout(Some(items[..1]), products)
  {
    assert (items + more)[0] == items[..1][0];
  }

  /** The result of confirming the payment form. */
  datatype Outcome =
    | Refused(message: string)
    | Declined(status: Status)
    | Placed(store: OrderRoutes.Store, carts: CartRoutes.Carts, order: Order)

  /** `handlePayment` for a product picked directly (`cartItemId` is `None`) or from the cart: the form
      checks, then the order request, then, for a cart pick, the removal of that cart line, whose failure
      is ignored. */
  function Pay(st: OrderRoutes.Store, carts: CartRoutes.Carts, caller: Caller, product: Product,
               cartItemId: Option<Id>, pm: PaymentMethod, address: string, c: CardDetails,
               orderId: Id, now: int): (r: Outcome)
    ensures ValidatePayment(address, pm, c).Fail? <==> r.Refused?
    ensures r.Refused? ==> r.message == ValidatePayment(address, pm, c).message
    ensures ValidatePayment(address, pm, c) == Pass ==>
              var created := OrderRoutes.CreateOrder(st, caller, OrderRoutes.CreateRequest(product.id, pm, address), orderId, now);
              && (r.Declined? <==> created.Err?)
              && (r.Declined? ==> r.status == created.status)
              && (r.Placed? ==> r.store == created.value.0 && r.order == created.value.1)
    ensures r.Placed? ==> r.order.product == product.id && r.order.shippingAddress == address && r.order.paymentMethod == pm
    ensures r.Placed? && (cartItemId.None? || caller.id !in carts) ==> r.carts == carts
    ensures r.Placed? && cartItemId.Some? && caller.id in carts ==>
              && caller.id in r.carts && r.carts - {caller.id} == carts - {caller.id}
              && forall it :: it in r.carts[caller.id] <==> it in carts[caller.id] && it.id != cartItemId.value
  {
    var check := ValidatePayment(address, pm, c);
    if check.Fail? then Refused(check.message)
    else
      var req := OrderRoutes.CreateRequest(product.id, pm, address);
      match OrderRoutes.CreateOrder(st, caller, req, orderId, now)
      case Err(s) => Declined(s)
      case Ok((st', o)) =>
        var carts' :=
          if cartItemId.None? then carts
          else match CartRoutes.RemoveItem(carts, caller, cartItemId.value)
            case Ok(cs) => cs
            case Err(_) => carts;
        assert o.shippingAddress == address && o.paymentMethod == pm by {
          var i := FindProduct(st.products, product.id).value;
          assert o == OrderRoutes.NewOrder(st.products[i], caller, req, orderId, now);
        }
        Placed(st', carts', o)
  }

  /** Checking out a cart pick marks its product sold and drops its line from the buyer's cart. */
  lemma CartPickSoldAndRemoved(st: OrderRoutes.Store, carts: CartRoutes.Carts, caller: Caller,
                               pm: PaymentMethod, address: string, c: CardDetails, orderId: Id, now: int)
    requires caller.id in carts
    requires CartCheckout(Some(carts[caller.id]), st.products).Pick?
    requires Pay(st, carts, caller, CartCheckout(Some(carts[caller.id]), st.products).product,
                 Some(carts[caller.id][0].id), pm, address, c, orderId, now).Placed?
    ensures var pick := CartCheckout(Some(carts[caller.id]), st.products);
            var r := Pay(st, carts, caller, pick.product, Some(pick.cartItemId), pm, address, c, orderId, now);
            && r.store.products[FindProduct(st.products, pick.product.id).value].status == Sold
            && carts[caller.id][0] !in r.carts[caller.id]
  {
  }

  const LoginMessage := "Please login to add items to cart"
  const UnavailableMessage := "Product is not available"

  /** The checks `handleAddToCart` makes before sending any request: a stored token, then an available
      product. */
  function AddToCartGuard(loggedIn: bool, p: Product): (r: Check)
    ensures r == Pass <==> loggedIn && p.status == Available
    ensures !loggedIn ==> r == Fail(LoginMessage)
    ensures loggedIn && p.status != Available ==> r == Fail(UnavailableMessage)
  {
    if !loggedIn then Fail(LoginMessage)
    else if p.status != Available then Fail(UnavailableMessage)
    else Pass
  }

  /** For a signed-in buyer looking at a product as stored, the page's guard and the server agree: the guard
      lets the request through exactly when the server adds the product (one unit of it) to the cart. */
  lemma AddToCartGuardAgreesWithServer(products: seq<Product>, carts: CartRoutes.Carts, caller: Caller,
                                       i: nat, newItemId: Id)
    requires i < |products| && FindProduct(products, products[i].id) == Some(i)
    ensures var server := CartRoutes.AddToCart(products, carts, caller, products[i].id, Some(1), newItemId);
            && (AddToCartGuard(true, products[i]) == Pass <==> server.Ok?)
            && (server.Ok? ==> CartRoutes.QuantityOf(server.value[caller.id], products[i].id)
                               == CartRoutes.QuantityOf(if caller.id in carts then carts[caller.id] else [], products[i].id) + 1)
  {
  }
}

=== FILE: buyer_home.dfy ===
/** The buyer's home page: the stat cards, the featured products and the recent orders. */
module BuyerHome {
  import opened Wrappers
  import opened Entities
  import Seqs
  import OrderStats
  import ProductLists
  import CartRoutes
  import BuyerDashboard

  /** The outcome of a secondary fetch: it failed, or it answered with a list that may be missing. */
  datatype Fetch<T> = FetchFailed | Fetched(items: Option<seq<T>>)

  /** `response.data.data?.items?.length || 0`, and 0 when the request throws. */
  function CountOf<T>(f: Fetch<T>): (n: nat)
    ensures n == 0 <==> f.FetchFailed? || f.items.None? || f.items.value == []
    ensures n > 0 ==> f.Fetched? && f.items.Some? && n == |f.items.value|
  {
    match f
    case FetchFailed => 0
    case Fetched(None) => 0
    case Fetched(Some(xs)) => |xs|
  }

  datatype HomeStats = HomeStats(totalOrders: nat, pendingOrders: nat, totalSpent: int, cartItems: nat, wishlistItems: nat)

  /** The stat cards: spending counts the successful orders (paid or approved), pending counts orders
      awaiting approval, and the cart and wishlist cards fall back to 0. */
  function HomeStatsOf(orders: seq<Order>, cart: Fetch<CartRoutes.Item>, wishlist: Fetch<Id>): (r: HomeStats)
    ensures r.totalOrders == |orders| && r.pendingOrders <= r.totalOrders
    ensures r.pendingOrders == Seqs.CountIf(orders, OrderStats.AwaitingApproval)
    ensures r.totalSpent == OrderStats.Revenue(orders, OrderStats.Successful)
    ensures r.cartItems == CountOf(cart) && r.wishlistItems == CountOf(wishlist)
    ensures cart.FetchFailed? ==> r.cartItems == 0
    ensures wishlist.FetchFailed? ==> r.wishlistItems == 0
    ensures OrderStats.NonNegativePrices(orders) ==>
              OrderStats.Revenue(orders, OrderStats.Paid) <= r.totalSpent <= Seqs.SumBy(orders, OrderStats.Price)
  {
    OrderStats.RevenueBounds(orders);
    HomeStats(|orders|, Seqs.CountIf(orders, OrderStats.AwaitingApproval), OrderStats.Revenue(orders, OrderStats.Successful),
              CountOf(cart), CountOf(wishlist))
  }

  /** The home page and the buyer dashboard report the same order count, pending count and spending for
      the same orders. */
  lemma HomeAgreesWithDashboard(orders: seq<Order>, cart: Fetch<CartRoutes.Item>, wishlist: Fetch<Id>, monthKey: Order -> int)
    ensures var home := HomeStatsOf(orders, cart, wishlist);
            var dash := BuyerDashboard.CalculateBuyerStats(orders, monthKey);
            home.totalOrders == dash.totalOrders && home.pendingOrders == dash.pendingOrders
            && home.totalSpent == dash.totalSpent
  {
  }

  /** The featured products: the six newest of the available catalogue, newest first; no available
      product left out is newer than one shown. */
  function Featured(catalogue: seq<Product>): (r: seq<Product>)
    ensures |r| == if 6 < |ProductLists.AvailableOnly(catalogue)| then 6 else |ProductLists.AvailableOnly(catalogue)|
    ensures forall i :: 0 <= i < |r| ==> r[i] in catalogue && r[i].status == Available
    ensures forall i, j :: 0 <= i < j < |r| ==> r[i].createdAt >= r[j].createdAt
    ensures multiset(r) <= multiset(catalogue)
    ensures forall p :: p in catalogue && p.status == Available && p !in r ==>
              forall i :: 0 <= i < |r| ==> r[i].createdAt >= p.createdAt
  {
    ProductLists.NewestAvailable(catalogue, 6)
  }

  /** `orders.slice(0, 5)`: the first five in the server's order. */
  function RecentOrders(orders: seq<Order>): (r: seq<Order>)
    ensures |r| == if |orders| < 5 then |orders| else 5
    ensures r <= orders
  {
    Seqs.Take(orders, 5)
  }
}

=== FILE: card_input.dfy ===
/** The card-payment input formatters of the buyer dashboard: what each keystroke's `onChange` stores for the
    card number, the expiry date, the CVC and the PIN. */
module CardInput {
  import Text
  import Seqs

  /** `value.replace(/(.{4})/g, '$1 ')`: a space after every complete group of four characters (`.` matches
      every character here, since the value holds no line terminator). */
  function GroupFours(v: string): string
  {
    if |v| < 4 then v else v[..4] + " " + GroupFours(v[4..])
  }

  /** The groups of four joined by single spaces, with no space at either end: the shape a card number is
      displayed in. */
  function Spaced(v: string): (r: string)
    ensures |v| > 0 ==> |r| > 0 && r[0] == v[0] && r[|r| - 1] == v[|v| - 1]
  {
    if |v| <= 4 then v else v[..4] + " " + Spaced(v[4..])
  }

  /** A spaced value of `n` characters has one space per complete group of four after the first. */
  lemma {:induction false} SpacedLength(v: string)
    ensures |Spaced(v)| == |v| + (if |v| == 0 then 0 else (|v| - 1) / 4)
    decreases |v|
  {
    if |v| > 4 {
      SpacedLength(v[4..]);
    }
  }

  lemma {:induction false} GroupFoursIsSpaced(v: string)
    ensures GroupFours(v) == Spaced(v) + (if |v| > 0 && |v| % 4 == 0 then " " else "")
    decreases |v|
  {
    if |v| > 4 {
      var rest := v[4..];
      GroupFoursIsSpaced(rest);
      assert |rest| % 4 == |v| % 4;
    } else if |v| == 4 {
      assert v[4..] == "";
    }
  }

  /** Trimming removes a single trailing space from a string whose ends are not white space. */
  lemma TrimTail(x: string, tail: string)
    requires tail == "" || tail == " "
    requires |x| > 0 ==> !Text.IsSpace(x[0]) && !Text.IsSpace(x[|x| - 1])
    ensures Text.Trim(x + tail) == x
  {
    if tail == " " {
      assert (x + tail)[..|x + tail| - 1] == x;
    } else {
      assert x + tail == x;
    }
  }

  /** The spaces of a spaced card number sit exactly at every fifth position. */
  lemma {:induction false} SpacedLayout(v: string)
    requires Text.NoSpaces(v)
    ensures forall i :: 0 <= i < |Spaced(v)| ==> (Text.IsSpace(Spaced(v)[i]) <==> i % 5 == 4)
    decreases |v|
  {
    if |v| > 4 {
      var rest := v[4..];
      SpacedLayout(rest);
      var r := Spaced(v);
      forall i | 0 <= i < |r|
        ensures Text.IsSpace(r[i]) <==> i % 5 == 4
      {
        if i < 4 {
          assert r[i] == v[i];
        } else if i > 4 {
          assert r[i] == Spaced(rest)[i - 5];
        }
      }
    }
  }

  /** Removing the spaces from a spaced value gives the value back. */
  lemma {:induction false} SpacedUnspaced(v: string)
    requires Text.NoSpaces(v)
    ensures Text.RemoveSpaces(Spaced(v)) == v
    decreases |v|
  {
    if |v| <= 4 {
      Text.RemoveSpacesNoop(v);
    } else {
      SpacedUnspaced(v[4..]);
      Text.RemoveSpacesAppend(v[..4] + " ", Spaced(v[4..]));
      Text.RemoveSpacesAppend(v[..4], " ");
      Text.RemoveSpacesNoop(v[..4]);
      assert Text.RemoveSpaces(" ") == "";
      assert v[..4] + v[4..] == v;
    }
  }

  /** The digits a card number keeps: the first sixteen characters other than white space. */
  function CardDigits(input: string): (r: string)
    ensures |r| <= 16 && Text.NoSpaces(r)
    ensures r <= Text.RemoveSpaces(input)
    ensures |r| == if |Text.RemoveSpaces(input)| < 16 then |Text.RemoveSpaces(input)| else 16
  {
    Seqs.Take(Text.RemoveSpaces(input), 16)
  }

  /** What the card-number input shows for the kept characters: a space after each group of four, then
      trimmed. The kept characters appear with a space at every fifth position. */
  function Display(value: string): (r: string)
    requires Text.NoSpaces(value) && |value| <= 16
    ensures |r| <= 19
    ensures Text.RemoveSpaces(r) == value
    ensures forall i :: 0 <= i < |r| ==> (Text.IsSpace(r[i]) <==> i % 5 == 4)
  {
    var r := Text.Trim(GroupFours(value));
    GroupFoursIsSpaced(value);
    TrimTail(Spaced(value), if |value| > 0 && |value| % 4 == 0 then " " else "");
    SpacedUnspaced(value);
    SpacedLayout(value);
    SpacedLength(value);
    r
  }

  /** The card-number `onChange`: white space removed, cut to sixteen characters, then displayed in groups
      of four. */
  function FormatCardNumber(input: string): (r: string)
    ensures |r| <= 19
    ensures Text.RemoveSpaces(r) == CardDigits(input)
  {
    Display(CardDigits(input))
  }

  /** Formatting an already formatted number changes nothing. */
  lemma FormatCardNumberIdempotent(input: string)
    ensures FormatCardNumber(FormatCardNumber(input)) == FormatCardNumber(input)
  {
    var value := CardDigits(input);
    assert CardDigits(FormatCardNumber(input)) == value;
  }

  /** A space typed anywhere in a card number makes no difference. */
  lemma FormatCardNumberIgnoresSpaces(a: string, b: string)
    ensures FormatCardNumber(a + " " + b) == FormatCardNumber(a + b)
  {
    calc {
      Text.RemoveSpaces(a + " " + b);
      == { Text.RemoveSpacesAppend(a + " ", b); }
      Text.RemoveSpaces(a + " ") + Text.RemoveSpaces(b);
      == { Text.RemoveSpacesAppend(a, " "); RemoveSpacesOfSpace(); }
      Text.RemoveSpaces(a) + Text.RemoveSpaces(b);
      == { Text.RemoveSpacesAppend(a, b); }
      Text.RemoveSpaces(a + b);
    }
    var digits := CardDigits(a + b);
    assert CardDigits(a + " " + b) == digits;
  }

  lemma RemoveSpacesOfSpace()
    ensures Text.RemoveSpaces(" ") == ""
  {
    assert Text.IsSpace(' ');
    assert " "[1..] == "";
  }

  /** The expiry date shown for the digits typed. */
  function ExpiryOf(d: string): (r: string)
    requires Text.AllDigits(d)
    ensures |r| <= 5
    ensures |d| < 2 ==> r == d
    ensures |d| >= 2 ==> |r| >= 3 && r[2] == '/' && r[..2] == d[..2]
    ensures Text.KeepDigits(r) == Seqs.Take(d, 4)
  {
    if |d| >= 2 then
      var k := if |d| < 4 then |d| else 4;
      ExpiryDigits(d[..2], d[2..k]);
      assert d[..2] + d[2..k] == Seqs.Take(d, 4);
      d[..2] + "/" + d[2..k]
    else
      Text.KeepDigitsNoop(d);
      d
  }

  lemma ExpiryDigits(a: string, b: string)
    requires Text.AllDigits(a) && Text.AllDigits(b)
    ensures Text.KeepDigits(a + "/" + b) == a + b
  {
    Text.KeepDigitsAppend(a + "/", b);
    Text.KeepDigitsAppend(a, "/");
    Text.KeepDigitsNoop(a);
    Text.KeepDigitsNoop(b);
    assert !Text.IsDigit('/');
    assert "/"[1..] == "";
  }

  /** The expiry `onChange`: digits only, and with at least two digits the first two, a slash and at most
      two more. */
  function FormatExpiry(input: string): (r: string)
    ensures |r| <= 5
    ensures Text.KeepDigits(r) == Seqs.Take(Text.KeepDigits(input), 4)
    ensures |Text.KeepDigits(input)| < 2 ==> r == Text.KeepDigits(input)
    ensures |Text.KeepDigits(input)| >= 2 ==>
              && |r| == |Seqs.Take(Text.KeepDigits(input), 4)| + 1
              && r[..2] == Text.KeepDigits(input)[..2] && r[2] == '/'
              && r[3..] == Seqs.Take(Text.KeepDigits(input), 4)[2..]
  {
    ExpiryOf(Text.KeepDigits(input))
  }

  /** Formatting an already formatted expiry date changes nothing. */
  lemma FormatExpiryIdempotent(input: string)
    ensures FormatExpiry(FormatExpiry(input)) == FormatExpiry(input)
  {
    ExpiryOfFirstFour(Text.KeepDigits(input));
  }

  /** Only the first four digits matter. */
  lemma ExpiryOfFirstFour(d: string)
    requires Text.AllDigits(d)
    ensures ExpiryOf(Seqs.Take(d, 4)) == ExpiryOf(d)
  {
    var t := Seqs.Take(d, 4);
    if |d| >= 2 {
      assert t[..2] == d[..2];
      assert t[2..|t|] == d[2..if |d| < 4 then |d| else 4];
    }
  }

  /** Once two digits are typed, deleting the slash does not remove it: the next `onChange` puts it back. */
  lemma SlashComesBack(input: string)
    requires |Text.KeepDigits(input)| == 2
    ensures var shown := FormatExpiry(input);
            |shown| == 3 && FormatExpiry(shown[..2]) == shown
  {
    var d := Text.KeepDigits(input);
    var shown := FormatExpiry(input);
    assert shown[..2] == d;
    Text.KeepDigitsNoop(d);
  }

  /** `value.replace(/\D/g, '').slice(0, n)`: the CVC (`n` = 3) and PIN (`n` = 4) inputs. */
  function DigitsUpTo(input: string, n: nat): (r: string)
    ensures Text.AllDigits(r) && |r| <= n
    ensures r <= Text.KeepDigits(input)
    ensures |r| == if |Text.KeepDigits(input)| < n then |Text.KeepDigits(input)| else n
  {
    Seqs.Take(Text.KeepDigits(input), n)
  }

  lemma DigitsUpToIdempotent(input: string, n: nat)
    ensures DigitsUpTo(DigitsUpTo(input, n), n) == DigitsUpTo(input, n)
  {
    Text.KeepDigitsNoop(DigitsUpTo(input, n));
  }

  function FormatCvc(input: string): (r: string)
    ensures Text.AllDigits(r) && r <= Text.KeepDigits(input)
    ensures |r| == if |Text.KeepDigits(input)| < 3 then |Text.KeepDigits(input)| else 3
  {
    DigitsUpTo(input, 3)
  }

  function FormatPin(input: string): (r: string)
    ensures Text.AllDigits(r) && r <= Text.KeepDigits(input)
    ensures |r| == if |Text.KeepDigits(input)| < 4 then |Text.KeepDigits(input)| else 4
  {
    DigitsUpTo(input, 4)
  }
}

=== FILE: cart_page.dfy ===
/** The cart modal: the order total, and the requests its quantity buttons send to the cart endpoints. */
module CartPage {
  import opened Wrappers
  import opened Entities
  import Seqs
  import CartRoutes

  /** A cart line as the modal receives it: the stored item and, when its product still exists, the
      product's price (0 standing for a missing price). */
  datatype Line = Line(item: CartRoutes.Item, price: Option<int>)

  /** `item.product && item.product.price`: the product exists and its price is truthy. */
  predicate Priced(l: Line)
  {
    l.price.Some? && l.price.value != 0
  }

  /** `item.product.price * item.quantity`, the line total shown beside each line. */
  function LineTotal(l: Line): int
  {
    l.price.GetOr(0) * l.item.quantity
  }

  /** The `reduce` of `calculateTotal`, left to right from the running total. */
  function AddLines(lines: seq<Line>, total: int): int
    decreases |lines|
  {
    if |lines| == 0 then total
    else AddLines(lines[1..], if Priced(lines[0]) then total + LineTotal(lines[0]) else total)
  }

  /** The running sum adds exactly the line totals of the priced lines. */
  lemma {:induction false} AddLinesIsSum(lines: seq<Line>, total: int)
    ensures AddLines(lines, total) == total + Seqs.SumBy(Seqs.Filter(lines, Priced), LineTotal)
    decreases |lines|
  {
    if |lines| > 0 {
      AddLinesIsSum(lines[1..], if Priced(lines[0]) then total + LineTotal(lines[0]) else total);
    }
  }

  /** `calculateTotal`: 0 without a cart; otherwise the line totals of the lines whose product exists with
      a truthy price, the others skipped. */
  function CalculateTotal(cart: Option<seq<Line>>): (t: int)
    ensures cart.None? ==> t == 0
    ensures cart.Some? ==> t == Seqs.SumBy(Seqs.Filter(cart.value, Priced), LineTotal)
  {
    match cart
    case None => 0
    case Some(lines) =>
      AddLinesIsSum(lines, 0);
      AddLines(lines, 0)
  }

  /** The total of a cart is its first line's share plus the total of the rest. */
  lemma TotalStep(lines: seq<Line>)
    requires |lines| > 0
    ensures CalculateTotal(Some(lines))
            == (if Priced(lines[0]) then LineTotal(lines[0]) else 0) + CalculateTotal(Some(lines[1..]))
  {
    var kept := Seqs.Filter(lines, Priced);
    var rest := Seqs.Filter(lines[1..], Priced);
    if Priced(lines[0]) {
      assert kept == [lines[0]] + rest;
      assert kept[1..] == rest;
    } else {
      assert kept == rest;
    }
  }

  lemma LineTotalNonNegative(l: Line)
    requires l.price.GetOr(0) >= 0 && l.item.quantity >= 0
    ensures LineTotal(l) >= 0
  {
  }

  /** With no negative price or quantity the total is never negative, and it is at least any one priced
      line's total. */
  lemma {:induction false} TotalCoversEachLine(lines: seq<Line>, k: nat)
    requires k < |lines| && Priced(lines[k])
    requires forall i :: 0 <= i < |lines| ==> lines[i].price.GetOr(0) >= 0 && lines[i].item.quantity >= 0
    ensures 0 <= LineTotal(lines[k]) <= CalculateTotal(Some(lines))
    decreases |lines|
  {
    TotalStep(lines);
    LineTotalNonNegative(lines[0]);
    if k > 0 {
      assert lines[1..][k - 1] == lines[k];
      TotalCoversEachLine(lines[1..], k - 1);
    } else {
      TotalNonNegative(lines[1..]);
    }
  }

  lemma {:induction false} TotalNonNegative(lines: seq<Line>)
    requires forall i :: 0 <= i < |lines| ==> lines[i].price.GetOr(0) >= 0 && lines[i].item.quantity >= 0
    ensures CalculateTotal(Some(lines)) >= 0
    decreases |lines|
  {
    if |lines| > 0 {
      TotalStep(lines);
      LineTotalNonNegative(lines[0]);
      TotalNonNegative(lines[1..]);
    }
  }

  /** What a quantity change sends. */
  datatype CartRequest = RemoveRequest(itemId: Id) | UpdateRequest(itemId: Id, quantity: int)

  /** `updateQuantity`: a quantity below 1 removes the line instead of storing it. */
  function QuantityChange(itemId: Id, quantity: int): (r: CartRequest)
    ensures r.itemId == itemId
    ensures r.RemoveRequest? <==> quantity < 1
    ensures r.UpdateRequest? ==> r.quantity == quantity
  {
    if quantity < 1 then RemoveRequest(itemId) else UpdateRequest(itemId, quantity)
  }

  /** The − and + buttons of a line. */
  function Minus(it: CartRoutes.Item): CartRequest
  {
    QuantityChange(it.id, it.quantity - 1)
  }

  function Plus(it: CartRoutes.Item): CartRequest
  {
    QuantityChange(it.id, it.quantity + 1)
  }

  /** The endpoint each request reaches. */
  function Send(carts: CartRoutes.Carts, caller: Caller, req: CartRequest): (r: Result<CartRoutes.Carts>)
    ensures req.RemoveRequest? ==> r == CartRoutes.RemoveItem(carts, caller, req.itemId)
    ensures req.UpdateRequest? ==> r == CartRoutes.UpdateItem(carts, caller, req.itemId, req.quantity)
  {
    match req
    case RemoveRequest(id) => CartRoutes.RemoveItem(carts, caller, id)
    case UpdateRequest(id, q) => CartRoutes.UpdateItem(carts, caller, id, q)
  }

  /** No two lines of a cart share an id. */
  ghost predicate UniqueIds(items: seq<CartRoutes.Item>)
  {
    forall i, j :: 0 <= i < j < |items| ==> items[i].id != items[j].id
  }

  /** Through the modal a line never ends up with a quantity below 1: the line the change is about
      either is gone or holds exactly the requested quantity, which is at least 1. */
  lemma PageNeverStoresBelowOne(carts: CartRoutes.Carts, caller: Caller, itemId: Id, quantity: int)
    requires caller.id in carts && UniqueIds(carts[caller.id])
    requires Send(carts, caller, QuantityChange(itemId, quantity)).Ok?
    ensures var after := Send(carts, caller, QuantityChange(itemId, quantity)).value[caller.id];
            forall it :: it in after && it.id == itemId ==> it.quantity == quantity && quantity >= 1
  {
    if quantity >= 1 {
      var before := carts[caller.id];
      var after := Send(carts, caller, QuantityChange(itemId, quantity)).value[caller.id];
      var k :| 0 <= k < |before| && before[k].id == itemId && after[k] == before[k].(quantity := quantity)
               && forall j :: 0 <= j < |before| && j != k ==> after[j] == before[j];
      forall it | it in after && it.id == itemId
        ensures it.quantity == quantity
      {
        var j :| 0 <= j < |after| && after[j] == it;
      }
    }
  }

  /** Pressing + and then − on a line that holds at least one gives the cart back unchanged. */
  lemma PlusThenMinus(carts: CartRoutes.Carts, caller: Caller, k: nat)
    requires caller.id in carts && k < |carts[caller.id]| && UniqueIds(carts[caller.id])
    requires carts[caller.id][k].quantity >= 1
    ensures var it := carts[caller.id][k];
            var up := Send(carts, caller, Plus(it));
            up.Ok? && Send(up.value, caller, Minus(it.(quantity := it.quantity + 1))) == Ok(carts)
  {
    var it := carts[caller.id][k];
    assert Plus(it) == UpdateRequest(it.id, it.quantity + 1);
    assert Minus(it.(quantity := it.quantity + 1)) == UpdateRequest(it.id, it.quantity);
    SetThenRestore(carts, caller, k, it.quantity + 1);
  }

  /** Setting a line's quantity and then setting it back to the old value restores the cart. */
  lemma SetThenRestore(carts: CartRoutes.Carts, caller: Caller, k: nat, quantity: int)
    requires caller.id in carts && k < |carts[caller.id]| && UniqueIds(carts[caller.id])
    ensures var it := carts[caller.id][k];
            var up := CartRoutes.UpdateItem(carts, caller, it.id, quantity);
            up.Ok? && CartRoutes.UpdateItem(up.value, caller, it.id, it.quantity) == Ok(carts)
  {
    var before := carts[caller.id];
    var it := before[k];
    SetQuantityAt(carts, caller, k, quantity);
    var mid := before[k := it.(quantity := quantity)];
    var mapMid := carts[caller.id := mid];
    assert UniqueIds(mid) by {
      assert forall i :: 0 <= i < |mid| ==> mid[i].id == before[i].id;
    }
    SetQuantityAt(mapMid, caller, k, it.quantity);
    assert mid[k := mid[k].(quantity := it.quantity)] == before;
    assert mapMid[caller.id := before] == carts;
  }

  /** With unique ids, updating the line at index `k` changes exactly that line. */
  lemma SetQuantityAt(carts: CartRoutes.Carts, caller: Caller, k: nat, quantity: int)
    requires caller.id in carts && k < |carts[caller.id]| && UniqueIds(carts[caller.id])
    ensures var before := carts[caller.id];
            var r := CartRoutes.UpdateItem(carts, caller, before[k].id, quantity);
            r == Ok(carts[caller.id := before[k := before[k].(quantity := quantity)]])
  {
    var before := carts[caller.id];
    var id := before[k].id;
    assert Seqs.Any(before, (x: CartRoutes.Item) => x.id == id) by {
      assert before[k].id == id;
    }
    var r := CartRoutes.UpdateItem(carts, caller, id, quantity);
    var after := r.value[caller.id];
    var k' :| 0 <= k' < |before| && before[k'].id == id && after[k'] == before[k'].(quantity := quantity)
              && forall j :: 0 <= j < |before| && j != k' ==> after[j] == before[j];
    assert k' == k;
    assert after == before[k := before[k].(quantity := quantity)];
    assert r.value == carts[caller.id := after] by {
      assert r.value - {caller.id} == carts - {caller.id};
      assert caller.id in r.value;
    }
  }

  /** At quantity 1 the − button removes the line, and only lines of that id. */
  lemma MinusAtOneRemoves(carts: CartRoutes.Carts, caller: Caller, it: CartRoutes.Item)
    requires caller.id in carts && it.quantity == 1
    ensures Minus(it) == RemoveRequest(it.id)
    ensures var r := Send(carts, caller, Minus(it));
            r.Ok? && forall x :: x in r.value[caller.id] <==> x in carts[caller.id] && x.id != it.id
  {
  }
}

=== FILE: cart_routes.dfy ===
/** The cart endpoints (`/api/cart`). Each user owns at most one cart document, so the collection is a map
    from user id to that cart's item list. */
module CartRoutes {
  import opened Wrappers
  import opened Entities
  import Seqs

  /** A cart line: its own sub-document id, the product, and a quantity the server never range-checks. */
  datatype Item = Item(id: Id, product: Id, quantity: int)

  type Carts = map<Id, seq<Item>>

  /** At most one line per product. */
  ghost predicate UniqueProducts(items: seq<Item>)
  {
    Seqs.DistinctBy(items, (it: Item) => it.product)
  }

  /** The total quantity of one product across the lines of a cart. */
  function QuantityOf(items: seq<Item>, product: Id): int
  {
    if |items| == 0 then 0
    else (if items[0].product == product then items[0].quantity else 0) + QuantityOf(items[1..], product)
  }

  /** `GET /`: the caller's cart, created empty when there is none. A second call changes nothing. */
  function GetCart(carts: Carts, caller: Caller): (r: (Carts, seq<Item>))
    ensures caller.id in r.0 && r.0[caller.id] == r.1
    ensures caller.id in carts ==> r.0 == carts
    ensures caller.id !in carts ==> r.1 == [] && r.0 == carts[caller.id := []]
  {
    if caller.id in carts then (carts, carts[caller.id]) else (carts[caller.id := []], [])
  }

  lemma GetCartIdempotent(carts: Carts, caller: Caller)
    ensures GetCart(GetCart(carts, caller).0, caller) == GetCart(carts, caller)
  {
  }

  /** The merge step of `POST /add`: the first line for the product gains `quantity`; with no such line one
      new line is appended. */
  function MergeItem(items: seq<Item>, product: Id, quantity: int, newItemId: Id): (r: seq<Item>)
    ensures Seqs.Any(items, (it: Item) => it.product == product) ==> |r| == |items|
    ensures !Seqs.Any(items, (it: Item) => it.product == product) ==> r == items + [Item(newItemId, product, quantity)]
    ensures forall i :: 0 <= i < |items| ==> r[i].id == items[i].id && r[i].product == items[i].product
    decreases |items|
  {
    if |items| == 0 then [Item(newItemId, product, quantity)]
    else if items[0].product == product then [items[0].(quantity := items[0].quantity + quantity)] + items[1..]
    else
      var rest := MergeItem(items[1..], product, quantity, newItemId);
      assert Seqs.Any(items, (it: Item) => it.product == product) ==
             Seqs.Any(items[1..], (it: Item) => it.product == product) by {
        if Seqs.Any(items, (it: Item) => it.product == product) {
          var k :| 0 <= k < |items| && items[k].product == product;
          assert items[1..][k - 1] == items[k];
        }
      }
      [items[0]] + rest
  }

  /** Adding raises exactly the added product's total by the added quantity. */
  lemma {:induction false} MergeQuantity(items: seq<Item>, product: Id, quantity: int, newItemId: Id, x: Id)
    ensures QuantityOf(MergeItem(items, product, quantity, newItemId), x)
            == QuantityOf(items, x) + (if x == product then quantity else 0)
    decreases |items|
  {
    var r := MergeItem(items, product, quantity, newItemId);
    if |items| == 0 {
      assert r[1..] == [];
    } else if items[0].product == product {
      assert r[1..] == items[1..];
    } else {
      assert r[1..] == MergeItem(items[1..], product, quantity, newItemId);
      MergeQuantity(items[1..], product, quantity, newItemId, x);
    }
  }

  /** Adding never creates a second line for a product. */
  lemma {:induction false} MergeKeepsUnique(items: seq<Item>, product: Id, quantity: int, newItemId: Id)
    requires UniqueProducts(items)
    ensures UniqueProducts(MergeItem(items, product, quantity, newItemId))
  {
    var r := MergeItem(items, product, quantity, newItemId);
    if !Seqs.Any(items, (it: Item) => it.product == product) {
      forall i, j | 0 <= i < j < |r|
        ensures r[i].product != r[j].product
      {
        if j == |items| {
          assert r[j].product == product;
          assert r[i] == items[i];
        }
      }
    }
  }

  lemma MergeFacts(items: seq<Item>, product: Id, quantity: int, newItemId: Id)
    ensures forall x :: QuantityOf(MergeItem(items, product, quantity, newItemId), x)
                        == QuantityOf(items, x) + (if x == product then quantity else 0)
    ensures UniqueProducts(items) ==> UniqueProducts(MergeItem(items, product, quantity, newItemId))
  {
    forall x
      ensures QuantityOf(MergeItem(items, product, quantity, newItemId), x)
              == QuantityOf(items, x) + (if x == product then quantity else 0)
    {
      MergeQuantity(items, product, quantity, newItemId, x);
    }
    if UniqueProducts(items) {
      MergeKeepsUnique(items, product, quantity, newItemId);
    }
  }

  /** `POST /add`: 404 for an unknown product, 400 for one not available (no cart is created then);
      otherwise the caller's cart (created if missing) has `quantity` of the product merged in. An absent
      quantity counts as 1. */
  function AddToCart(products: seq<Product>, carts: Carts, caller: Caller, productId: Id, quantity: Option<int>,
                     newItemId: Id): (r: Result<Carts>)
    ensures FindProduct(products, productId).None? ==> r == Err(NotFound)
    ensures FindProduct(products, productId).Some? ==>
              (r.Ok? <==> products[FindProduct(products, productId).value].status == Available)
    ensures r.Err? ==> r.status == NotFound || r.status == BadRequest
    ensures r.Ok? ==>
              var before := if caller.id in carts then carts[caller.id] else [];
              && caller.id in r.value && r.value - {caller.id} == carts - {caller.id}
              && (forall x :: QuantityOf(r.value[caller.id], x)
                              == QuantityOf(before, x) + (if x == productId then quantity.GetOr(1) else 0))
              && (UniqueProducts(before) ==> UniqueProducts(r.value[caller.id]))
  {
    match FindProduct(products, productId)
    case None => Err(NotFound)
    case Some(i) =>
      if products[i].status != Available then Err(BadRequest)
      else
        var before := if caller.id in carts then carts[caller.id] else [];
        var after := MergeItem(before, productId, quantity.GetOr(1), newItemId);
        MergeFacts(before, productId, quantity.GetOr(1), newItemId);
        Ok(carts[caller.id := after])
  }

  /** `PUT /update/:itemId`: 404 without a cart or without a line of that id; otherwise exactly that line's
      quantity becomes the given value, whatever it is. */
  function UpdateItem(carts: Carts, caller: Caller, itemId: Id, quantity: int): (r: Result<Carts>)
    ensures caller.id !in carts ==> r == Err(NotFound)
    ensures caller.id in carts ==>
              (r.Ok? <==> Seqs.Any(carts[caller.id], (it: Item) => it.id == itemId))
    ensures r.Err? ==> r.status == NotFound
    ensures r.Ok? ==> caller.id in carts && caller.id in r.value
    ensures r.Ok? ==>
              var before := carts[caller.id];
              var after := r.value[caller.id];
              && r.value - {caller.id} == carts - {caller.id}
              && |after| == |before|
              && (exists k :: 0 <= k < |before| && before[k].id == itemId && after[k] == before[k].(quantity := quantity)
                              && forall j :: 0 <= j < |before| && j != k ==> after[j] == before[j])
  {
    if caller.id !in carts then Err(NotFound)
    else
      var items := carts[caller.id];
      Seqs.AnyIffFound(items, (it: Item) => it.id == itemId);
      match Seqs.FindIndex(items, (it: Item) => it.id == itemId)
      case None => Err(NotFound)
      case Some(k) => Ok(carts[caller.id := items[k := items[k].(quantity := quantity)]])
  }

  /** Setting a quantity keeps a cart's lines one per product. */
  lemma UpdateKeepsUnique(carts: Carts, caller: Caller, itemId: Id, quantity: int)
    requires caller.id in carts && UniqueProducts(carts[caller.id])
    requires UpdateItem(carts, caller, itemId, quantity).Ok?
    ensures UniqueProducts(UpdateItem(carts, caller, itemId, quantity).value[caller.id])
  {
    var before := carts[caller.id];
    var after := UpdateItem(carts, caller, itemId, quantity).value[caller.id];
    assert forall i :: 0 <= i < |after| ==> after[i].product == before[i].product;
  }

  /** `DELETE /remove/:itemId`: 404 without a cart; otherwise every line with that id is dropped and the
      others are kept. */
  function RemoveItem(carts: Carts, caller: Caller, itemId: Id): (r: Result<Carts>)
    ensures r.Ok? <==> caller.id in carts
    ensures r.Err? ==> r.status == NotFound
    ensures r.Ok? ==>
              && r.value - {caller.id} == carts - {caller.id}
              && caller.id in r.value
              && (forall it :: it in r.value[caller.id] <==> it in carts[caller.id] && it.id != itemId)
              && |r.value[caller.id]| <= |carts[caller.id]|
    ensures r.Ok? ==> r.value[caller.id] == Seqs.Filter(carts[caller.id], (it: Item) => it.id != itemId)
  {
    if caller.id !in carts then Err(NotFound)
    else Ok(carts[caller.id := Seqs.Filter(carts[caller.id], (it: Item) => it.id != itemId)])
  }

  /** Removing an id no line carries is a successful no-op. */
  lemma RemoveUnknownIsNoop(carts: Carts, caller: Caller, itemId: Id)
    requires caller.id in carts
    requires !Seqs.Any(carts[caller.id], (it: Item) => it.id == itemId)
    ensures RemoveItem(carts, caller, itemId) == Ok(carts)
  {
    Seqs.FilterAll(carts[caller.id], (it: Item) => it.id != itemId);
    assert carts[caller.id := carts[caller.id]] == carts;
  }

  /** Removing twice is removing once. */
  lemma RemoveIdempotent(carts: Carts, caller: Caller, itemId: Id)
    requires caller.id in carts
    ensures RemoveItem(RemoveItem(carts, caller, itemId).value, caller, itemId) == RemoveItem(carts, caller, itemId)
  {
    var once := RemoveItem(carts, caller, itemId).value;
    Seqs.FilterIdempotent(carts[caller.id], (it: Item) => it.id != itemId);
    assert once[caller.id := once[caller.id]] == once;
  }

  /** With the line ids unique, removing the line at `k` splices exactly it out and keeps the others in
      order. */
  lemma RemoveSplicesLine(carts: Carts, caller: Caller, k: nat)
    requires caller.id in carts && k < |carts[caller.id]|
    requires forall j :: 0 <= j < |carts[caller.id]| && j != k ==> carts[caller.id][j].id != carts[caller.id][k].id
    ensures var cart := carts[caller.id];
            RemoveItem(carts, caller, cart[k].id) == Ok(carts[caller.id := cart[..k] + cart[k + 1..]])
  {
    var cart := carts[caller.id];
    Seqs.FilterSplice(cart, (it: Item) => it.id != cart[k].id, k);
  }

  /** Removal keeps a cart's lines one per product. */
  lemma RemoveKeepsUnique(carts: Carts, caller: Caller, itemId: Id)
    requires caller.id in carts && UniqueProducts(carts[caller.id])
    ensures UniqueProducts(RemoveItem(carts, caller, itemId).value[caller.id])
  {
    Seqs.FilterDistinctBy(carts[caller.id], (it: Item) => it.id != itemId, (it: Item) => it.product);
  }

  /** `DELETE /clear`: 404 without a cart; otherwise the caller's cart is left empty. */
  function ClearCart(carts: Carts, caller: Caller): (r: Result<Carts>)
    ensures r.Ok? <==> caller.id in carts
    ensures r.Err? ==> r.status == NotFound
    ensures r.Ok? ==> caller.id in r.value && r.value[caller.id] == [] && r.value - {caller.id} == carts - {caller.id}
  {
    if caller.id !in carts then Err(NotFound) else Ok(carts[caller.id := []])
  }
}

=== FILE: entities.dfy ===
/** The documents of the marketplace's collections, as immutable values. Enumerated fields use the values
    the schemas admit; every document carries the id Mongo assigns to it. */
module Entities {
  import opened Wrappers
  import Seqs

  type Id = string

  datatype Role = Buyer | Seller | Admin

  /** The role as stored and compared in requests and URLs (`'buyer'`, `'seller'`, `'admin'`). */
  function RoleName(r: Role): string
  {
    match r
    case Buyer => "buyer"
    case Seller => "seller"
    case Admin => "admin"
  }

  /** `req.user` after the `protect` middleware: the authenticated caller. */
  datatype Caller = Caller(id: Id, role: Role)

  datatype ProductStatus = Available | Sold

  function StatusName(s: ProductStatus): string
  {
    match s
    case Available => "available"
    case Sold => "sold"
  }

  /** A listing. A missing price is represented by 0, which is what every `price || 0` reads it as. */
  datatype Product = Product(
    id: Id,
    title: string,
    description: string,
    price: int,
    category: string,
    location: string,
    images: seq<string>,
    status: ProductStatus,
    seller: Id,
    views: nat,
    createdAt: int,
    soldAt: Option<int>)

  datatype PaymentMethod = COD | Visa | MasterCard

  datatype PaymentStatus = PaymentPending | PaymentCompleted

  /** `Processing` is a schema value no handler produces. */
  datatype OrderStatus = OrderPending | Processing | Confirmed | Cancelled | Delivered

  datatype ApprovalStatus = ApprovalPending | Approved | Rejected

  predicate IsCard(m: PaymentMethod)
  {
    m == Visa || m == MasterCard
  }

  /** The settlement rule used at creation and when a buyer changes the method: cards settle at once. */
  function PaymentStatusFor(m: PaymentMethod): (s: PaymentStatus)
    ensures s == PaymentCompleted <==> IsCard(m)
  {
    if m == Visa || m == MasterCard then PaymentCompleted else PaymentPending
  }

  /** A purchase record: the price is a snapshot taken when the order is created. */
  datatype Order = Order(
    id: Id,
    product: Id,
    buyer: Id,
    seller: Id,
    price: int,
    paymentMethod: PaymentMethod,
    shippingAddress: string,
    paymentStatus: PaymentStatus,
    orderStatus: OrderStatus,
    approvalStatus: ApprovalStatus,
    createdAt: int,
    deliveredAt: Option<int>)

  /** An account. `password` is the stored (hashed) password, absent on a broken record. A record without
      an `isActive` field reads as active, since only `isActive === false` blocks a login. */
  datatype User = User(
    id: Id,
    name: string,
    email: string,
    password: Option<string>,
    role: Role,
    phone: Option<string>,
    address: string,
    location: string,
    isActive: bool,
    isEmailVerified: bool,
    verificationToken: Option<string>,
    tokenExpiry: Option<int>,
    lastActive: Option<int>)

  /** A JavaScript truthiness test on an optional string field of a request body. */
  predicate Truthy(s: Option<string>)
  {
    s.Some? && s.value != ""
  }

  /** `Product.findById(id)`: the first product with that id, or nothing. */
  function FindProduct(products: seq<Product>, id: Id): (r: Option<nat>)
    ensures r.Some? ==> r.value < |products| && products[r.value].id == id
    ensures r.Some? ==> forall j :: 0 <= j < r.value ==> products[j].id != id
    ensures r.None? ==> forall i :: 0 <= i < |products| ==> products[i].id != id
  {
    Seqs.FindIndex(products, (p: Product) => p.id == id)
  }

  /** `Order.findById(id)`. */
  function FindOrder(orders: seq<Order>, id: Id): (r: Option<nat>)
    ensures r.Some? ==> r.value < |orders| && orders[r.value].id == id
    ensures r.Some? ==> forall j :: 0 <= j < r.value ==> orders[j].id != id
    ensures r.None? ==> forall i :: 0 <= i < |orders| ==> orders[i].id != id
  {
    Seqs.FindIndex(orders, (o: Order) => o.id == id)
  }

  /** `User.findById(id)`. */
  function FindUser(users: seq<User>, id: Id): (r: Option<nat>)
    ensures r.Some? ==> r.value < |users| && users[r.value].id == id
    ensures r.Some? ==> forall j :: 0 <= j < r.value ==> users[j].id != id
    ensures r.None? ==> forall i :: 0 <= i < |users| ==> users[i].id != id
  {
    Seqs.FindIndex(users, (u: User) => u.id == id)
  }

  /** Ids are unique within a collection, as Mongo's `_id` index guarantees. */
  ghost predicate UniqueOrderIds(orders: seq<Order>)
  {
    forall i, j :: 0 <= i < j < |orders| ==> orders[i].id != orders[j].id
  }
}

=== FILE: feedback_routes.dfy ===
/** The feedback endpoints (`/api/feedback`): public submission with defaults, a seller's rating summary,
    and deletion by admins. */
module FeedbackRoutes {
  import opened Wrappers
  import opened Entities
  import Seqs

  datatype Feedback = Feedback(
    id: Id,
    name: string,
    email: string,
    message: string,
    rating: int,
    userRole: string,
    userId: Option<Id>,
    sellerId: Option<Id>,
    productId: Option<Id>)

  /** The body of `POST /`; `None` stands for an absent field, and a rating of 0 is falsy like an absent one. */
  datatype FeedbackBody = FeedbackBody(
    name: string,
    email: string,
    message: string,
    rating: Option<int>,
    userRole: Option<string>,
    userId: Option<Id>,
    sellerId: Option<Id>,
    productId: Option<Id>)

  /** `x || null` on an optional id. */
  function OrNull(x: Option<Id>): (r: Option<Id>)
    ensures r.Some? <==> Truthy(x)
    ensures r.Some? ==> r == x
  {
    if Truthy(x) then x else None
  }

  /** `POST /`: the document stored, with a falsy rating read as 5, a falsy role as `'guest'` and falsy ids
      as `null`. */
  function Submit(store: seq<Feedback>, body: FeedbackBody, newId: Id): (r: (seq<Feedback>, Feedback))
    ensures r.0 == store + [r.1]
    ensures r.1.rating == (if body.rating.Some? && body.rating.value != 0 then body.rating.value else 5)
    ensures r.1.rating != 0
    ensures r.1.userRole == (if Truthy(body.userRole) then body.userRole.value else "guest")
    ensures r.1.userId.Some? <==> Truthy(body.userId)
    ensures r.1.sellerId.Some? <==> Truthy(body.sellerId)
    ensures r.1.productId.Some? <==> Truthy(body.productId)
  {
    var f := Feedback(newId, body.name, body.email, body.message,
                      if body.rating.Some? && body.rating.value != 0 then body.rating.value else 5,
                      if Truthy(body.userRole) then body.userRole.value else "guest",
                      OrNull(body.userId), OrNull(body.sellerId), OrNull(body.productId));
    (store + [f], f)
  }

  /** The ratings the summary uses: those of the seller's feedback, without falsy ones. */
  function SellerRatingList(store: seq<Feedback>, sellerId: Id): (r: seq<int>)
    ensures forall i :: 0 <= i < |r| ==> r[i] != 0
    ensures |r| <= |store|
  {
    var mine := Seqs.Filter(store, (f: Feedback) => f.sellerId == Some(sellerId));
    Seqs.Filter(Ratings(mine), (x: int) => x != 0)
  }

  function Ratings(fs: seq<Feedback>): (r: seq<int>)
    ensures |r| == |fs|
    ensures forall i :: 0 <= i < |fs| ==> r[i] == fs[i].rating
  {
    if |fs| == 0 then [] else [fs[0].rating] + Ratings(fs[1..])
  }

  lemma {:induction false} RatingsAppend(fs: seq<Feedback>, gs: seq<Feedback>)
    ensures Ratings(fs + gs) == Ratings(fs) + Ratings(gs)
  {
    var a := Ratings(fs + gs);
    var b := Ratings(fs) + Ratings(gs);
    forall i | 0 <= i < |a|
      ensures a[i] == b[i]
    {
      if i < |fs| {
        assert a[i] == fs[i].rating == b[i];
      } else {
        assert a[i] == gs[i - |fs|].rating == b[i];
      }
    }
  }

  /** `ratings.reduce((sum, r) => sum + r, 0)`. */
  function RatingSum(ratings: seq<int>): int
  {
    if |ratings| == 0 then 0 else ratings[0] + RatingSum(ratings[1..])
  }

  lemma {:induction false} RatingSumAppend(ratings: seq<int>, x: int)
    ensures RatingSum(ratings + [x]) == RatingSum(ratings) + x
    decreases |ratings|
  {
    if |ratings| > 0 {
      assert (ratings + [x])[1..] == ratings[1..] + [x];
      RatingSumAppend(ratings[1..], x);
    }
  }

  /** The bucketed star values, in the order of the response object. */
  const Stars: seq<int> := [5, 4, 3, 2, 1]

  /** What `GET /seller/:sellerId` reports: the number of ratings, the count for each value of `Stars` (in
      that order), and the sum of the ratings; `averageRating` is the sum over the number, or 0 with no
      ratings. */
  datatype Summary = Summary(totalRatings: nat, distribution: seq<nat>, ratingSum: int)

  function SellerSummary(store: seq<Feedback>, sellerId: Id): (r: Summary)
    ensures r.totalRatings == |SellerRatingList(store, sellerId)|
    ensures |r.distribution| == 5
    ensures forall i :: 0 <= i < 5 ==> r.distribution[i] == Seqs.Count(SellerRatingList(store, sellerId), Stars[i])
    ensures r.ratingSum == RatingSum(SellerRatingList(store, sellerId))
    ensures r.totalRatings == 0 ==> r.ratingSum == 0
  {
    var ratings := SellerRatingList(store, sellerId);
    Summary(|ratings|, Seqs.Tally(Stars, ratings), RatingSum(ratings))
  }

  /** A submission for the seller adds one rating, its own, to the summary's count and sum; a submission
      for anyone else leaves the seller's ratings as they were. */
  lemma SubmitUpdatesSummary(store: seq<Feedback>, body: FeedbackBody, newId: Id, sellerId: Id)
    ensures var (store', f) := Submit(store, body, newId);
            SellerRatingList(store', sellerId)
              == SellerRatingList(store, sellerId) + (if f.sellerId == Some(sellerId) then [f.rating] else [])
    ensures var (store', f) := Submit(store, body, newId);
            f.sellerId == Some(sellerId) ==>
              && SellerSummary(store', sellerId).totalRatings == SellerSummary(store, sellerId).totalRatings + 1
              && SellerSummary(store', sellerId).ratingSum == SellerSummary(store, sellerId).ratingSum + f.rating
  {
    var (store', f) := Submit(store, body, newId);
    var mine := (g: Feedback) => g.sellerId == Some(sellerId);
    var nonzero := (x: int) => x != 0;
    Seqs.FilterAppend(store, [f], mine);
    var m0 := Seqs.Filter(store, mine);
    var m1 := Seqs.Filter([f], mine);
    RatingsAppend(m0, m1);
    Seqs.FilterAppend(Ratings(m0), Ratings(m1), nonzero);
    if f.sellerId == Some(sellerId) {
      assert m1 == [f];
      assert Ratings(m1) == [f.rating];
      assert Seqs.Filter(Ratings(m1), nonzero) == [f.rating];
      RatingSumAppend(SellerRatingList(store, sellerId), f.rating);
    } else {
      assert m1 == [];
      assert Seqs.Filter(Ratings(m1), nonzero) == [];
    }
  }

  lemma StarsDistinct()
    ensures Seqs.Distinct(Stars)
  {
  }

  /** The buckets never count more than `totalRatings`, since values outside 1 to 5 fall in none. */
  lemma DistributionBounded(store: seq<Feedback>, sellerId: Id)
    ensures Seqs.Sum(SellerSummary(store, sellerId).distribution) <= SellerSummary(store, sellerId).totalRatings
  {
    var ratings := SellerRatingList(store, sellerId);
    Seqs.SumTally(Stars, ratings);
    StarsDistinct();
    Seqs.SumCountsIsCountIn(Stars, ratings);
  }

  lemma RatingsInRange(fs: seq<Feedback>)
    requires forall i :: 0 <= i < |fs| ==> 1 <= fs[i].rating <= 5
    ensures forall i :: 0 <= i < |Ratings(fs)| ==> Ratings(fs)[i] in Stars
  {
  }

  /** When every stored rating is a star value, the buckets account for all of the seller's ratings. */
  lemma DistributionComplete(store: seq<Feedback>, sellerId: Id)
    requires forall i :: 0 <= i < |store| ==> 1 <= store[i].rating <= 5
    ensures Seqs.Sum(SellerSummary(store, sellerId).distribution) == SellerSummary(store, sellerId).totalRatings
  {
    var ratings := SellerRatingList(store, sellerId);
    var mine := Seqs.Filter(store, (f: Feedback) => f.sellerId == Some(sellerId));
    assert forall i :: 0 <= i < |mine| ==> 1 <= mine[i].rating <= 5;
    RatingsInRange(mine);
    assert forall i :: 0 <= i < |ratings| ==> ratings[i] in Stars;
    Seqs.SumTally(Stars, ratings);
    StarsDistinct();
    Seqs.SumCountsIsCountIn(Stars, ratings);
    Seqs.FilterAll(ratings, (x: int) => x in Stars);
  }

  /** `DELETE /:id` (admins only): 404 for an absent id; otherwise exactly that document is removed. */
  function DeleteFeedback(store: seq<Feedback>, caller: Caller, id: Id): (r: Result<seq<Feedback>>)
    ensures caller.role != Admin ==> r == Err(Forbidden)
    ensures caller.role == Admin ==> (r.Ok? <==> exists i :: 0 <= i < |store| && store[i].id == id)
    ensures r.Err? ==> r.status == Forbidden || r.status == NotFound
    ensures r.Ok? ==> |r.value| == |store| - 1 && forall f :: f in r.value ==> f in store
    ensures r.Ok? ==>
              var i := Seqs.FindIndex(store, (f: Feedback) => f.id == id).value;
              && store[i].id == id && (forall j :: 0 <= j < i ==> store[j].id != id)
              && (forall j :: 0 <= j < i ==> r.value[j] == store[j])
              && (forall j :: i < j < |store| ==> r.value[j - 1] == store[j])
  {
    if caller.role != Admin then Err(Forbidden)
    else match Seqs.FindIndex(store, (f: Feedback) => f.id == id)
      case None => Err(NotFound)
      case Some(i) =>
        var r := store[..i] + store[i + 1..];
        assert |r| == |store| - 1;
        assert forall j :: 0 <= j < i ==> r[j] == store[j];
        assert forall j :: i < j < |store| ==> r[j - 1] == store[j];
        assert forall f :: f in r ==> f in store by {
          forall f | f in r ensures f in store {
            var k :| 0 <= k < |r| && r[k] == f;
            if k < i { assert store[k] == f; } else { assert store[k + 1] == f; }
          }
        }
        Ok(r)
  }

  /** With document ids unique, a successful delete leaves no document with that id and every other
      document in place, in order. */
  lemma DeleteFeedbackRemovesOnlyThatId(store: seq<Feedback>, caller: Caller, id: Id, k: nat)
    requires k < |store| && store[k].id == id
    requires forall j :: 0 <= j < |store| && j != k ==> store[j].id != id
    requires caller.role == Admin
    ensures DeleteFeedback(store, caller, id) == Ok(store[..k] + store[k + 1..])
  {
  }
}

=== FILE: footer_routes.dfy ===
/** The footer-content endpoints (`/api/footer`): records keyed by their `type`, read publicly and
    upserted or deleted by admins. */
module FooterRoutes {
  import opened Wrappers
  import opened Entities
  import Seqs

  datatype FooterContent = FooterContent(kind: string, title: string, content: string, email: string, phone: string, address: string)

  /** The body of `POST /`; `None` stands for an absent or empty contact field. */
  datatype FooterBody = FooterBody(kind: string, title: string, content: string, email: Option<string>, phone: Option<string>, address: Option<string>)

  /** `FooterContent.findOne({ type })`. */
  function FindKind(store: seq<FooterContent>, kind: string): (r: Option<nat>)
    ensures r.Some? ==> r.value < |store| && store[r.value].kind == kind
    ensures r.Some? ==> forall j :: 0 <= j < r.value ==> store[j].kind != kind
    ensures r.None? ==> forall j :: 0 <= j < |store| ==> store[j].kind != kind
  {
    Seqs.FindIndex(store, (f: FooterContent) => f.kind == kind)
  }

  /** At most one record per type. */
  ghost predicate OnePerKind(store: seq<FooterContent>)
  {
    Seqs.DistinctBy(store, (f: FooterContent) => f.kind)
  }

  /** `GET /:type`: 404 when no record has that type. */
  function GetContent(store: seq<FooterContent>, kind: string): (r: Result<FooterContent>)
    ensures r.Ok? <==> exists j :: 0 <= j < |store| && store[j].kind == kind
    ensures r.Err? ==> r.status == NotFound
    ensures r.Ok? ==> r.value in store && r.value.kind == kind
  {
    match FindKind(store, kind)
    case None => Err(NotFound)
    case Some(i) => Ok(store[i])
  }

  /** `POST /` (admins only): an existing record of the type always takes the new title and content, and
      takes e-mail, phone and address only when they are supplied; a new type is appended with missing
      contact fields stored as `''`. */
  function Upsert(store: seq<FooterContent>, caller: Caller, body: FooterBody): (r: Result<seq<FooterContent>>)
    ensures r.Ok? <==> caller.role == Admin
    ensures r.Err? ==> r.status == Forbidden
    ensures r.Ok? && FindKind(store, body.kind).Some? ==> |r.value| == |store|
    ensures r.Ok? && FindKind(store, body.kind).Some? ==>
              var i := FindKind(store, body.kind).value;
              var f := r.value[i];
              && f.kind == body.kind && f.title == body.title && f.content == body.content
              && f.email == (if Truthy(body.email) then body.email.value else store[i].email)
              && f.phone == (if Truthy(body.phone) then body.phone.value else store[i].phone)
              && f.address == (if Truthy(body.address) then body.address.value else store[i].address)
              && forall j :: 0 <= j < |store| && j != i ==> r.value[j] == store[j]
    ensures r.Ok? && FindKind(store, body.kind).None? ==>
              r.value == store + [FooterContent(body.kind, body.title, body.content,
                                                body.email.GetOr(""), body.phone.GetOr(""), body.address.GetOr(""))]
    ensures r.Ok? && OnePerKind(store) ==> OnePerKind(r.value)
  {
    if caller.role != Admin then Err(Forbidden)
    else match FindKind(store, body.kind)
      case Some(i) =>
        var prev := store[i];
        var f := prev.(title := body.title, content := body.content,
                      email := if Truthy(body.email) then body.email.value else prev.email,
                      phone := if Truthy(body.phone) then body.phone.value else prev.phone,
                      address := if Truthy(body.address) then body.address.value else prev.address);
        Ok(store[i := f])
      case None =>
        Ok(store + [FooterContent(body.kind, body.title, body.content,
                                  body.email.GetOr(""), body.phone.GetOr(""), body.address.GetOr(""))])
  }

  /** Any run of admin upserts keeps at most one record per type and leaves a record of every type posted. */
  lemma {:induction false} UpsertsKeepOnePerKind(store: seq<FooterContent>, admin: Caller, bodies: seq<FooterBody>)
    requires admin.role == Admin
    requires OnePerKind(store)
    ensures OnePerKind(UpsertAll(store, admin, bodies))
    ensures forall b :: b in bodies ==> FindKind(UpsertAll(store, admin, bodies), b.kind).Some?
    decreases |bodies|
  {
    if |bodies| > 0 {
      var next := Upsert(store, admin, bodies[0]).value;
      UpsertsKeepOnePerKind(next, admin, bodies[1..]);
      assert FindKind(next, bodies[0].kind).Some? by {
        if FindKind(store, bodies[0].kind).None? {
          assert next[|store|].kind == bodies[0].kind;
        }
      }
      UpsertAllKeepsKinds(next, admin, bodies[1..], bodies[0].kind);
    }
  }

  /** A type once present stays present under upserts. */
  lemma {:induction false} UpsertAllKeepsKinds(store: seq<FooterContent>, admin: Caller, bodies: seq<FooterBody>, kind: string)
    requires admin.role == Admin
    requires FindKind(store, kind).Some?
    ensures FindKind(UpsertAll(store, admin, bodies), kind).Some?
    decreases |bodies|
  {
    if |bodies| > 0 {
      var next := Upsert(store, admin, bodies[0]).value;
      var i := FindKind(store, kind).value;
      assert next[i].kind == kind;
      UpsertAllKeepsKinds(next, admin, bodies[1..], kind);
    }
  }

  function UpsertAll(store: seq<FooterContent>, admin: Caller, bodies: seq<FooterBody>): seq<FooterContent>
    requires admin.role == Admin
    decreases |bodies|
  {
    if |bodies| == 0 then store else UpsertAll(Upsert(store, admin, bodies[0]).value, admin, bodies[1..])
  }

  /** `DELETE /:type` (admins only): 404 when the type is absent; otherwise exactly the first record of that
      type is removed. */
  function DeleteContent(store: seq<FooterContent>, caller: Caller, kind: string): (r: Result<seq<FooterContent>>)
    ensures caller.role != Admin ==> r == Err(Forbidden)
    ensures caller.role == Admin ==> (r.Ok? <==> FindKind(store, kind).Some?)
    ensures r.Err? ==> r.status == Forbidden || r.status == NotFound
    ensures r.Ok? ==>
              var i := FindKind(store, kind).value;
              && |r.value| == |store| - 1
              && (forall j :: 0 <= j < i ==> r.value[j] == store[j])
              && (forall j :: i < j < |store| ==> r.value[j - 1] == store[j])
    ensures r.Ok? && OnePerKind(store) ==> FindKind(r.value, kind).None? && OnePerKind(r.value)
  {
    if caller.role != Admin then Err(Forbidden)
    else match FindKind(store, kind)
      case None => Err(NotFound)
      case Some(i) =>
        var r := store[..i] + store[i + 1..];
        RemovedRecord(store, kind, i);
        Ok(r)
  }

  /** Splicing out the first record of a kind shifts the later records down by one; when every kind was
      held once, that kind is gone and the rest stay one per kind. */
  lemma RemovedRecord(store: seq<FooterContent>, kind: string, i: nat)
    requires FindKind(store, kind) == Some(i)
    ensures var r := store[..i] + store[i + 1..];
            && |r| == |store| - 1
            && (forall j :: 0 <= j < |r| ==> r[j] == (if j < i then store[j] else store[j + 1]))
            && (OnePerKind(store) ==> FindKind(r, kind).None? && OnePerKind(r))
  {
    var r := store[..i] + store[i + 1..];
    assert forall j :: 0 <= j < |r| ==> r[j] == (if j < i then store[j] else store[j + 1]);
  }
}

=== FILE: image_viewer.dfy ===
/** The rotating image viewer: arrow navigation over all images, a rotation that navigation resets, and
    an index reset when the image list changes. */
module ImageViewer {
  import opened Wrappers
  import ProductViewer

  /** The viewer's state: the current index and the rotation in degrees. */
  datatype ViewerState = ViewerState(index: nat, rotation: int)

  /** `nextImage`: forward with wrap-around and the rotation reset; nothing happens without images. */
  function Next(st: ViewerState, len: nat): (r: ViewerState)
    ensures len == 0 ==> r == st
    ensures len > 0 ==> r.rotation == 0 && r.index < len
    ensures len > 0 && st.index + 1 < len ==> r.index == st.index + 1
    ensures len > 0 && st.index + 1 == len ==> r.index == 0
    ensures len > 0 ==> r.index % len == (st.index + 1) % len
  {
    if len > 0 then ViewerState((st.index + 1) % len, 0) else st
  }

  /** `prevImage`: backward with wrap-around and the rotation reset; nothing happens without images. */
  function Prev(st: ViewerState, len: nat): (r: ViewerState)
    ensures len == 0 ==> r == st
    ensures len > 0 ==> r.rotation == 0 && r.index < len
    ensures len > 0 && 0 < st.index <= len ==> r.index == st.index - 1
    ensures len > 0 && st.index == 0 ==> r.index == len - 1
    ensures len > 0 ==> (r.index + 1) % len == st.index % len
  {
    if len > 0 then
      ProductViewer.BackStep(st.index, len);
      StepBack(st.index, len);
      ViewerState((st.index - 1 + len) % len, 0)
    else st
  }

  /** Stepping back from an index within range: one less, or the last index from the first. */
  lemma StepBack(index: nat, len: nat)
    requires len > 0
    ensures index <= len ==> (index - 1 + len) % len == if index == 0 then len - 1 else index - 1
  {
    if index <= len {
      WrapOnce(index - 1 + len, len);
    }
  }

  /** On a valid index, back undoes forward and forward undoes back, the rotation aside. */
  lemma NextPrevInverse(st: ViewerState, len: nat)
    requires st.index < len
    ensures Prev(Next(st, len), len).index == st.index
    ensures Next(Prev(st, len), len).index == st.index
    ensures Prev(Next(st, len), len) == st.(rotation := 0)
  {
    var a := st.index + 1;
    WrapOnce(a, len);
    WrapOnce(a % len - 1 + len, len);
    WrapOnce(st.index - 1 + len, len);
    WrapOnce((st.index - 1 + len) % len + 1, len);
  }

  /** A value in `[0, 2n)` reduced modulo `n`: itself below `n`, one `n` less above. */
  lemma WrapOnce(a: int, n: int)
    requires n > 0 && 0 <= a < 2 * n
    ensures a % n == if a < n then a else a - n
  {
    if a < n {
      assert a == n * 0 + a;
    } else {
      assert a == n * 1 + (a - n);
    }
  }

  /** The effect on a new image list: a non-empty list restarts at the first image; the rotation is not
      reset, and an empty list leaves the index as it was. */
  function ImagesChanged(st: ViewerState, len: nat): (r: ViewerState)
    ensures r.rotation == st.rotation
    ensures len > 0 ==> r.index == 0
    ensures len == 0 ==> r == st
  {
    if len > 0 then st.(index := 0) else st
  }

  /** What the viewer renders: a placeholder without images; otherwise the current image, with the arrows
      and the counter only for more than one image. `image` is `None` when the index lies past the list
      (`images[currentIndex]` is `undefined`), as after a shorter list arrives and before the reset effect
      has run. */
  datatype View = Placeholder | Showing(image: Option<string>, counter: bool)

  function Render(images: seq<string>, st: ViewerState): (r: View)
    ensures r.Placeholder? <==> |images| == 0
    ensures r.Showing? ==> (r.image.Some? <==> st.index < |images|) && (r.counter <==> |images| > 1)
    ensures r.Showing? && r.image.Some? ==> r.image.value == images[st.index]
  {
    if |images| == 0 then Placeholder
    else Showing(if st.index < |images| then Some(images[st.index]) else None, |images| > 1)
  }

  /** Navigation and the reset effect never take the index out of range, so the render then always finds
      an image. */
  lemma NavigationKeepsIndexValid(images: seq<string>, st: ViewerState, forward: bool)
    requires |images| > 0
    ensures Render(images, if forward then Next(st, |images|) else Prev(st, |images|)).image.Some?
    ensures Render(images, ImagesChanged(st, |images|)).image.Some?
  {
  }
}

=== FILE: landing_page.dfy ===
/** The public landing page: the latest products, the best deals, the category list, and where the buy
    and view buttons lead. */
module LandingPage {
  import opened Wrappers
  import opened Entities
  import Text
  import Seqs
  import ProductLists

  /** The eight newest available products, newest first. */
  function Latest(products: seq<Product>): (r: seq<Product>)
    ensures |r| == if 8 < |ProductLists.AvailableOnly(products)| then 8 else |ProductLists.AvailableOnly(products)|
    ensures forall i :: 0 <= i < |r| ==> r[i] in products && r[i].status == Available
    ensures forall i, j :: 0 <= i < j < |r| ==> r[i].createdAt >= r[j].createdAt
    ensures multiset(r) <= multiset(products)
    ensures forall p :: p in products && p.status == Available && p !in r ==>
              forall i :: 0 <= i < |r| ==> r[i].createdAt >= p.createdAt
  {
    ProductLists.NewestAvailable(products, 8)
  }

  /** A best deal: available and priced above 2000. */
  predicate IsDeal(p: Product)
  {
    p.status == Available && p.price > 2000
  }

  /** The eight cheapest deals, cheapest first: every product shown costs more than 2000, and no deal left
      out is cheaper than one shown. */
  function BestDeals(products: seq<Product>): (r: seq<Product>)
    ensures |r| == if 8 < |Seqs.Filter(products, IsDeal)| then 8 else |Seqs.Filter(products, IsDeal)|
    ensures forall i :: 0 <= i < |r| ==> r[i] in products && r[i].status == Available && r[i].price > 2000
    ensures forall i, j :: 0 <= i < j < |r| ==> r[i].price <= r[j].price
    ensures multiset(r) <= multiset(products)
    ensures forall p :: p in products && IsDeal(p) && p !in r ==> forall i :: 0 <= i < |r| ==> r[i].price <= p.price
  {
    ProductLists.CheapestWhere(products, IsDeal, 8)
  }

  /** Who is looking: signed in or not, and the role when known. */
  datatype Visitor = Visitor(authenticated: bool, role: Option<Role>)

  predicate IsSignedInBuyer(v: Visitor)
  {
    v.authenticated && v.role == Some(Buyer)
  }

  const DashboardPath := "/buyer/dashboard?"
  const LoginPath := "/login?redirect=buyer/dashboard&"

  /** Where a button leads: a signed-in buyer straight to the dashboard, anyone else to the login page
      with the dashboard as the redirect; `param` names the query parameter that carries the product. */
  function Target(v: Visitor, param: string, productId: Id): (r: string)
    ensures Text.StartsWith(r, DashboardPath) <==> IsSignedInBuyer(v)
    ensures Text.StartsWith(r, LoginPath) <==> !IsSignedInBuyer(v)
    ensures |productId| <= |r| && r[|r| - |productId|..] == productId
  {
    var prefix := if IsSignedInBuyer(v) then DashboardPath else LoginPath;
    var r := prefix + param + "=" + productId;
    assert r[..|prefix|] == prefix;
    assert DashboardPath[1] != LoginPath[1];
    r
  }

  /** `handleBuyClick`: the product goes in the `product` parameter. */
  function BuyTarget(v: Visitor, productId: Id): (r: string)
    ensures Text.StartsWith(r, DashboardPath) <==> IsSignedInBuyer(v)
    ensures |productId| <= |r| && r[|r| - |productId|..] == productId
    ensures |r| >= |productId| + 8 && r[|r| - |productId| - 8..|r| - |productId|] == "product="
  {
    Target(v, "product", productId)
  }

  /** `handleViewClick`: the same rule with the `view` parameter. */
  function ViewTarget(v: Visitor, productId: Id): (r: string)
    ensures Text.StartsWith(r, DashboardPath) <==> IsSignedInBuyer(v)
    ensures |productId| <= |r| && r[|r| - |productId|..] == productId
    ensures |r| >= |productId| + 5 && r[|r| - |productId| - 5..|r| - |productId|] == "view="
  {
    Target(v, "view", productId)
  }

  /** The buy and view buttons of the same product never lead to the same place. */
  lemma BuyAndViewDiffer(v: Visitor, productId: Id)
    ensures BuyTarget(v, productId) != ViewTarget(v, productId)
  {
    var prefix := if IsSignedInBuyer(v) then DashboardPath else LoginPath;
    assert BuyTarget(v, productId)[|prefix|] == 'p';
    assert ViewTarget(v, productId)[|prefix|] == 'v';
  }

  /** The category list: each non-empty category once, taken from the whole catalogue. */
  function Categories(products: seq<Product>): (r: seq<string>)
    ensures Seqs.Distinct(r)
    ensures forall c :: c in r <==> c != "" && exists j :: 0 <= j < |products| && products[j].category == c
  {
    ProductLists.UniqueCategories(products)
  }

  /** The list is in order of first occurrence in the catalogue. */
  lemma CategoriesAppend(products: seq<Product>, p: Product)
    ensures Categories(products + [p])
              == Categories(products) + (if p.category == "" || p.category in Categories(products) then [] else [p.category])
  {
    ProductLists.UniqueCategoriesAppend(products, p);
  }
}

=== FILE: legacy_login.dfy ===
/** The older login page: a free role choice, the same registration checks, and navigation straight to a
    dashboard after a login or a registration. */
module LegacyLogin {
  import opened Wrappers
  import opened Entities
  import PrivateRoute
  import LoginPage

  /** The role the form starts with. */
  const DefaultRole := Buyer

  /** The roles the login form's buttons offer, in the order they are rendered: all three. */
  const LoginRoles: seq<Role> := [Admin, Buyer, Seller]

  /** Pressing the `k`-th role button sets the form's role to that button's role. */
  function PressRoleButton(current: Role, k: nat): (r: Role)
    ensures k < |LoginRoles| ==> r == LoginRoles[k]
    ensures k >= |LoginRoles| ==> r == current
  {
    if k < |LoginRoles| then LoginRoles[k] else current
  }

  /** Every role, admin included, is one button press away from the starting form. The current page's
      plain route offers no such press: its role buttons never select admin. */
  lemma EveryRoleSelectable(role: Role)
    ensures exists k: nat :: k < |LoginRoles| && PressRoleButton(DefaultRole, k) == role
    ensures role == Admin ==>
              LoginPage.Step(LoginPage.Initial("/login"), LoginPage.PickLoginRole(role)).role == DefaultRole
  {
    var k := match role case Admin => 0 case Buyer => 1 case Seller => 2;
    assert PressRoleButton(DefaultRole, k) == role;
  }

  /** After a login: the role the server answered with, else the form's, decides the dashboard; no URL
      parameter is consulted. */
  function AfterLogin(responseRole: Option<Role>, formRole: Role): (r: string)
    ensures responseRole.Some? ==> r == PrivateRoute.DashboardOf(responseRole)
    ensures responseRole.None? ==> r == PrivateRoute.DashboardOf(Some(formRole))
  {
    PrivateRoute.DashboardOf(Some(LoginPage.UserRole(responseRole, formRole)))
  }

  /** `handleRegister`: the same two checks as the current page, in the same order; when they pass and the
      server accepts, the page goes to the registered role's dashboard, and otherwise it stays (`None`). */
  function AfterRegister(d: LoginPage.RegData, accepted: bool): (r: Option<string>)
    ensures r.Some? <==> LoginPage.CheckRegistration(d).None? && accepted
    ensures r.Some? ==> r.value == PrivateRoute.DashboardOf(Some(d.role))
  {
    if LoginPage.CheckRegistration(d).Some? || !accepted then None
    else Some(PrivateRoute.DashboardOf(Some(d.role)))
  }

  /** Without a redirect parameter, or for anyone but a buyer, both pages send a login to the same place,
      and the guard admits the user there. */
  lemma PagesAgreeWithoutRedirect(responseRole: Option<Role>, formRole: Role, q: LoginPage.Query)
    requires !(Truthy(q.redirect) && LoginPage.UserRole(responseRole, formRole) == Buyer)
    ensures AfterLogin(responseRole, formRole) == LoginPage.AfterLogin(responseRole, formRole, q)
    ensures PrivateRoute.Guard(PrivateRoute.Session(false, true, Some(LoginPage.UserRole(responseRole, formRole))),
                               AfterLogin(responseRole, formRole)) == PrivateRoute.ShowPage
  {
    LoginPage.OwnDashboardAdmitted(responseRole, formRole, q);
  }

  /** A registration always lands on a dashboard the new user's role is admitted to. */
  lemma RegisterLandsOnOwnDashboard(d: LoginPage.RegData)
    requires LoginPage.CheckRegistration(d).None?
    ensures PrivateRoute.Guard(PrivateRoute.Session(false, true, Some(d.role)), AfterRegister(d, true).value)
              == PrivateRoute.ShowPage
  {
    PrivateRoute.OwnDashboardAdmitted(d.role);
  }
}

=== FILE: login_page.dfy ===
/** The login page: the admin variant chosen by the path, the registration checks and phone filter, the
    page's state as its buttons change it, and where a successful login leads. */
module LoginPage {
  import opened Wrappers
  import opened Entities
  import Text
  import PrivateRoute
  import LandingPage

  const AdminLoginPath := "/login/admin"

  /** `location.pathname === '/login/admin'`: an exact match, not a prefix. */
  predicate IsAdminLogin(path: string)
  {
    path == AdminLoginPath
  }

  /** The effect on the admin login page: an admin already signed in is sent on to the admin dashboard;
      anyone else stays on the page (`None`). */
  function AlreadySignedIn(path: string, authenticated: bool, role: Option<Role>): (r: Option<string>)
    ensures r.Some? <==> IsAdminLogin(path) && authenticated && role == Some(Admin)
    ensures r.Some? ==> r.value == PrivateRoute.DashboardOf(Some(Admin))
  {
    if IsAdminLogin(path) && authenticated && role == Some(Admin) then Some("/admin/dashboard") else None
  }

  /** The admin sent on is let in by the route guard. */
  lemma AlreadySignedInAdmitted(path: string, role: Option<Role>)
    requires AlreadySignedIn(path, true, role).Some?
    ensures PrivateRoute.Guard(PrivateRoute.Session(false, true, role), AlreadySignedIn(path, true, role).value)
              == PrivateRoute.ShowPage
  {
    PrivateRoute.OwnDashboardAdmitted(Admin);
  }

  /** The registration form's fields. */
  datatype RegData = RegData(name: string, email: string, password: string, confirmPassword: string,
                             role: Role, phone: string, address: string)

  const EmptyRegData := RegData("", "", "", "", Buyer, "", "")

  const MinPasswordLength := 6

  /** Why `handleRegister` stops before sending anything. */
  datatype RegError = PasswordsDiffer | PasswordTooShort

  /** `handleRegister`'s checks: the mismatch first, then the length rule. */
  function CheckRegistration(d: RegData): (r: Option<RegError>)
    ensures r.None? <==> d.password == d.confirmPassword && |d.password| >= MinPasswordLength
    ensures r == Some(PasswordsDiffer) <==> d.password != d.confirmPassword
    ensures r == Some(PasswordTooShort) <==> d.password == d.confirmPassword && |d.password| < MinPasswordLength
  {
    if d.password != d.confirmPassword then Some(PasswordsDiffer)
    else if |d.password| < MinPasswordLength then Some(PasswordTooShort)
    else None
  }

  /** A short password typed differently twice is reported as a mismatch, not as too short. */
  lemma MismatchReportedFirst(d: RegData)
    requires d.password != d.confirmPassword && |d.password| < MinPasswordLength
    ensures CheckRegistration(d) == Some(PasswordsDiffer)
  {
  }

  /** What the phone field may hold: nothing, or at most ten digits. */
  predicate ValidPhone(s: string)
  {
    s == "" || (Text.AllDigits(s) && |s| <= 10)
  }

  /** The phone field's change handler: a value is taken when it is empty or one to ten digits
      (`/^\d+$/` needs at least one); anything else leaves the field as it was. */
  function TypePhone(current: string, typed: string): (r: string)
    ensures r == typed || r == current
    ensures r == typed <==> typed == current || ValidPhone(typed)
  {
    if typed == "" || (Text.AllDigits(typed) && 0 < |typed| <= 10) then typed else current
  }

  /** The page's state: which page it is, the login form's role, which form shows, the login email, and
      the registration form. */
  datatype PageState = PageState(adminLogin: bool, role: Role, showRegister: bool, email: string, reg: RegData)

  /** The first render: the admin role on the admin login path, buyer on any other. */
  function Initial(path: string): (st: PageState)
    ensures st.adminLogin <==> IsAdminLogin(path)
    ensures st.role == (if IsAdminLogin(path) then Admin else Buyer)
    ensures !st.showRegister && st.reg == EmptyRegData
  {
    PageState(IsAdminLogin(path), if IsAdminLogin(path) then Admin else Buyer, false, "", EmptyRegData)
  }

  /** What the user can do on the page. `Registered` is the answer of a successful registration request,
      which is only sent once the checks pass. `BackToLogin` is the admin page's "Back to regular login"
      link, a navigation to `/login`. */
  datatype Event =
    | PickLoginRole(role: Role)
    | OpenRegister
    | OpenLogin
    | PickRegisterRole(role: Role)
    | EditPhone(value: string)
    | Registered
    | BackToLogin

  /** One event. Only buttons the page renders have an effect: the buyer and seller login buttons and the
      register link exist only off the admin path, the back link only on it; the registration form offers
      buyer and seller. A successful registration clears the form, returns to the login form, and prefills
      the email and role just registered. Both paths render the same component at the same place, so the
      back link changes the path and keeps every piece of state, the admin role included. */
  function Step(st: PageState, e: Event): (r: PageState)
    ensures !e.BackToLogin? ==> r.adminLogin == st.adminLogin
    ensures e.BackToLogin? ==> r == st.(adminLogin := r.adminLogin)
    ensures e.BackToLogin? ==> (r.adminLogin <==> st.adminLogin && st.showRegister)
    ensures e.Registered? && st.showRegister && CheckRegistration(st.reg).None? ==>
              r == st.(showRegister := false, email := st.reg.email, role := st.reg.role, reg := EmptyRegData)
    ensures e.Registered? && !(st.showRegister && CheckRegistration(st.reg).None?) ==> r == st
    ensures e.EditPhone? && st.showRegister ==> r.reg.phone == TypePhone(st.reg.phone, e.value)
    ensures e.PickLoginRole? && r.role != st.role ==> !st.adminLogin && r.role == e.role && e.role != Admin
  {
    match e
    case PickLoginRole(role) =>
      if !st.adminLogin && !st.showRegister && role != Admin then st.(role := role) else st
    case OpenRegister =>
      if !st.adminLogin && !st.showRegister then st.(showRegister := true) else st
    case OpenLogin =>
      if st.showRegister then st.(showRegister := false) else st
    case PickRegisterRole(role) =>
      if st.showRegister && role != Admin then st.(reg := st.reg.(role := role)) else st
    case EditPhone(value) =>
      if st.showRegister then st.(reg := st.reg.(phone := TypePhone(st.reg.phone, value))) else st
    case Registered =>
      if st.showRegister && CheckRegistration(st.reg).None? then
        st.(showRegister := false, email := st.reg.email, role := st.reg.role, reg := EmptyRegData)
      else st
    case BackToLogin =>
      if st.adminLogin && !st.showRegister then st.(adminLogin := false) else st
  }

  /** What every reachable state keeps: the admin page logs in as admin and never shows the registration
      form; nobody registers as admin; the phone field holds a valid value. The plain page may still carry
      the admin role it inherited through the back link. */
  predicate Consistent(st: PageState)
  {
    && (st.adminLogin ==> st.role == Admin && !st.showRegister)
    && st.reg.role != Admin
    && ValidPhone(st.reg.phone)
  }

  /** What the page evidently means to keep as well: the plain page never logs in as admin. */
  predicate StrictlyConsistent(st: PageState)
  {
    Consistent(st) && (!st.adminLogin ==> st.role != Admin)
  }

  lemma InitialConsistent(path: string)
    ensures StrictlyConsistent(Initial(path))
  {
  }

  lemma StepConsistent(st: PageState, e: Event)
    requires Consistent(st)
    ensures Consistent(Step(st, e))
  {
  }

  /** On a consistent plain page, a form role other than admin stays so: no event brings the admin role
      back or opens the admin page. */
  lemma PlainPageStaysNonAdmin(st: PageState, e: Event)
    requires Consistent(st) && !st.adminLogin && st.role != Admin
    ensures !Step(st, e).adminLogin && Step(st, e).role != Admin
  {
  }

  /** Runs the events in order. No run reaches the admin page from the plain one. */
  function Run(st: PageState, events: seq<Event>): (r: PageState)
    ensures !st.adminLogin ==> !r.adminLogin
    ensures r.adminLogin ==> st.adminLogin
    decreases |events|
  {
    if |events| == 0 then st else Run(Step(st, events[0]), events[1..])
  }

  /** Any run of events from a consistent state keeps the page consistent. */
  lemma {:induction false} RunConsistent(st: PageState, events: seq<Event>)
    requires Consistent(st)
    ensures Consistent(Run(st, events))
    decreases |events|
  {
    if |events| > 0 {
      StepConsistent(st, events[0]);
      RunConsistent(Step(st, events[0]), events[1..]);
    }
  }

  /** As written, the back link brings the admin role onto the plain page: no role button is highlighted,
      and the login form sends `role: 'admin'`, with which an admin account signs in from the regular
      page. */
  lemma BackLinkKeepsAdminRole()
    ensures var st := Step(Initial(AdminLoginPath), BackToLogin);
            && !st.adminLogin && st.role == Admin
            && Consistent(st) && !StrictlyConsistent(st)
  {
  }

  /** The back link as evidently intended: arriving at `/login` shows the regular page's first render,
      buyer role and empty forms. Every other event is as before. */
  function StepIntended(st: PageState, e: Event): (r: PageState)
    ensures !e.BackToLogin? ==> r == Step(st, e)
    ensures e.BackToLogin? && st.adminLogin && !st.showRegister ==> !r.adminLogin && r.role == Buyer && !r.showRegister
    ensures e.BackToLogin? && !(st.adminLogin && !st.showRegister) ==> r == st
  {
    if e.BackToLogin? && st.adminLogin && !st.showRegister then Initial("/login") else Step(st, e)
  }

  lemma StepIntendedConsistent(st: PageState, e: Event)
    requires StrictlyConsistent(st)
    ensures StrictlyConsistent(StepIntended(st, e))
  {
    if !e.BackToLogin? {
      StepConsistent(st, e);
      if !st.adminLogin {
        PlainPageStaysNonAdmin(st, e);
      }
    }
  }

  function RunIntended(st: PageState, events: seq<Event>): PageState
    decreases |events|
  {
    if |events| == 0 then st else RunIntended(StepIntended(st, events[0]), events[1..])
  }

  /** With the intended back link, every run from the first render keeps the plain page off the admin
      role, so only the admin page ever logs in as admin. */
  lemma {:induction false} RunIntendedConsistent(st: PageState, events: seq<Event>)
    requires StrictlyConsistent(st)
    ensures StrictlyConsistent(RunIntended(st, events))
    ensures !RunIntended(st, events).adminLogin ==> RunIntended(st, events).role != Admin
    decreases |events|
  {
    if |events| > 0 {
      StepIntendedConsistent(st, events[0]);
      RunIntendedConsistent(StepIntended(st, events[0]), events[1..]);
    }
  }

  /** The form cleared after a registration cannot be sent again as it is: it fails the length rule. */
  lemma ClearedFormRefused()
    ensures CheckRegistration(EmptyRegData) == Some(PasswordTooShort)
  {
  }

  /** The URL parameters the page reads after a login. */
  datatype Query = Query(redirect: Option<string>, product: Option<string>, view: Option<string>)

  /** `result.user?.role || role`: the role the server answered with, else the form's. */
  function UserRole(responseRole: Option<Role>, formRole: Role): (r: Role)
    ensures responseRole.Some? ==> r == responseRole.value
    ensures responseRole.None? ==> r == formRole
  {
    responseRole.GetOr(formRole)
  }

  /** Where a successful login leads: a buyer with a `redirect` parameter goes there, carrying the
      `product` parameter when present, else the `view` one; everyone else goes to their own dashboard. */
  function AfterLogin(responseRole: Option<Role>, formRole: Role, q: Query): (r: string)
    ensures !(Truthy(q.redirect) && UserRole(responseRole, formRole) == Buyer) ==>
              r == PrivateRoute.DashboardOf(Some(UserRole(responseRole, formRole)))
    ensures Truthy(q.redirect) && UserRole(responseRole, formRole) == Buyer ==>
              Text.StartsWith(r, "/" + q.redirect.value)
    ensures Truthy(q.redirect) && UserRole(responseRole, formRole) == Buyer && Truthy(q.product) ==>
              r == "/" + q.redirect.value + "?product=" + q.product.value
    ensures Truthy(q.redirect) && UserRole(responseRole, formRole) == Buyer && !Truthy(q.product) && Truthy(q.view) ==>
              r == "/" + q.redirect.value + "?view=" + q.view.value
    ensures Truthy(q.redirect) && UserRole(responseRole, formRole) == Buyer && !Truthy(q.product) && !Truthy(q.view) ==>
              r == "/" + q.redirect.value
  {
    var role := UserRole(responseRole, formRole);
    if Truthy(q.redirect) && role == Buyer then
      var base := "/" + q.redirect.value;
      var r := if Truthy(q.product) then base + "?product=" + q.product.value
               else if Truthy(q.view) then base + "?view=" + q.view.value
               else base;
      assert r[..|base|] == base;
      r
    else "/" + RoleName(role) + "/dashboard"
  }

  /** A login that ignores the redirect lands on a page the route guard lets that user into. */
  lemma OwnDashboardAdmitted(responseRole: Option<Role>, formRole: Role, q: Query)
    requires !(Truthy(q.redirect) && UserRole(responseRole, formRole) == Buyer)
    ensures var role := UserRole(responseRole, formRole);
            PrivateRoute.Guard(PrivateRoute.Session(false, true, Some(role)), AfterLogin(responseRole, formRole, q))
              == PrivateRoute.ShowPage
  {
    PrivateRoute.OwnDashboardAdmitted(UserRole(responseRole, formRole));
  }

  /** The parameters of the landing page's login link for a product, as the login page reads them. */
  function LinkQuery(param: string, productId: Id): (q: Query)
    requires param == "product" || param == "view"
    ensures q.redirect == Some("buyer/dashboard")
    ensures param == "product" ==> q.product == Some(productId) && q.view.None?
    ensures param == "view" ==> q.view == Some(productId) && q.product.None?
  {
    Query(Some("buyer/dashboard"), if param == "product" then Some(productId) else None,
          if param == "view" then Some(productId) else None)
  }

  /** A visitor who follows a landing-page button to the login and signs in as a buyer lands exactly where
      the same button leads a signed-in buyer. */
  lemma LoginResumesLandingClick(responseRole: Option<Role>, formRole: Role, v: LandingPage.Visitor,
                                 param: string, productId: Id)
    requires param == "product" || param == "view"
    requires productId != "" && UserRole(responseRole, formRole) == Buyer
    requires !LandingPage.IsSignedInBuyer(v)
    ensures LandingPage.Target(v, param, productId) == LandingPage.LoginPath + param + "=" + productId
    ensures AfterLogin(responseRole, formRole, LinkQuery(param, productId))
              == LandingPage.Target(LandingPage.Visitor(true, Some(Buyer)), param, productId)
  {
    if param == "product" {
      ResumesProductLink(responseRole, formRole, productId);
    } else {
      ResumesViewLink(responseRole, formRole, productId);
    }
  }

  lemma ResumesProductLink(responseRole: Option<Role>, formRole: Role, productId: Id)
    requires productId != "" && UserRole(responseRole, formRole) == Buyer
    ensures AfterLogin(responseRole, formRole, LinkQuery("product", productId))
              == LandingPage.DashboardPath + "product" + "=" + productId
  {
    assert AfterLogin(responseRole, formRole, LinkQuery("product", productId))
             == "/" + "buyer/dashboard" + "?product=" + productId;
    assert "/" + "buyer/dashboard" + "?product=" == LandingPage.DashboardPath + "product" + "=";
  }

  lemma ResumesViewLink(responseRole: Option<Role>, formRole: Role, productId: Id)
    requires productId != "" && UserRole(responseRole, formRole) == Buyer
    ensures AfterLogin(responseRole, formRole, LinkQuery("view", productId))
              == LandingPage.DashboardPath + "view" + "=" + productId
  {
    assert AfterLogin(responseRole, formRole, LinkQuery("view", productId))
             == "/" + "buyer/dashboard" + "?view=" + productId;
    assert "/" + "buyer/dashboard" + "?view=" == LandingPage.DashboardPath + "view" + "=";
  }

}

=== FILE: order_routes.dfy ===
/** The order endpoints (`/api/orders`): creation from an available product, the caller's orders, the
    admin listing, a single order, and the role-gated status update. Each handler is a pure function of
    the store, the authenticated caller and the request; `now` stands for `new Date()`. */
module OrderRoutes {
  import opened Wrappers
  import opened Entities
  import Seqs

  /** The two collections the order handlers read and write. */
  datatype Store = Store(products: seq<Product>, orders: seq<Order>)

  /** The body of `POST /api/orders`. */
  datatype CreateRequest = CreateRequest(productId: Id, paymentMethod: PaymentMethod, shippingAddress: string)

  /** The fields of a `PUT /api/orders/:id` body; `None` is an absent (or falsy) field. */
  datatype UpdateBody = UpdateBody(
    orderStatus: Option<OrderStatus>,
    paymentStatus: Option<PaymentStatus>,
    approvalStatus: Option<ApprovalStatus>,
    shippingAddress: Option<string>,
    paymentMethod: Option<PaymentMethod>)

  /** The order a buyer's purchase of product `p` creates. */
  function NewOrder(p: Product, caller: Caller, req: CreateRequest, orderId: Id, now: int): Order
  {
    Order(orderId, req.productId, caller.id, p.seller, p.price, req.paymentMethod, req.shippingAddress,
          PaymentStatusFor(req.paymentMethod), OrderPending, ApprovalPending, now, None)
  }

  /** `POST /`: buyers only; the product must exist (404) and be available (400). On success the order is
      appended and the product is marked sold at `now`. An error carries no new state. */
  function CreateOrder(st: Store, caller: Caller, req: CreateRequest, orderId: Id, now: int): (r: Result<(Store, Order)>)
    ensures caller.role != Buyer ==> r == Err(Forbidden)
    ensures caller.role == Buyer && FindProduct(st.products, req.productId).None? ==> r == Err(NotFound)
    ensures (caller.role == Buyer && FindProduct(st.products, req.productId).Some?
             && st.products[FindProduct(st.products, req.productId).value].status != Available)
              ==> r == Err(BadRequest)
    ensures r.Ok? ==>
              var p := st.products[FindProduct(st.products, req.productId).value];
              var o := r.value.1;
              && p.status == Available
              && o.price == p.price && o.seller == p.seller && o.buyer == caller.id && o.product == req.productId
              && o.orderStatus == OrderPending && o.approvalStatus == ApprovalPending
              && (o.paymentStatus == PaymentCompleted <==> IsCard(req.paymentMethod))
              && r.value.0.orders == st.orders + [o]
    ensures r.Ok? ==>
              var i := FindProduct(st.products, req.productId).value;
              && |r.value.0.products| == |st.products|
              && r.value.0.products[i].status == Sold && r.value.0.products[i].soldAt == Some(now)
              && (forall j :: 0 <= j < |st.products| && j != i ==> r.value.0.products[j] == st.products[j])
  {
    if caller.role != Buyer then Err(Forbidden)
    else match FindProduct(st.products, req.productId)
      case None => Err(NotFound)
      case Some(i) =>
        var p := st.products[i];
        if p.status != Available then Err(BadRequest)
        else
          var o := NewOrder(p, caller, req, orderId, now);
          var products := st.products[i := p.(status := Sold, soldAt := Some(now))];
          Ok((Store(products, st.orders + [o]), o))
  }

  /** Which orders `GET /my-orders` selects: a buyer's purchases, a seller's sales, everything for an admin. */
  predicate InScope(caller: Caller, o: Order)
  {
    match caller.role
    case Buyer => o.buyer == caller.id
    case Seller => o.seller == caller.id
    case Admin => true
  }

  /** `sort({ createdAt: -1 })`. */
  function NewestFirst(orders: seq<Order>): (r: seq<Order>)
    ensures multiset(r) == multiset(orders)
    ensures forall i, j :: 0 <= i < j < |r| ==> r[i].createdAt >= r[j].createdAt
  {
    var r := Seqs.SortBy(orders, (o: Order) => -o.createdAt);
    assert forall i, j :: 0 <= i < j < |r| ==> -r[i].createdAt <= -r[j].createdAt;
    r
  }

  /** `GET /my-orders`: exactly the caller's orders (each as many times as it is stored), newest first. */
  function MyOrders(st: Store, caller: Caller): (r: seq<Order>)
    ensures forall o :: o in r <==> o in st.orders && InScope(caller, o)
    ensures forall i, j :: 0 <= i < j < |r| ==> r[i].createdAt >= r[j].createdAt
    ensures |r| <= |st.orders|
    ensures forall o :: multiset(r)[o] == if InScope(caller, o) then multiset(st.orders)[o] else 0
  {
    var mine := Seqs.Filter(st.orders, (o: Order) => InScope(caller, o));
    var r := NewestFirst(mine);
    assert forall o :: o in r <==> o in mine by {
      forall o ensures o in r <==> o in mine {
        assert o in r <==> o in multiset(r);
      }
    }
    assert |r| == |multiset(r)| == |multiset(mine)| == |mine|;
    Seqs.FilterCount(st.orders, (o: Order) => InScope(caller, o));
    r
  }

  /** `GET /all`: every order, newest first, for admins only. */
  function AllOrders(st: Store, caller: Caller): (r: Result<seq<Order>>)
    ensures r.Ok? <==> caller.role == Admin
    ensures r.Ok? ==> multiset(r.value) == multiset(st.orders)
    ensures r.Ok? ==> forall i, j :: 0 <= i < j < |r.value| ==> r.value[i].createdAt >= r.value[j].createdAt
  {
    if caller.role != Admin then Err(Forbidden) else Ok(NewestFirst(st.orders))
  }

  /** For an admin, `my-orders` and `/all` return the same orders. */
  lemma AdminSeesAll(st: Store, caller: Caller)
    requires caller.role == Admin
    ensures AllOrders(st, caller).Ok?
    ensures multiset(MyOrders(st, caller)) == multiset(AllOrders(st, caller).value)
  {
    Seqs.FilterAll(st.orders, (o: Order) => InScope(caller, o));
  }

  /** The parties who may read an order. */
  predicate MayRead(caller: Caller, o: Order)
  {
    caller.role == Admin || o.buyer == caller.id || o.seller == caller.id
  }

  /** `GET /:id`: 404 for an unknown id, 403 unless the caller is an admin, the buyer or the seller. */
  function GetOrder(st: Store, caller: Caller, id: Id): (r: Result<Order>)
    ensures FindOrder(st.orders, id).None? ==> r == Err(NotFound)
    ensures FindOrder(st.orders, id).Some? ==>
              var o := st.orders[FindOrder(st.orders, id).value];
              r == if MayRead(caller, o) then Ok(o) else Err(Forbidden)
    ensures r.Ok? ==> r.value in st.orders && r.value.id == id
  {
    match FindOrder(st.orders, id)
    case None => Err(NotFound)
    case Some(i) =>
      if caller.role != Admin && st.orders[i].buyer != caller.id && st.orders[i].seller != caller.id
      then Err(Forbidden)
      else Ok(st.orders[i])
  }

  /** Every order `my-orders` lists for a caller can be opened by that caller with `GET /:id`. */
  lemma MyOrdersAreReadable(st: Store, caller: Caller, o: Order)
    requires UniqueOrderIds(st.orders)
    requires o in MyOrders(st, caller)
    ensures GetOrder(st, caller, o.id) == Ok(o)
  {
    var k :| 0 <= k < |st.orders| && st.orders[k] == o;
    assert FindOrder(st.orders, o.id).Some?;
  }

  /** The order status an update leaves, stated by precedence: an admin's approval decision wins, then
      the body's `orderStatus`, else the status stays. */
  function StatusAfter(o: Order, caller: Caller, body: UpdateBody): OrderStatus
  {
    if caller.role == Admin && body.approvalStatus == Some(Approved) then Confirmed
    else if caller.role == Admin && body.approvalStatus == Some(Rejected) then Cancelled
    else body.orderStatus.GetOr(o.orderStatus)
  }

  /** The payment status the staff part of an update leaves, stated by precedence: an admin's approval
      completes it, else an admin's `paymentStatus` is written, else a delivery completes it, else it
      stays. A non-admin's `paymentStatus` is never read. */
  function PaymentAfterStaff(o: Order, caller: Caller, body: UpdateBody): PaymentStatus
  {
    if caller.role == Admin && body.approvalStatus == Some(Approved) then PaymentCompleted
    else if caller.role == Admin && body.paymentStatus.Some? then body.paymentStatus.value
    else if body.orderStatus == Some(Delivered) then PaymentCompleted
    else o.paymentStatus
  }

  /** Whether the buyer's pending-order edit runs: the caller is the order's buyer with the buyer role and
      the order is still pending approval. */
  predicate BuyerEdits(o: Order, caller: Caller)
  {
    caller.role == Buyer && caller.id == o.buyer && o.approvalStatus == ApprovalPending
  }

  /** The update step of `PUT /:id` once the caller has passed the guard: `orderStatus`, then the admin's
      `paymentStatus`, then the admin's `approvalStatus`, then the buyer's edit of a pending order. */
  function ApplyUpdate(o: Order, caller: Caller, body: UpdateBody, now: int): (r: Order)
    ensures r.id == o.id && r.product == o.product && r.buyer == o.buyer && r.seller == o.seller
    ensures r.price == o.price && r.createdAt == o.createdAt
    ensures r.orderStatus == StatusAfter(o, caller, body)
    ensures r.approvalStatus == (if caller.role == Admin && body.approvalStatus.Some? then body.approvalStatus.value
                                 else o.approvalStatus)
    ensures r.paymentStatus == (if BuyerEdits(o, caller) && body.paymentMethod.Some?
                                then PaymentStatusFor(body.paymentMethod.value)
                                else PaymentAfterStaff(o, caller, body))
    ensures r.deliveredAt == (if body.orderStatus == Some(Delivered) then Some(now) else o.deliveredAt)
    ensures r.shippingAddress == (if BuyerEdits(o, caller) && Truthy(body.shippingAddress)
                                  then body.shippingAddress.value else o.shippingAddress)
    ensures r.paymentMethod == (if BuyerEdits(o, caller) then body.paymentMethod.GetOr(o.paymentMethod)
                                else o.paymentMethod)
    ensures body == UpdateBody(None, None, None, None, None) ==> r == o
    ensures r.approvalStatus != o.approvalStatus ==> caller.role == Admin && body.approvalStatus == Some(r.approvalStatus)
    ensures caller.role == Admin && body.approvalStatus == Some(Approved) ==>
              r.approvalStatus == Approved && r.paymentStatus == PaymentCompleted && r.orderStatus == Confirmed
    ensures caller.role == Admin && body.approvalStatus == Some(Rejected) ==>
              && r.approvalStatus == Rejected && r.orderStatus == Cancelled
              && r.paymentStatus == (if body.paymentStatus.Some? then body.paymentStatus.value
                                     else if body.orderStatus == Some(Delivered) then PaymentCompleted
                                     else o.paymentStatus)
    ensures body.orderStatus == Some(Delivered) ==> r.deliveredAt == Some(now)
    ensures body.orderStatus == Some(Delivered) && !(caller.role == Admin && body.approvalStatus.Some?) ==>
              r.orderStatus == Delivered
    ensures body.orderStatus.None? ==> r.deliveredAt == o.deliveredAt
    ensures r.shippingAddress != o.shippingAddress || r.paymentMethod != o.paymentMethod ==>
              caller.role == Buyer && caller.id == o.buyer && r.approvalStatus == ApprovalPending
    ensures r.paymentMethod != o.paymentMethod ==> r.paymentStatus == PaymentStatusFor(r.paymentMethod)
  {
    var o1 :=
      match body.orderStatus
      case None => o
      case Some(s) =>
        if s == Delivered then o.(orderStatus := Delivered, deliveredAt := Some(now), paymentStatus := PaymentCompleted)
        else o.(orderStatus := s);
    var o2 := if body.paymentStatus.Some? && caller.role == Admin then o1.(paymentStatus := body.paymentStatus.value) else o1;
    var o3 :=
      if body.approvalStatus.Some? && caller.role == Admin then
        match body.approvalStatus.value
        case Approved => o2.(approvalStatus := Approved, paymentStatus := PaymentCompleted, orderStatus := Confirmed)
        case Rejected => o2.(approvalStatus := Rejected, orderStatus := Cancelled)
        case ApprovalPending => o2.(approvalStatus := ApprovalPending)
      else o2;
    if caller.role == Buyer && o3.buyer == caller.id then EditPending(o3, body) else o3
  }

  /** The buyer's edit of a pending order: a truthy address replaces the shipping address, and a payment
      method replaces the method and re-derives the payment status from it. Any other order is left alone,
      and no status other than the payment status ever changes. */
  function EditPending(o: Order, body: UpdateBody): (r: Order)
    ensures o.approvalStatus != ApprovalPending ==> r == o
    ensures r == o.(shippingAddress := r.shippingAddress, paymentMethod := r.paymentMethod, paymentStatus := r.paymentStatus)
    ensures o.approvalStatus == ApprovalPending ==>
              && r.shippingAddress == (if Truthy(body.shippingAddress) then body.shippingAddress.value else o.shippingAddress)
              && r.paymentMethod == body.paymentMethod.GetOr(o.paymentMethod)
              && r.paymentStatus == (if body.paymentMethod.Some? then PaymentStatusFor(body.paymentMethod.value) else o.paymentStatus)
  {
    if o.approvalStatus != ApprovalPending then o
    else
      var o1 := if Truthy(body.shippingAddress) then o.(shippingAddress := body.shippingAddress.value) else o;
      match body.paymentMethod
      case None => o1
      case Some(m) => o1.(paymentMethod := m, paymentStatus := PaymentStatusFor(m))
  }

  /** Only an admin or the order's seller passes the guard of `PUT /:id`. */
  predicate MayUpdate(caller: Caller, o: Order)
  {
    caller.role == Admin || o.seller == caller.id
  }

  /** `PUT /:id`: 404 for an unknown id, 403 for anyone but an admin or the order's seller; otherwise the
      order is replaced in place by its update and nothing else in the store changes. */
  function UpdateOrder(st: Store, caller: Caller, id: Id, body: UpdateBody, now: int): (r: Result<(Store, Order)>)
    ensures FindOrder(st.orders, id).None? ==> r == Err(NotFound)
    ensures FindOrder(st.orders, id).Some? ==>
              (r.Ok? <==> MayUpdate(caller, st.orders[FindOrder(st.orders, id).value]))
    ensures r.Err? ==> r.status == NotFound || r.status == Forbidden
    ensures r.Ok? ==>
              var i := FindOrder(st.orders, id).value;
              && r.value.0.products == st.products
              && r.value.0.orders == st.orders[i := r.value.1]
              && r.value.1 == ApplyUpdate(st.orders[i], caller, body, now)
  {
    match FindOrder(st.orders, id)
    case None => Err(NotFound)
    case Some(i) =>
      var o := st.orders[i];
      if caller.role != Admin && o.seller != caller.id then Err(Forbidden)
      else
        var o' := ApplyUpdate(o, caller, body, now);
        Ok((Store(st.products, st.orders[i := o']), o'))
  }

  /** The buyer-edit branch is reachable only by a caller who is the order's buyer, has the buyer role and
      is also its seller, because the seller/admin guard runs first. An order's own buyer in any other
      position gets 403. */
  lemma BuyerEditNeedsSellerIdentity(st: Store, caller: Caller, id: Id, body: UpdateBody, now: int)
    requires UpdateOrder(st, caller, id, body, now).Ok?
    ensures var o := st.orders[FindOrder(st.orders, id).value];
            var o' := UpdateOrder(st, caller, id, body, now).value.1;
            o'.shippingAddress != o.shippingAddress || o'.paymentMethod != o.paymentMethod ==>
              caller.role == Buyer && caller.id == o.buyer && caller.id == o.seller
  {
  }

  /** A buyer who is not the seller is refused with 403 and the store stays as it was. */
  lemma BuyerRefused(st: Store, caller: Caller, id: Id, body: UpdateBody, now: int)
    requires caller.role == Buyer
    requires FindOrder(st.orders, id).Some?
    requires st.orders[FindOrder(st.orders, id).value].seller != caller.id
    ensures UpdateOrder(st, caller, id, body, now) == Err(Forbidden)
  {
  }

  /** After a successful purchase, no sequence of order updates makes the product available again. */
  lemma {:induction false} SoldStaysSold(st: Store, caller: Caller, req: CreateRequest, orderId: Id, now: int,
                                         updates: seq<(Caller, Id, UpdateBody, int)>)
    requires CreateOrder(st, caller, req, orderId, now).Ok?
    ensures var after := ApplyAll(CreateOrder(st, caller, req, orderId, now).value.0, updates);
            var i := FindProduct(st.products, req.productId).value;
            i < |after.products| && after.products[i].status == Sold
  {
    var s1 := CreateOrder(st, caller, req, orderId, now).value.0;
    ApplyAllKeepsProducts(s1, updates);
  }

  /** Runs a sequence of `PUT /:id` requests; a refused request leaves the store as it was. */
  function ApplyAll(st: Store, updates: seq<(Caller, Id, UpdateBody, int)>): Store
    decreases |updates|
  {
    if |updates| == 0 then st
    else
      var (c, id, b, t) := updates[0];
      var next := match UpdateOrder(st, c, id, b, t)
        case Ok((s, _)) => s
        case Err(_) => st;
      ApplyAll(next, updates[1..])
  }

  lemma {:induction false} ApplyAllKeepsProducts(st: Store, updates: seq<(Caller, Id, UpdateBody, int)>)
    ensures ApplyAll(st, updates).products == st.products
    decreases |updates|
  {
    if |updates| > 0 {
      var (c, id, b, t) := updates[0];
      var next := match UpdateOrder(st, c, id, b, t)
        case Ok((s, _)) => s
        case Err(_) => st;
      ApplyAllKeepsProducts(next, updates[1..]);
    }
  }

  /** Sending the same body twice (at the same instant) gives the same order as sending it once. */
  lemma UpdateIdempotent(o: Order, caller: Caller, body: UpdateBody, now: int)
    ensures ApplyUpdate(ApplyUpdate(o, caller, body, now), caller, body, now) == ApplyUpdate(o, caller, body, now)
  {
  }

  /** The same holds for the whole request: ids do not change, so the second request finds the same order. */
  lemma UpdateOrderIdempotent(st: Store, caller: Caller, id: Id, body: UpdateBody, now: int)
    requires UpdateOrder(st, caller, id, body, now).Ok?
    ensures var st1 := UpdateOrder(st, caller, id, body, now).value.0;
            UpdateOrder(st1, caller, id, body, now) == UpdateOrder(st, caller, id, body, now)
  {
    var i := FindOrder(st.orders, id).value;
    var st1 := UpdateOrder(st, caller, id, body, now).value.0;
    var o1 := ApplyUpdate(st.orders[i], caller, body, now);
    assert st1.orders == st.orders[i := o1];
    assert st1.orders[i].id == id;
    assert forall m :: 0 <= m < i ==> st1.orders[m] == st.orders[m];
    assert FindOrder(st1.orders, id) == Some(i);
    UpdateIdempotent(st.orders[i], caller, body, now);
    assert st1.orders[i := ApplyUpdate(o1, caller, body, now)] == st1.orders;
  }

  /** Approval is not gated on the current approval status: an admin can flip an approved order to
      rejected and back. */
  lemma AdminCanFlipApproval(o: Order, admin: Caller, now: int)
    requires admin.role == Admin
    ensures var rejected := ApplyUpdate(o, admin, UpdateBody(None, None, Some(Rejected), None, None), now);
            var approved := ApplyUpdate(rejected, admin, UpdateBody(None, None, Some(Approved), None, None), now);
            && rejected.approvalStatus == Rejected && rejected.orderStatus == Cancelled
            && approved.approvalStatus == Approved && approved.orderStatus == Confirmed
  {
  }

  /** The update `PUT /:id` evidently means, going by its own comment on the buyer branch ("Buyer can edit
      pending orders"): the order's buyer is let through too, but only to the pending-order edit, never to
      the status fields. Admins and sellers are treated exactly as before. */
  function UpdateOrderIntended(st: Store, caller: Caller, id: Id, body: UpdateBody, now: int): (r: Result<(Store, Order)>)
    ensures FindOrder(st.orders, id).None? ==> r == Err(NotFound)
    ensures FindOrder(st.orders, id).Some? ==>
              var o := st.orders[FindOrder(st.orders, id).value];
              (r.Ok? <==> MayUpdate(caller, o) || (caller.role == Buyer && o.buyer == caller.id))
    ensures r.Err? ==> r.status == NotFound || r.status == Forbidden
    ensures FindOrder(st.orders, id).Some? && MayUpdate(caller, st.orders[FindOrder(st.orders, id).value]) ==>
              r == UpdateOrder(st, caller, id, body, now)
    ensures r.Ok? ==>
              var i := FindOrder(st.orders, id).value;
              r.value.0.products == st.products && r.value.0.orders == st.orders[i := r.value.1]
  {
    match FindOrder(st.orders, id)
    case None => Err(NotFound)
    case Some(i) =>
      var o := st.orders[i];
      if MayUpdate(caller, o) then UpdateOrder(st, caller, id, body, now)
      else if caller.role == Buyer && o.buyer == caller.id then
        var o' := EditPending(o, body);
        Ok((Store(st.products, st.orders[i := o']), o'))
      else Err(Forbidden)
  }

  /** With the intended guard the order's own buyer can edit a pending order: the new address and method
      are stored, the payment status follows the method, and no other status moves. A decided order is
      left as it was. */
  lemma IntendedBuyerEdit(st: Store, caller: Caller, id: Id, address: string, m: PaymentMethod, now: int)
    requires caller.role == Buyer && address != ""
    requires FindOrder(st.orders, id).Some?
    requires st.orders[FindOrder(st.orders, id).value].buyer == caller.id
    ensures var o := st.orders[FindOrder(st.orders, id).value];
            var r := UpdateOrderIntended(st, caller, id, UpdateBody(None, None, None, Some(address), Some(m)), now);
            && r.Ok?
            && (o.approvalStatus == ApprovalPending ==>
                  r.value.1 == o.(shippingAddress := address, paymentMethod := m, paymentStatus := PaymentStatusFor(m)))
            && (o.approvalStatus != ApprovalPending ==> r.value.1 == o)
  {
  }
}

=== FILE: order_stats.dfy ===
/** The order statistics the dashboards and history pages compute in the browser: which orders count as
    sales, revenue sums, the six-month sales chart and the distinct-customer count. */
module OrderStats {
  import opened Wrappers
  import opened Entities
  import Seqs

  /** A sale as the buyer and seller dashboards and the home pages count it: paid, or approved. */
  predicate Successful(o: Order)
  {
    o.paymentStatus == PaymentCompleted || o.approvalStatus == Approved
  }

  /** A sale as the admin dashboard and the history pages count it: paid. */
  predicate Paid(o: Order)
  {
    o.paymentStatus == PaymentCompleted
  }

  /** The pending count of the dashboards: `approvalStatus === 'Pending'`. */
  predicate AwaitingApproval(o: Order)
  {
    o.approvalStatus == ApprovalPending
  }

  predicate IsApproved(o: Order)
  {
    o.approvalStatus == Approved
  }

  /** `o.price || 0`; a missing price is already 0 in this model. */
  function Price(o: Order): int
  {
    o.price
  }

  function MethodOf(o: Order): PaymentMethod
  {
    o.paymentMethod
  }

  predicate NonNegativePrices(orders: seq<Order>)
  {
    forall i :: 0 <= i < |orders| ==> orders[i].price >= 0
  }

  /** `orders.filter(sale).reduce((sum, o) => sum + (o.price || 0), 0)`. */
  function Revenue(orders: seq<Order>, sale: Order -> bool): int
  {
    Seqs.SumBy(Seqs.Filter(orders, sale), Price)
  }

  /** No orders, no revenue. */
  lemma RevenueEmpty(sale: Order -> bool)
    ensures Revenue([], sale) == 0
  {
  }

  /** Revenue grows order by order: one more order adds its price exactly when it counts as a sale. */
  lemma RevenueAppend(orders: seq<Order>, o: Order, sale: Order -> bool)
    ensures Revenue(orders + [o], sale) == Revenue(orders, sale) + (if sale(o) then o.price else 0)
  {
    Seqs.FilterAppend(orders, [o], sale);
    Seqs.SumByAppend(Seqs.Filter(orders, sale), Seqs.Filter([o], sale), Price);
    assert Seqs.Filter([o], sale) == if sale(o) then [o] else [];
  }

  /** Every paid order is a successful one, so the narrower revenue never exceeds the broader one. */
  lemma PaidRevenueAtMostSuccessful(orders: seq<Order>)
    ensures NonNegativePrices(orders) ==> 0 <= Revenue(orders, Paid) <= Revenue(orders, Successful)
  {
    if NonNegativePrices(orders) {
      Seqs.SumByFilterMono(orders, Paid, Successful, Price);
      Seqs.SumByFilterLe(orders, Paid, Price);
    }
  }

  /** Paid revenue, successful revenue and the sum of all prices, in increasing order. */
  lemma RevenueBounds(orders: seq<Order>)
    ensures NonNegativePrices(orders) ==>
              && Revenue(orders, Paid) <= Revenue(orders, Successful)
              && Revenue(orders, Successful) <= Seqs.SumBy(orders, Price)
  {
    PaidRevenueAtMostSuccessful(orders);
    if NonNegativePrices(orders) {
      Seqs.SumByFilterLe(orders, Successful, Price);
    }
  }

  /** With no approved-but-unpaid order the two definitions give the same revenue. */
  lemma RevenueAgreesWithoutUnpaidApprovals(orders: seq<Order>)
    requires forall i :: 0 <= i < |orders| ==> (orders[i].approvalStatus == Approved ==> Paid(orders[i]))
    ensures Revenue(orders, Paid) == Revenue(orders, Successful)
  {
    Seqs.FilterSame(orders, Paid, Successful);
  }

  /** `new Date(...).getMonth()`: a month index. */
  type Month = m: int | 0 <= m < 12

  /** `(currentMonth - orderMonth + 12) % 12`: how many months before the current one an order's month
      lies, the year ignored. The operand is positive, so JavaScript's `%` and Dafny's agree. */
  function MonthsBack(cur: Month, m: Month): (r: nat)
    ensures r < 12
    ensures (m + r) % 12 == cur
    ensures r == 0 <==> m == cur
  {
    (cur - m + 12) % 12
  }

  /** The offset without the modulo: the difference, or the difference plus twelve across a year end. */
  lemma MonthsBackValue(cur: Month, m: Month)
    ensures MonthsBack(cur, m) == if m <= cur then cur - m else cur - m + 12
  {
  }

  /** `MonthsBack` is the only offset that leads from `m` to `cur`. */
  lemma MonthsBackUnique(cur: Month, m: Month, d: nat)
    requires d < 12 && (m + d) % 12 == cur
    ensures MonthsBack(cur, m) == d
  {
  }

  /** The bar of the six-bar chart an order of month `m` is added to: `5 - monthIndex` when
      `monthIndex < 6`, none otherwise. */
  function Slot(cur: Month, m: Month): (r: Option<nat>)
    ensures r.Some? <==> MonthsBack(cur, m) < 6
    ensures r.Some? ==> r.value < 6
    ensures r == Some(5) <==> m == cur
  {
    var back := MonthsBack(cur, m);
    if back < 6 then Some(5 - back) else None
  }

  /** Different months never share a bar. */
  lemma SlotInjective(cur: Month, m1: Month, m2: Month)
    requires Slot(cur, m1).Some? && Slot(cur, m1) == Slot(cur, m2)
    ensures m1 == m2
  {
  }

  function Total(xs: seq<int>): int
  {
    if |xs| == 0 then 0 else xs[0] + Total(xs[1..])
  }

  lemma {:induction false} TotalUpdate(xs: seq<int>, k: nat, d: int)
    requires k < |xs|
    ensures Total(xs[k := xs[k] + d]) == Total(xs) + d
    decreases |xs|
  {
    if k > 0 {
      TotalUpdate(xs[1..], k - 1, d);
      assert xs[k := xs[k] + d][1..] == xs[1..][k - 1 := xs[k] + d];
    }
  }

  /** `new Array(n).fill(0)`. */
  function Zeros(n: nat): (r: seq<int>)
    ensures |r| == n && Total(r) == 0
    ensures forall k :: 0 <= k < n ==> r[k] == 0
  {
    if n == 0 then [] else [0] + Zeros(n - 1)
  }

  /** The `salesData` array of `getSalesByMonthData` for the given (already filtered) orders: bar `k`
      holds the total price of the orders whose month lands in bar `k`. */
  function SalesByMonth(orders: seq<Order>, cur: Month, monthOf: Order -> Month): (r: seq<int>)
    ensures |r| == 6
    decreases |orders|
  {
    if |orders| == 0 then Zeros(6)
    else
      var rest := SalesByMonth(orders[1..], cur, monthOf);
      match Slot(cur, monthOf(orders[0]))
      case None => rest
      case Some(k) => rest[k := rest[k] + orders[0].price]
  }

  /** Bar `k` holds the total price of the orders whose month lands in bar `k`. */
  lemma {:induction false} SalesByMonthBars(orders: seq<Order>, cur: Month, monthOf: Order -> Month, k: nat)
    requires k < 6
    ensures SalesByMonth(orders, cur, monthOf)[k]
            == Seqs.SumBy(Seqs.Filter(orders, o => Slot(cur, monthOf(o)) == Some(k)), Price)
    decreases |orders|
  {
    if |orders| > 0 {
      SalesByMonthBars(orders[1..], cur, monthOf, k);
      SalesByMonthStep(orders, cur, monthOf, k);
      Seqs.SumByFilterStep(orders, o => Slot(cur, monthOf(o)) == Some(k), Price);
    }
  }

  lemma SalesByMonthStep(orders: seq<Order>, cur: Month, monthOf: Order -> Month, k: nat)
    requires k < 6 && |orders| > 0
    ensures SalesByMonth(orders, cur, monthOf)[k]
            == SalesByMonth(orders[1..], cur, monthOf)[k]
               + (if Slot(cur, monthOf(orders[0])) == Some(k) then orders[0].price else 0)
  {
  }

  /** An order of the last six months, counted in some bar. */
  predicate InWindow(cur: Month, monthOf: Order -> Month, o: Order)
  {
    Slot(cur, monthOf(o)).Some?
  }

  /** The revenue of the orders of the last six months. */
  function WindowRevenue(orders: seq<Order>, cur: Month, monthOf: Order -> Month): int
    decreases |orders|
  {
    if |orders| == 0 then 0
    else (if InWindow(cur, monthOf, orders[0]) then orders[0].price else 0) + WindowRevenue(orders[1..], cur, monthOf)
  }

  /** The six bars together hold exactly the revenue of the orders of the last six months. */
  lemma {:induction false} SalesByMonthTotal(orders: seq<Order>, cur: Month, monthOf: Order -> Month)
    ensures Total(SalesByMonth(orders, cur, monthOf)) == WindowRevenue(orders, cur, monthOf)
    decreases |orders|
  {
    if |orders| > 0 {
      SalesByMonthTotal(orders[1..], cur, monthOf);
      var rest := SalesByMonth(orders[1..], cur, monthOf);
      match Slot(cur, monthOf(orders[0]))
      case None =>
      case Some(k) => TotalUpdate(rest, k, orders[0].price);
    }
  }

  lemma {:induction false} WindowRevenueBounded(orders: seq<Order>, cur: Month, monthOf: Order -> Month)
    requires NonNegativePrices(orders)
    ensures 0 <= WindowRevenue(orders, cur, monthOf) <= Seqs.SumBy(orders, Price)
    decreases |orders|
  {
    if |orders| > 0 {
      WindowRevenueBounded(orders[1..], cur, monthOf);
    }
  }

  /** The sales chart never shows more than the revenue it is drawn from. */
  lemma SalesChartBounded(orders: seq<Order>, cur: Month, monthOf: Order -> Month)
    requires NonNegativePrices(orders)
    ensures 0 <= Total(SalesByMonth(orders, cur, monthOf)) <= Seqs.SumBy(orders, Price)
  {
    SalesByMonthTotal(orders, cur, monthOf);
    WindowRevenueBounded(orders, cur, monthOf);
  }

  /** `getSalesByMonthData` of the admin dashboard and the sell history: the labels and the six bars of
      the paid orders. */
  function PaidSalesChart(orders: seq<Order>, cur: Month, monthOf: Order -> Month): (r: (seq<string>, seq<int>))
    ensures |r.1| == 6 && 1 <= |r.0| <= 6 && r.0[|r.0| - 1] == MonthNames[cur]
  {
    (ChartLabels(cur), SalesByMonth(Seqs.Filter(orders, Paid), cur, monthOf))
  }

  /** The six bars together never exceed the paid revenue shown beside them. */
  lemma PaidSalesChartWithinRevenue(orders: seq<Order>, cur: Month, monthOf: Order -> Month)
    requires NonNegativePrices(orders)
    ensures 0 <= Total(PaidSalesChart(orders, cur, monthOf).1) <= Revenue(orders, Paid)
  {
    var paid := Seqs.Filter(orders, Paid);
    assert forall i :: 0 <= i < |paid| ==> paid[i] in orders;
    SalesChartBounded(paid, cur, monthOf);
  }

  const MonthNames: seq<string> := ["Jan", "Feb", "Mar", "Apr", "May", "Jun", "Jul", "Aug", "Sep", "Oct", "Nov", "Dec"]

  /** `months.slice(Math.max(0, currentMonth - 5), currentMonth + 1)`: the chart's labels, ending with the
      current month. */
  function ChartLabels(cur: Month): (r: seq<string>)
    ensures |r| == if cur < 5 then cur + 1 else 6
    ensures r[|r| - 1] == MonthNames[cur]
    ensures forall i :: 0 <= i < |r| ==> r[i] == MonthNames[cur + 1 - |r| + i]
  {
    MonthNames[if cur < 5 then 0 else cur - 5..cur + 1]
  }

  /** From June on, each label names the month whose sales its bar holds. */
  lemma LabelsMatchBarsFromJune(cur: Month, m: Month)
    requires cur >= 5 && Slot(cur, m).Some?
    ensures ChartLabels(cur)[Slot(cur, m).value] == MonthNames[m]
  {
    MonthsBackValue(cur, m);
  }

  /** From January to May there are fewer labels than bars, and the first label sits on the bar of a
      month of the previous year. */
  lemma LabelsMisplacedBeforeJune(cur: Month)
    requires cur < 5
    ensures |ChartLabels(cur)| < 6
    ensures Slot(cur, cur + 7) == Some(0) && ChartLabels(cur)[0] == "Jan" && MonthNames[cur + 7] != "Jan"
  {
  }

  /** The labels the chart evidently means: the six months ending with the current one, wrapping into
      the previous year. */
  function WrappedLabels(cur: Month): (r: seq<string>)
    ensures |r| == 6
    ensures r[5] == MonthNames[cur]
  {
    seq(6, k requires 0 <= k < 6 => MonthNames[(cur + 7 + k) % 12])
  }

  /** With the wrapped labels every bar is labelled with its own month, all year round. */
  lemma WrappedLabelsMatchBars(cur: Month, m: Month)
    requires Slot(cur, m).Some?
    ensures WrappedLabels(cur)[Slot(cur, m).value] == MonthNames[m]
  {
    MonthsBackValue(cur, m);
    var k := Slot(cur, m).value;
    var idx := cur + 7 + k;
    assert idx % 12 == m by {
      if m <= cur {
        assert idx == m + 12;
      } else {
        assert idx == m;
      }
    }
    assert WrappedLabels(cur)[k] == MonthNames[idx % 12];
  }

  /** `[...new Set(orders.map(o => o.buyer?._id || o.buyer).filter(Boolean))]`: the distinct buyers. */
  function Customers(orders: seq<Order>): (r: seq<Id>)
    ensures Seqs.Distinct(r)
    ensures |r| <= |orders|
    ensures forall i :: 0 <= i < |r| ==> r[i] != "" && exists j :: 0 <= j < |orders| && orders[j].buyer == r[i]
    ensures forall j :: 0 <= j < |orders| && orders[j].buyer != "" ==> orders[j].buyer in r
  {
    var ids := Seqs.Map(orders, (o: Order) => o.buyer);
    var present := Seqs.Filter(ids, (b: Id) => b != "");
    var r := Seqs.Dedup(present);
    assert forall i :: 0 <= i < |r| ==> r[i] in ids;
    r
  }
}

=== FILE: private_route.dfy ===
/** The client-side route guard: what a protected page renders for the current session and path. */
module PrivateRoute {
  import opened Wrappers
  import opened Entities
  import Text

  /** The session as the auth context reports it; `role` is absent when no user object is loaded. */
  datatype Session = Session(loading: bool, authenticated: bool, role: Option<Role>)

  /** What the guard renders: the loading text, the protected page, or a redirect. */
  datatype Outcome = ShowLoading | ShowPage | Redirect(to: string)

  /** `` `/${user?.role}/dashboard` ``: the dashboard of a role, with the literal "undefined" when there is
      none. */
  function DashboardOf(role: Option<Role>): (r: string)
    ensures role.Some? ==> r == "/" + RoleName(role.value) + "/dashboard"
    ensures role.None? ==> r == "/undefined/dashboard"
  {
    "/" + (if role.Some? then RoleName(role.value) else "undefined") + "/dashboard"
  }

  /** The area a path belongs to, by its first prefix among `/admin`, `/buyer` and `/seller`. */
  function AreaOf(path: string): (r: Option<Role>)
    ensures r == Some(Admin) <==> Text.StartsWith(path, "/admin")
    ensures r == Some(Buyer) <==> !Text.StartsWith(path, "/admin") && Text.StartsWith(path, "/buyer")
    ensures r == Some(Seller) <==>
              !Text.StartsWith(path, "/admin") && !Text.StartsWith(path, "/buyer") && Text.StartsWith(path, "/seller")
  {
    if Text.StartsWith(path, "/admin") then Some(Admin)
    else if Text.StartsWith(path, "/buyer") then Some(Buyer)
    else if Text.StartsWith(path, "/seller") then Some(Seller)
    else None
  }

  /** `PrivateRoute`: loading first; an anonymous visitor goes to the admin login from an admin path and to
      the plain login elsewhere; an area path admits only its own role and sends any other role to its own
      dashboard (an admin path with no role goes to the admin login); any other path admits every
      authenticated user. */
  function Guard(s: Session, path: string): (r: Outcome)
    ensures r == ShowLoading <==> s.loading
    ensures !s.loading && !s.authenticated ==>
              r == Redirect(if Text.StartsWith(path, "/admin") then "/login/admin" else "/login")
    ensures !s.loading && s.authenticated ==>
              (r == ShowPage <==> AreaOf(path).None? || s.role == AreaOf(path))
    ensures !s.loading && s.authenticated && AreaOf(path).Some? && s.role != AreaOf(path) ==>
              r == Redirect(if AreaOf(path) == Some(Admin) && s.role.None? then "/login/admin" else DashboardOf(s.role))
  {
    if s.loading then ShowLoading
    else if !s.authenticated then
      Redirect(if Text.StartsWith(path, "/admin") then "/login/admin" else "/login")
    else
      match AreaOf(path)
      case None => ShowPage
      case Some(area) =>
        if s.role == Some(area) then ShowPage
        else if area == Admin && s.role.None? then Redirect("/login/admin")
        else Redirect(DashboardOf(s.role))
  }

  /** A signed-in user with a role who is turned away is sent to their own dashboard, and that dashboard's
      path is one the guard lets them into: the redirect never loops. */
  lemma RedirectLandsOnOwnDashboard(s: Session, path: string)
    requires !s.loading && s.authenticated && s.role.Some?
    requires Guard(s, path).Redirect?
    ensures Guard(s, path) == Redirect(DashboardOf(s.role))
    ensures Guard(s, DashboardOf(s.role)) == ShowPage
  {
    OwnDashboardAdmitted(s.role.value);
  }

  /** The dashboard path of each role is one the guard admits that role to. */
  lemma OwnDashboardAdmitted(role: Role)
    ensures Guard(Session(false, true, Some(role)), DashboardOf(Some(role))) == ShowPage
  {
    var d := DashboardOf(Some(role));
    match role
    case Admin =>
      assert Text.StartsWith(d, "/admin") by { assert d[..6] == "/admin"; }
    case Buyer =>
      assert !Text.StartsWith(d, "/admin") by { assert d[1] == 'b'; }
      assert Text.StartsWith(d, "/buyer") by { assert d[..6] == "/buyer"; }
    case Seller =>
      assert !Text.StartsWith(d, "/admin") by { assert d[1] == 's'; }
      assert !Text.StartsWith(d, "/buyer") by { assert d[1] == 's'; }
      assert Text.StartsWith(d, "/seller") by { assert d[..7] == "/seller"; }
  }

  /** Every signed-in role reaches its own area and no other area. */
  lemma AreasAreExclusive(s: Session, path: string)
    requires !s.loading && s.authenticated && AreaOf(path).Some?
    ensures Guard(s, path) == ShowPage <==> s.role == AreaOf(path)
  {
  }
}

=== FILE: product_lists.dfy ===
/** The product selections the storefront pages compute from a fetched product list: the available
    products, the newest or cheapest few of them, and the category list. */
module ProductLists {
  import opened Entities
  import Seqs

  predicate IsAvailable(p: Product)
  {
    p.status == Available
  }

  /** `products.filter(p => p.status === 'available')`. */
  function AvailableOnly(products: seq<Product>): (r: seq<Product>)
    ensures forall p :: p in r <==> p in products && IsAvailable(p)
    ensures forall p :: multiset(r)[p] == if IsAvailable(p) then multiset(products)[p] else 0
    ensures |r| <= |products|
  {
    Seqs.FilterCount(products, IsAvailable);
    Seqs.Filter(products, IsAvailable)
  }

  /** The filter keeps the listing order: a product added at the end shows up at the end, exactly when it
      is available. */
  lemma AvailableOnlyAppend(products: seq<Product>, p: Product)
    ensures AvailableOnly(products + [p]) == AvailableOnly(products) + if IsAvailable(p) then [p] else []
  {
    Seqs.FilterAppend(products, [p], IsAvailable);
  }

  function NegCreated(p: Product): int
  {
    -p.createdAt
  }

  function PriceOf(p: Product): int
  {
    p.price
  }

  /** `sort((a, b) => new Date(b.createdAt) - new Date(a.createdAt)).slice(0, k)`: the `k` newest, newest
      first. No product left out is newer than one kept. */
  function NewestFirst(products: seq<Product>, k: nat): (r: seq<Product>)
    ensures |r| == if k < |products| then k else |products|
    ensures forall i, j :: 0 <= i < j < |r| ==> r[i].createdAt >= r[j].createdAt
    ensures forall i :: 0 <= i < |r| ==> r[i] in products
    ensures forall p :: p in products && p !in r ==> forall i :: 0 <= i < |r| ==> r[i].createdAt >= p.createdAt
    ensures multiset(r) <= multiset(products)
  {
    var r := Seqs.SmallestBy(products, NegCreated, k);
    forall i, j | 0 <= i < j < |r|
      ensures r[i].createdAt >= r[j].createdAt
    {
      assert NegCreated(r[i]) <= NegCreated(r[j]);
    }
    forall p, i | p in products && p !in r && 0 <= i < |r|
      ensures r[i].createdAt >= p.createdAt
    {
      assert NegCreated(r[i]) <= NegCreated(p);
    }
    r
  }

  /** `sort((a, b) => (a.price || 0) - (b.price || 0)).slice(0, k)`: the `k` cheapest, cheapest first. No
      product left out is cheaper than one kept. */
  function CheapestFirst(products: seq<Product>, k: nat): (r: seq<Product>)
    ensures |r| == if k < |products| then k else |products|
    ensures forall i, j :: 0 <= i < j < |r| ==> r[i].price <= r[j].price
    ensures forall i :: 0 <= i < |r| ==> r[i] in products
    ensures forall p :: p in products && p !in r ==> forall i :: 0 <= i < |r| ==> r[i].price <= p.price
    ensures multiset(r) <= multiset(products)
  {
    var r := Seqs.SmallestBy(products, PriceOf, k);
    forall i, j | 0 <= i < j < |r|
      ensures r[i].price <= r[j].price
    {
      assert PriceOf(r[i]) <= PriceOf(r[j]);
    }
    forall p, i | p in products && p !in r && 0 <= i < |r|
      ensures r[i].price <= p.price
    {
      assert PriceOf(r[i]) <= PriceOf(p);
    }
    r
  }

  /** `filter(p => p.status === 'available')` followed by the newest-first cut: at most `k` available
      products, newest first; no available product left out is newer than one kept. */
  function NewestAvailable(products: seq<Product>, k: nat): (r: seq<Product>)
    ensures |r| == if k < |AvailableOnly(products)| then k else |AvailableOnly(products)|
    ensures forall i :: 0 <= i < |r| ==> r[i] in products && r[i].status == Available
    ensures forall i, j :: 0 <= i < j < |r| ==> r[i].createdAt >= r[j].createdAt
    ensures multiset(r) <= multiset(products)
    ensures forall p :: p in products && p.status == Available && p !in r ==>
              forall i :: 0 <= i < |r| ==> r[i].createdAt >= p.createdAt
  {
    var available := AvailableOnly(products);
    var r := NewestFirst(available, k);
    forall i | 0 <= i < |r|
      ensures r[i] in products && r[i].status == Available
    {
      assert r[i] in available;
    }
    forall p, i | p in products && p.status == Available && p !in r && 0 <= i < |r|
      ensures r[i].createdAt >= p.createdAt
    {
      assert p in available;
    }
    r
  }

  /** The same with the cheapest-first cut, over the products `keep` admits. */
  function CheapestWhere(products: seq<Product>, keep: Product -> bool, k: nat): (r: seq<Product>)
    ensures |r| == if k < Seqs.CountIf(products, keep) then k else Seqs.CountIf(products, keep)
    ensures forall i :: 0 <= i < |r| ==> r[i] in products && keep(r[i])
    ensures multiset(r) <= multiset(products)
    ensures forall i, j :: 0 <= i < j < |r| ==> r[i].price <= r[j].price
    ensures forall p :: p in products && keep(p) && p !in r ==> forall i :: 0 <= i < |r| ==> r[i].price <= p.price
  {
    var kept := Seqs.Filter(products, keep);
    var r := CheapestFirst(kept, k);
    assert forall i :: 0 <= i < |r| ==> r[i] in kept;
    r
  }

  function CategoryOf(p: Product): string
  {
    p.category
  }

  predicate NonEmpty(s: string)
  {
    s != ""
  }

  /** `[...new Set(products.map(p => p.category).filter(Boolean))]`: each non-empty category once. */
  function UniqueCategories(products: seq<Product>): (r: seq<string>)
    ensures Seqs.Distinct(r)
    ensures forall i :: 0 <= i < |r| ==> r[i] != "" && exists j :: 0 <= j < |products| && products[j].category == r[i]
    ensures forall j :: 0 <= j < |products| && products[j].category != "" ==> products[j].category in r
    ensures |r| <= |products|
  {
    var names := Seqs.Map(products, CategoryOf);
    var present := Seqs.Filter(names, NonEmpty);
    var r := Seqs.Dedup(present);
    assert forall i :: 0 <= i < |r| ==> r[i] in names;
    assert forall j :: 0 <= j < |products| && products[j].category != "" ==> names[j] in present;
    r
  }

  /** The categories keep the order in which they first occur: one more product adds its category at the
      end exactly when it is non-empty and not yet listed. */
  lemma UniqueCategoriesAppend(products: seq<Product>, p: Product)
    ensures UniqueCategories(products + [p])
              == UniqueCategories(products)
                 + (if p.category == "" || p.category in UniqueCategories(products) then [] else [p.category])
  {
    var names := Seqs.Map(products, CategoryOf);
    assert Seqs.Map(products + [p], CategoryOf) == names + [p.category];
    PresentAppend(names, p.category);
  }

  lemma PresentAppend(names: seq<string>, c: string)
    ensures Seqs.Dedup(Seqs.Filter(names + [c], NonEmpty))
              == Seqs.Dedup(Seqs.Filter(names, NonEmpty))
                 + (if c == "" || c in Seqs.Dedup(Seqs.Filter(names, NonEmpty)) then [] else [c])
  {
    Seqs.FilterAppend(names, [c], NonEmpty);
    var present := Seqs.Filter(names, NonEmpty);
    if c == "" {
      assert Seqs.Filter([c], NonEmpty) == [];
      assert present + [] == present;
    } else {
      assert Seqs.Filter([c], NonEmpty) == [c];
      Seqs.DedupAppend(present, c);
    }
  }


  /** `products.filter(p => p.category === category && p.status === 'available').length`. */
  function AvailableIn(products: seq<Product>, category: string): (n: nat)
    ensures n <= |AvailableOnly(products)|
    decreases |products|
  {
    if |products| == 0 then 0
    else
      var rest := AvailableIn(products[1..], category);
      assert AvailableOnly(products) == (if IsAvailable(products[0]) then [products[0]] else []) + AvailableOnly(products[1..]);
      (if products[0].category == category && IsAvailable(products[0]) then 1 else 0) + rest
  }

  /** The per-category counts of the category cards never exceed the available total, for distinct
      categories. */
  lemma {:induction false} AvailableInDistinct(products: seq<Product>, a: string, b: string)
    requires a != b
    ensures AvailableIn(products, a) + AvailableIn(products, b) <= |AvailableOnly(products)|
    decreases |products|
  {
    if |products| > 0 {
      AvailableInDistinct(products[1..], a, b);
      assert AvailableOnly(products) == (if IsAvailable(products[0]) then [products[0]] else []) + AvailableOnly(products[1..]);
    }
  }

  /** Each category's available count is the number of times the category occurs among the available
      products. */
  lemma {:induction false} AvailableInIsCount(products: seq<Product>, category: string)
    ensures AvailableIn(products, category) == Seqs.Count(Seqs.Map(AvailableOnly(products), CategoryOf), category)
    decreases |products|
  {
    if |products| > 0 {
      AvailableInIsCount(products[1..], category);
      var rest := AvailableOnly(products[1..]);
      assert AvailableOnly(products) == (if IsAvailable(products[0]) then [products[0]] else []) + rest;
      if IsAvailable(products[0]) {
        assert Seqs.Map(AvailableOnly(products), CategoryOf)[1..] == Seqs.Map(rest, CategoryOf);
      }
    }
  }
}

=== FILE: product_routes.dfy ===
/** The product endpoints (`/api/products`): the filtered listing, reading a product (which counts a view),
    creation by sellers and admins, and owner-or-admin update and deletion. */
module ProductRoutes {
  import opened Wrappers
  import opened Entities
  import Seqs
  import Text

  /** The listing's query string; `None` stands for an absent or empty parameter. */
  datatype Query = Query(
    category: Option<string>,
    status: Option<string>,
    seller: Option<Id>,
    location: Option<string>,
    search: Option<string>)

  /** A `$regex` match with option `i`, for a pattern without metacharacters. */
  predicate ContainsIgnoringCase(s: string, term: string)
  {
    Text.Contains(Text.Lower(s), Text.Lower(term))
  }

  /** The `$or` of the search parameter. */
  predicate SearchHit(p: Product, term: string)
  {
    || ContainsIgnoringCase(p.title, term) || ContainsIgnoringCase(p.description, term)
    || ContainsIgnoringCase(p.category, term) || ContainsIgnoringCase(p.location, term)
  }

  /** The conjunction of the supplied filters. */
  predicate Selected(q: Query, p: Product)
  {
    && (q.category.Some? ==> p.category == q.category.value)
    && (q.status.Some? ==> StatusName(p.status) == q.status.value)
    && (q.seller.Some? ==> p.seller == q.seller.value)
    && (q.location.Some? ==> ContainsIgnoringCase(p.location, q.location.value))
    && (q.search.Some? ==> SearchHit(p, q.search.value))
  }

  /** `sort({ createdAt: -1 })`. */
  function NewestFirst(products: seq<Product>): (r: seq<Product>)
    ensures multiset(r) == multiset(products)
    ensures forall i, j :: 0 <= i < j < |r| ==> r[i].createdAt >= r[j].createdAt
  {
    var r := Seqs.SortBy(products, (p: Product) => -p.createdAt);
    assert forall i, j :: 0 <= i < j < |r| ==> -r[i].createdAt <= -r[j].createdAt;
    r
  }

  /** `GET /`: the products every supplied filter accepts, newest first. */
  function ListProducts(products: seq<Product>, q: Query): (r: seq<Product>)
    ensures forall p :: p in r <==> p in products && Selected(q, p)
    ensures forall i, j :: 0 <= i < j < |r| ==> r[i].createdAt >= r[j].createdAt
    ensures |r| <= |products|
    ensures forall p :: multiset(r)[p] == if Selected(q, p) then multiset(products)[p] else 0
  {
    var hits := Seqs.Filter(products, (p: Product) => Selected(q, p));
    var r := NewestFirst(hits);
    assert forall p :: p in r <==> p in hits by {
      forall p ensures p in r <==> p in hits {
        assert p in r <==> p in multiset(r);
      }
    }
    assert |r| == |multiset(r)| == |multiset(hits)| == |hits|;
    Seqs.FilterCount(products, (p: Product) => Selected(q, p));
    r
  }

  /** With no filters the listing is every product. */
  lemma EmptyQueryListsAll(products: seq<Product>)
    ensures multiset(ListProducts(products, Query(None, None, None, None, None))) == multiset(products)
  {
    var q := Query(None, None, None, None, None);
    Seqs.FilterAll(products, (p: Product) => Selected(q, p));
  }

  /** A search term matches regardless of the case in which it is typed. */
  lemma SearchIgnoresCase(p: Product, term: string)
    ensures SearchHit(p, term) <==> SearchHit(p, Text.Lower(term))
  {
    LowerIdempotent(term);
  }

  lemma LowerIdempotent(s: string)
    ensures Text.Lower(Text.Lower(s)) == Text.Lower(s)
  {
  }

  /** `GET /:id`: 404 for an unknown id; otherwise the product is returned with one more view, and only its
      view count changes. */
  function ViewProduct(products: seq<Product>, id: Id): (r: Result<(seq<Product>, Product)>)
    ensures r.Ok? <==> FindProduct(products, id).Some?
    ensures r.Err? ==> r.status == NotFound
    ensures r.Ok? ==>
              var i := FindProduct(products, id).value;
              && r.value.1 == products[i].(views := products[i].views + 1)
              && r.value.0 == products[i := r.value.1]
  {
    match FindProduct(products, id)
    case None => Err(NotFound)
    case Some(i) =>
      var p := products[i].(views := products[i].views + 1);
      Ok((products[i := p], p))
  }

  /** `n` reads of an existing product. */
  function ViewTimes(products: seq<Product>, id: Id, n: nat): seq<Product>
    decreases n
  {
    if n == 0 then products
    else match ViewProduct(products, id)
      case Err(_) => products
      case Ok((ps, _)) => ViewTimes(ps, id, n - 1)
  }

  /** Every read counts exactly once: after `n` reads the product has `n` more views and the rest of the
      collection is untouched. */
  lemma {:induction false} ViewsCountReads(products: seq<Product>, id: Id, n: nat)
    requires FindProduct(products, id).Some?
    ensures var i := FindProduct(products, id).value;
            var after := ViewTimes(products, id, n);
            && |after| == |products|
            && after[i] == products[i].(views := products[i].views + n)
            && forall j :: 0 <= j < |products| && j != i ==> after[j] == products[j]
    decreases n
  {
    if n > 0 {
      var i := FindProduct(products, id).value;
      var ps := ViewProduct(products, id).value.0;
      assert ps == products[i := products[i].(views := products[i].views + 1)];
      assert ps[i].id == id && forall j :: 0 <= j < i ==> ps[j] == products[j];
      assert FindProduct(ps, id) == Some(i);
      ViewsCountReads(ps, id, n - 1);
    }
  }

  /** `POST /` (sellers and admins): the body becomes a product whose seller is the caller, whatever the
      body said. */
  function CreateProduct(products: seq<Product>, caller: Caller, body: Product, newId: Id, now: int): (r: Result<(seq<Product>, Product)>)
    ensures r.Ok? <==> caller.role == Seller || caller.role == Admin
    ensures r.Err? ==> r.status == Forbidden
    ensures r.Ok? ==>
              && r.value.1.seller == caller.id && r.value.1.id == newId
              && r.value.1.title == body.title && r.value.1.price == body.price && r.value.1.category == body.category
              && r.value.0 == products + [r.value.1]
    ensures r.Ok? ==>
              && r.value.1.createdAt == now
              && r.value.1.(id := body.id, seller := body.seller, createdAt := body.createdAt) == body
  {
    if caller.role != Seller && caller.role != Admin then Err(Forbidden)
    else
      var p := body.(id := newId, seller := caller.id, createdAt := now);
      Ok((products + [p], p))
  }

  /** The fields of a `PUT /:id` body: the body is passed to the update as it is, so each given field
      overwrites the stored one, the seller, the view counter and the sale date included. */
  datatype Patch = Patch(
    title: Option<string>,
    description: Option<string>,
    price: Option<int>,
    category: Option<string>,
    location: Option<string>,
    images: Option<seq<string>>,
    status: Option<ProductStatus>,
    seller: Option<Id>,
    views: Option<nat>,
    soldAt: Option<int>)

  /** A patch with no field given. */
  const EmptyPatch := Patch(None, None, None, None, None, None, None, None, None, None)

  /** The write of `findByIdAndUpdate(id, body)`: every given field replaces the stored one, every absent
      field keeps it; the id and the creation date are never written. */
  function ApplyPatch(p: Product, patch: Patch): (r: Product)
    ensures r.id == p.id && r.createdAt == p.createdAt
    ensures r.title == patch.title.GetOr(p.title) && r.description == patch.description.GetOr(p.description)
    ensures r.price == patch.price.GetOr(p.price) && r.category == patch.category.GetOr(p.category)
    ensures r.location == patch.location.GetOr(p.location) && r.images == patch.images.GetOr(p.images)
    ensures r.status == patch.status.GetOr(p.status) && r.seller == patch.seller.GetOr(p.seller)
    ensures r.views == patch.views.GetOr(p.views)
    ensures r.soldAt == (if patch.soldAt.Some? then patch.soldAt else p.soldAt)
    ensures patch == EmptyPatch ==> r == p
  {
    p.(title := patch.title.GetOr(p.title),
       description := patch.description.GetOr(p.description),
       price := patch.price.GetOr(p.price),
       category := patch.category.GetOr(p.category),
       location := patch.location.GetOr(p.location),
       images := patch.images.GetOr(p.images),
       status := patch.status.GetOr(p.status),
       seller := patch.seller.GetOr(p.seller),
       views := patch.views.GetOr(p.views),
       soldAt := if patch.soldAt.Some? then patch.soldAt else p.soldAt)
  }

  /** Only an admin or the product's seller may change or delete it. */
  predicate MayManage(caller: Caller, p: Product)
  {
    caller.role == Admin || p.seller == caller.id
  }

  /** `PUT /:id`: 404 for an unknown id, 403 unless the caller may manage the product; otherwise that product
      alone is patched. */
  function UpdateProduct(products: seq<Product>, caller: Caller, id: Id, patch: Patch): (r: Result<seq<Product>>)
    ensures FindProduct(products, id).None? ==> r == Err(NotFound)
    ensures FindProduct(products, id).Some? ==>
              (r.Ok? <==> MayManage(caller, products[FindProduct(products, id).value]))
    ensures r.Err? ==> r.status == NotFound || r.status == Forbidden
    ensures r.Ok? ==>
              var i := FindProduct(products, id).value;
              && |r.value| == |products|
              && r.value[i] == ApplyPatch(products[i], patch)
              && forall j :: 0 <= j < |products| && j != i ==> r.value[j] == products[j]
  {
    match FindProduct(products, id)
    case None => Err(NotFound)
    case Some(i) =>
      if caller.role != Admin && products[i].seller != caller.id then Err(Forbidden)
      else Ok(products[i := ApplyPatch(products[i], patch)])
  }

  /** The view counter is not the server's alone: a product's seller can set it to any value through
      `PUT /:id`, and only the counter changes. */
  lemma SellerSetsViews(products: seq<Product>, caller: Caller, id: Id, n: nat)
    requires FindProduct(products, id).Some?
    requires products[FindProduct(products, id).value].seller == caller.id
    ensures var i := FindProduct(products, id).value;
            var r := UpdateProduct(products, caller, id, EmptyPatch.(views := Some(n)));
            r.Ok? && r.value == products[i := products[i].(views := n)]
  {
  }

  /** `DELETE /:id`: 404 for an unknown id, 403 unless the caller may manage the product; otherwise exactly
      that product is removed. */
  function DeleteProduct(products: seq<Product>, caller: Caller, id: Id): (r: Result<seq<Product>>)
    ensures FindProduct(products, id).None? ==> r == Err(NotFound)
    ensures FindProduct(products, id).Some? ==>
              (r.Ok? <==> MayManage(caller, products[FindProduct(products, id).value]))
    ensures r.Err? ==> r.status == NotFound || r.status == Forbidden
    ensures r.Ok? ==>
              var i := FindProduct(products, id).value;
              && |r.value| == |products| - 1
              && (forall j :: 0 <= j < i ==> r.value[j] == products[j])
              && (forall j :: i < j < |products| ==> r.value[j - 1] == products[j])
  {
    match FindProduct(products, id)
    case None => Err(NotFound)
    case Some(i) =>
      if caller.role != Admin && products[i].seller != caller.id then Err(Forbidden)
      else Ok(products[..i] + products[i + 1..])
  }

  /** A seller can neither change nor delete another seller's product. */
  lemma OthersProductsAreSafe(products: seq<Product>, caller: Caller, id: Id, patch: Patch)
    requires caller.role == Seller
    requires FindProduct(products, id).Some? && products[FindProduct(products, id).value].seller != caller.id
    ensures UpdateProduct(products, caller, id, patch) == Err(Forbidden)
    ensures DeleteProduct(products, caller, id) == Err(Forbidden)
  {
  }
}

=== FILE: product_viewer.dfy ===
/** The product page's image viewer: at most five images shown, arrow and thumbnail navigation, dragging,
    and an auto-rotate that steps over every image, shown or not. */
module ProductViewer {
  import opened Wrappers

  const MaxShown := 5

  /** `Math.min(images.length, 5)`: how many images are shown. */
  function ShownCount(len: nat): (m: nat)
    ensures m <= MaxShown && m <= len
    ensures m == len || m == MaxShown
  {
    if len < MaxShown then len else MaxShown
  }

  /** `nextImage`: one step forward, wrapping within the shown images. With no image the step divides by
      zero (`NaN` in the page), which is `None` here. */
  function Next(index: nat, len: nat): (r: Option<nat>)
    ensures r.Some? <==> len > 0
    ensures r.Some? ==> r.value < ShownCount(len)
    ensures r.Some? && index + 1 < ShownCount(len) ==> r.value == index + 1
    ensures r.Some? && index + 1 == ShownCount(len) ==> r.value == 0
    ensures len > 0 ==> r.value % ShownCount(len) == (index + 1) % ShownCount(len)
  {
    var m := ShownCount(len);
    if m == 0 then None else Some((index + 1) % m)
  }

  /** `prevImage`: one step back, wrapping within the shown images. */
  function Prev(index: nat, len: nat): (r: Option<nat>)
    ensures r.Some? <==> len > 0
    ensures r.Some? ==> r.value < ShownCount(len)
    ensures r.Some? && 0 < index <= ShownCount(len) ==> r.value == index - 1
    ensures r.Some? && index == 0 ==> r.value == ShownCount(len) - 1
    ensures len > 0 ==> (r.value + 1) % ShownCount(len) == index % ShownCount(len)
  {
    var m := ShownCount(len);
    if m == 0 then None
    else
      BackStep(index, m);
      Some((index - 1 + m) % m)
  }

  /** Stepping back modulo `m` is undone by stepping forward. */
  lemma BackStep(index: nat, m: nat)
    requires m > 0
    ensures 0 <= (index - 1 + m) % m < m
    ensures ((index - 1 + m) % m + 1) % m == index % m
  {
    var q, b := (index - 1 + m) / m, (index - 1 + m) % m;
    assert index - 1 + m == q * m + b;
    var p, c := index / m, index % m;
    assert index == p * m + c;
    assert b + 1 == (p + 1 - q) * m + c;
    ModUnique(b + 1, p + 1 - q, c, m);
  }

  /** Euclidean division is unique: a quotient and a remainder in range are the ones `/` and `%` give. */
  lemma ModUnique(y: int, q: int, r: int, m: int)
    requires m > 0 && 0 <= r < m && y == q * m + r
    ensures y % m == r
  {
    var q2, r2 := y / m, y % m;
    assert y == q2 * m + r2;
    var d := q - q2;
    assert d * m == r2 - r by {
      assert q * m - q2 * m == (q - q2) * m;
    }
    MulAwayFromZero(d, m);
  }

  /** A non-zero multiple of a positive `m` is at least `m` away from zero. */
  lemma MulAwayFromZero(a: int, m: int)
    requires m > 0
    ensures a >= 1 ==> a * m >= m
    ensures a <= -1 ==> a * m <= -m
  {
    if a >= 1 {
      MulNonNegative(a - 1, m);
      assert a * m == (a - 1) * m + m;
    } else if a <= -1 {
      MulNonNegative(-a - 1, m);
      assert a * m == -((-a - 1) * m) - m;
    }
  }

  lemma MulNonNegative(a: int, b: int)
    requires a >= 0 && b >= 0
    ensures a * b >= 0
  {
  }

  /** On a shown position, back undoes forward and forward undoes back. */
  lemma PrevNextInverse(index: nat, len: nat)
    requires index < ShownCount(len)
    ensures Prev(Next(index, len).value, len) == Some(index)
    ensures Next(Prev(index, len).value, len) == Some(index)
  {
  }

  /** The auto-rotate step: forward modulo the full image count, not the shown count. */
  function AutoStep(index: nat, len: nat): (r: nat)
    requires len > 0
    ensures r < len
  {
    (index + 1) % len
  }

  /** `Math.round(currentIndex + deltaX / 5)`: the index a drag of `deltaX` pixels points at. */
  function DragTarget(index: nat, deltaX: int): (r: int)
    ensures 5 * (2 * r - 1) <= 10 * index + 2 * deltaX < 5 * (2 * r + 1)
  {
    (10 * index + 2 * deltaX + 5) / 10
  }

  /** A drag moves to its target only when that differs from the current index and lies within the full
      image list (again not just the shown part). */
  function Drag(index: nat, deltaX: int, len: nat): (r: nat)
    ensures r == index || (r < len && r as int == DragTarget(index, deltaX))
    ensures 0 <= DragTarget(index, deltaX) < len ==> r as int == DragTarget(index, deltaX)
    ensures !(0 <= DragTarget(index, deltaX) < len) ==> r == index
  {
    var t := DragTarget(index, deltaX);
    if t != index && 0 <= t < len then t else index
  }

  /** What the viewer renders. */
  datatype View =
    | Placeholder
    | Showing(image: string, position: nat, count: nat, arrows: bool, limitBadge: bool)

  /** The render: a placeholder without images; otherwise the image at the clamped index
      `min(currentIndex, shown - 1)`, the counter, the arrows and thumbnails only when more than one image
      is shown, and the "max 5 shown" badge when images were cut. */
  function Render(images: seq<string>, index: nat): (r: View)
    ensures r.Placeholder? <==> |images| == 0
    ensures r.Showing? ==>
              && r.count == ShownCount(|images|) && r.position < r.count
              && r.image == images[r.position]
              && r.position == (if index < r.count then index else r.count - 1)
              && (r.arrows <==> r.count > 1)
              && (r.limitBadge <==> |images| > MaxShown)
  {
    if |images| == 0 then Placeholder
    else
      var shown := ShownCount(|images|);
      var position := if index < shown - 1 then index else shown - 1;
      Showing(images[position], position, shown, shown > 1, |images| > MaxShown)
  }

  /** Clicking thumbnail `k` shows exactly image `k`. */
  lemma ThumbnailShowsItsImage(images: seq<string>, k: nat)
    requires k < ShownCount(|images|)
    ensures Render(images, k).Showing? && Render(images, k).image == images[k] && Render(images, k).position == k
  {
  }

  /** With more than five images, auto-rotate moves past the shown ones: the index then keeps pointing
      beyond them and the view stays on the fifth image until it wraps to 0. */
  lemma AutoRotatePastShown(images: seq<string>, index: nat)
    requires |images| > MaxShown && MaxShown - 1 <= index < |images| - 1
    ensures AutoStep(index, |images|) >= MaxShown
    ensures Render(images, AutoStep(index, |images|)).position == MaxShown - 1
  {
  }
}

=== FILE: sell_history.dfy ===
/** The seller's sales history page: the three summary boxes and the two charts over the paid orders. */
module SellHistory {
  import opened Entities
  import Seqs
  import OrderStats

  datatype Summary = Summary(totalSales: nat, successfulSales: nat, totalRevenue: int, showCharts: bool)

  /** The boxes: "Total Sales" counts every order whatever its status, "Successful Sales" and the revenue
      count paid orders only, and the charts appear only when some order is paid. */
  function SummaryOf(orders: seq<Order>): (r: Summary)
    ensures r.totalSales == |orders| && r.successfulSales <= r.totalSales
    ensures r.successfulSales == Seqs.CountIf(orders, OrderStats.Paid)
    ensures r.totalRevenue == OrderStats.Revenue(orders, OrderStats.Paid)
    ensures r.showCharts <==> exists i :: 0 <= i < |orders| && OrderStats.Paid(orders[i])
    ensures r.showCharts <==> r.successfulSales > 0
    ensures !r.showCharts ==> r.totalRevenue == 0
    ensures OrderStats.NonNegativePrices(orders) ==>
              0 <= r.totalRevenue <= Seqs.SumBy(orders, OrderStats.Price)
  {
    var successful := Seqs.Filter(orders, OrderStats.Paid);
    OrderStats.RevenueBounds(orders);
    OrderStats.PaidRevenueAtMostSuccessful(orders);
    assert |successful| > 0 ==> successful[0] in successful;
    Summary(|orders|, |successful|, OrderStats.Revenue(orders, OrderStats.Paid), |successful| > 0)
  }

  /** `getPaymentMethodData`: one slice per payment method among the paid orders; the slices add up to
      the "Successful Sales" box. */
  function PaymentMethodData(orders: seq<Order>): (r: (seq<PaymentMethod>, seq<nat>))
    ensures Seqs.Distinct(r.0) && |r.1| == |r.0| && |r.0| <= 3
    ensures forall m :: m in r.0 <==> PaidWith(orders, m)
    ensures Seqs.Sum(r.1) == SummaryOf(orders).successfulSales
    ensures Seqs.Tallies(PaidMethods(orders), r)
  {
    var methods := PaidMethods(orders);
    var r := Seqs.CountingObject(methods);
    assert forall m :: m in r.0 <==> m in methods;
    AtMostThreeMethods(r.0);
    r
  }

  /** Some paid order used method `m`. */
  predicate PaidWith(orders: seq<Order>, m: PaymentMethod)
  {
    exists i :: 0 <= i < |orders| && OrderStats.Paid(orders[i]) && orders[i].paymentMethod == m
  }

  /** The method of each paid order, in order. */
  function PaidMethods(orders: seq<Order>): (r: seq<PaymentMethod>)
    ensures |r| == |Seqs.Filter(orders, OrderStats.Paid)|
    ensures forall m :: m in r <==> PaidWith(orders, m)
  {
    var paid := Seqs.Filter(orders, OrderStats.Paid);
    var methods := Seqs.Map(paid, OrderStats.MethodOf);
    forall m | m in methods
      ensures PaidWith(orders, m)
    {
      var k :| 0 <= k < |methods| && methods[k] == m;
      assert paid[k] in orders;
    }
    forall i | 0 <= i < |orders| && OrderStats.Paid(orders[i])
      ensures orders[i].paymentMethod in methods
    {
      assert orders[i] in paid;
      var k :| 0 <= k < |paid| && paid[k] == orders[i];
      assert methods[k] == orders[i].paymentMethod;
    }
    methods
  }

  /** A list of distinct payment methods has at most three entries. */
  lemma AtMostThreeMethods(ms: seq<PaymentMethod>)
    requires Seqs.Distinct(ms)
    ensures |ms| <= 3
  {
    var all := {COD, Visa, MasterCard};
    forall m: PaymentMethod
      ensures m in all
    {
      match m
      case COD =>
      case Visa =>
      case MasterCard =>
    }
    DistinctWithin(ms, all);
  }

  lemma {:induction false} DistinctWithin<T>(s: seq<T>, within: set<T>)
    requires Seqs.Distinct(s) && forall i :: 0 <= i < |s| ==> s[i] in within
    ensures |s| <= |within|
    decreases |s|
  {
    if |s| > 0 {
      assert forall i :: 0 <= i < |s[1..]| ==> s[1..][i] == s[i + 1];
      assert forall i :: 0 <= i < |s[1..]| ==> s[1..][i] in within - {s[0]};
      DistinctWithin(s[1..], within - {s[0]});
    }
  }
}

=== FILE: seller_dashboard.dfy ===
/** The seller dashboard: the selling statistics, the image list of the product form, and the mapping
    between a product's category and the form's category fields. */
module SellerDashboard {
  import opened Wrappers
  import opened Entities
  import Seqs
  import OrderStats
  import ProductLists
  import ProductRoutes

  // ----- statistics -----

  datatype SellerStats = SellerStats(
    totalProducts: nat,
    availableProducts: nat,
    soldProducts: nat,
    totalRevenue: int,
    totalOrders: nat,
    productsByCategory: (seq<string>, seq<nat>),
    productsByMonth: (seq<string>, seq<nat>))

  predicate IsSold(p: Product)
  {
    p.status == Sold
  }

  /** `product.category || 'Other'`. */
  function CategoryOrOther(p: Product): (c: string)
    ensures c != ""
  {
    if p.category == "" then "Other" else p.category
  }

  /** Every product is either available or sold, so the two cards add up to the total. */
  lemma {:induction false} AvailablePlusSold(products: seq<Product>)
    ensures Seqs.CountIf(products, ProductLists.IsAvailable) + Seqs.CountIf(products, IsSold) == |products|
    decreases |products|
  {
    if |products| > 0 {
      AvailablePlusSold(products[1..]);
    }
  }

  /** `calculateSellerStats` over the seller's products and orders; `monthKey` stands for the locale
      month label of a creation date. */
  function SellerStatsOf(products: seq<Product>, myOrders: seq<Order>, monthKey: Product -> string): (r: SellerStats)
    ensures r.totalProducts == |products| && r.totalOrders == |myOrders|
    ensures r.availableProducts + r.soldProducts == r.totalProducts
    ensures r.availableProducts == Seqs.CountIf(products, ProductLists.IsAvailable)
    ensures r.soldProducts == Seqs.CountIf(products, IsSold)
    ensures r.totalRevenue == OrderStats.Revenue(myOrders, OrderStats.Successful)
    ensures forall p :: p in products && p.status == Available ==> r.availableProducts > 0
    ensures OrderStats.NonNegativePrices(myOrders) ==>
              OrderStats.Revenue(myOrders, OrderStats.Paid) <= r.totalRevenue <= Seqs.SumBy(myOrders, OrderStats.Price)
    ensures Seqs.Sum(r.productsByCategory.1) == |products| && Seqs.Sum(r.productsByMonth.1) == |products|
    ensures "" !in r.productsByCategory.0
    ensures forall p :: p in products && p.category != "" ==> p.category in r.productsByCategory.0
    ensures Seqs.Tallies(Seqs.Map(products, CategoryOrOther), r.productsByCategory)
    ensures Seqs.Tallies(Seqs.Map(products, monthKey), r.productsByMonth)
  {
    AvailablePlusSold(products);
    OrderStats.RevenueBounds(myOrders);
    var categories := Seqs.Map(products, CategoryOrOther);
    var byCategory := Seqs.CountingObject(categories);
    assert forall i :: 0 <= i < |byCategory.0| ==> byCategory.0[i] in categories;
    forall p | p in products && p.category != ""
      ensures p.category in byCategory.0
    {
      var j :| 0 <= j < |products| && products[j] == p;
      assert categories[j] == p.category;
    }
    forall p | p in products && p.status == Available
      ensures Seqs.CountIf(products, ProductLists.IsAvailable) > 0
    {
      assert p in ProductLists.AvailableOnly(products);
    }
    SellerStats(|products|, Seqs.CountIf(products, ProductLists.IsAvailable), Seqs.CountIf(products, IsSold),
                OrderStats.Revenue(myOrders, OrderStats.Successful), |myOrders|,
                byCategory, Seqs.CountingObject(Seqs.Map(products, monthKey)))
  }

  // ----- the image list -----

  /** A chosen file: its MIME type and size in bytes. */
  datatype ImageFile = ImageFile(mimeType: string, size: nat)

  const MaxImages := 5

  const ValidTypes: seq<string> := ["image/jpeg", "image/jpg", "image/png", "image/gif", "image/webp", "image/bmp", "image/svg+xml"]

  predicate ValidType(f: ImageFile)
  {
    f.mimeType in ValidTypes
  }

  /** What choosing a batch of files does to the form's images. */
  datatype ImageOutcome =
    | Unchanged
    | TooMany(room: int)
    | InvalidFormat
    | Added(images: seq<string>)

  /** `handleImageChange`: an empty batch does nothing; a batch that would take the form past five images
      is refused whole (the message offers the room left); so is a batch holding any file of another
      type; otherwise the compressed files (`encoded`, one per file) are appended and the list cut to
      five. */
  function AddImages(images: seq<string>, files: seq<ImageFile>, encoded: seq<string>): (r: ImageOutcome)
    requires |encoded| == |files|
    ensures r == Unchanged <==> files == []
    ensures r.Added? <==>
              files != [] && |images| + |files| <= MaxImages && forall i :: 0 <= i < |files| ==> ValidType(files[i])
    ensures r.TooMany? <==> files != [] && |images| + |files| > MaxImages
    ensures r.TooMany? ==> r.room == MaxImages - |images|
    ensures r.InvalidFormat? <==>
              files != [] && |images| + |files| <= MaxImages && exists i :: 0 <= i < |files| && !ValidType(files[i])
    ensures r.Added? ==> forall i :: 0 <= i < |files| ==> ValidType(files[i])
    ensures r.Added? ==> r.images == images + encoded && |r.images| <= MaxImages
  {
    if |files| == 0 then Unchanged
    else if |images| + |files| > MaxImages then TooMany(MaxImages - |images|)
    else
      var invalid := Seqs.Filter(files, (f: ImageFile) => !ValidType(f));
      if |invalid| > 0 then
        assert invalid[0] in invalid;
        InvalidFormat
      else
        Added(Seqs.Take(images + encoded, MaxImages))
  }

  /** The cut to five never bites: the cap check has already refused any batch it would shorten. */
  lemma AddedKeepsEveryFile(images: seq<string>, files: seq<ImageFile>, encoded: seq<string>)
    requires |encoded| == |files|
    requires AddImages(images, files, encoded).Added?
    ensures |AddImages(images, files, encoded).images| == |images| + |files|
    ensures AddImages(images, files, encoded).images[..|images|] == images
  {
  }

  /** `images.filter((_, i) => i !== index)`. */
  function RemoveAt<T>(s: seq<T>, index: nat): (r: seq<T>)
    ensures index < |s| ==> |r| == |s| - 1
    ensures index >= |s| ==> r == s
    ensures forall j :: 0 <= j < |r| && j < index ==> r[j] == s[j]
    ensures forall j :: index <= j < |r| ==> r[j] == s[j + 1]
    decreases |s|
  {
    if |s| == 0 then []
    else if index == 0 then s[1..]
    else [s[0]] + RemoveAt(s[1..], index - 1)
  }

  /** Removing an index is splicing the list around it. */
  lemma {:induction false} RemoveAtSplice<T>(s: seq<T>, index: nat)
    requires index < |s|
    ensures RemoveAt(s, index) == s[..index] + s[index + 1..]
    decreases |s|
  {
    if index > 0 {
      RemoveAtSplice(s[1..], index - 1);
      assert s[1..][..index - 1] + s[1..][index..] == s[1..index] + s[index + 1..];
      assert [s[0]] + (s[1..index] + s[index + 1..]) == s[..index] + s[index + 1..];
    }
  }

  /** Putting the removed image back where it was restores the list. */
  lemma RemoveAtInverse<T>(s: seq<T>, index: nat)
    requires index < |s|
    ensures RemoveAt(s, index)[..index] + [s[index]] + RemoveAt(s, index)[index..] == s
  {
    Reinsert(s, index, RemoveAt(s, index));
  }

  lemma Reinsert<T>(s: seq<T>, index: nat, r: seq<T>)
    requires index < |s| && |r| == |s| - 1
    requires forall j :: 0 <= j < |r| && j < index ==> r[j] == s[j]
    requires forall j :: index <= j < |r| ==> r[j] == s[j + 1]
    ensures r[..index] + [s[index]] + r[index..] == s
  {
    assert r[..index] == s[..index];
    assert r[index..] == s[index + 1..];
    assert s[..index] + [s[index]] + s[index + 1..] == s;
  }

  // ----- the category fields -----

  /** The categories of the form's drop-down besides "Other". */
  const ListedCategories: seq<string> := ["Electronics", "Clothes", "Perfume", "Furniture", "Books", "Sports",
                                          "Toys", "Jewelry", "Shoes", "Bags", "Home & Kitchen", "Beauty & Personal Care"]

  /** The product form's fields. */
  datatype ProductForm = ProductForm(title: string, description: string, price: int, category: string,
                                     customCategory: string, images: seq<string>)

  /** The body the form sends, without `customCategory`. */
  datatype ProductPayload = ProductPayload(title: string, description: string, price: int, category: string,
                                           images: seq<string>)

  /** `handleSubmit`: "Other" is replaced by the custom category; every other field goes as it is. */
  function SubmitPayload(f: ProductForm): (r: ProductPayload)
    ensures f.category == "Other" ==> r.category == f.customCategory
    ensures f.category != "Other" ==> r.category == f.category
    ensures r.title == f.title && r.description == f.description && r.price == f.price && r.images == f.images
  {
    ProductPayload(f.title, f.description, f.price,
                   if f.category == "Other" then f.customCategory else f.category, f.images)
  }

  const LoginToAddMessage := "Please login to add products"
  const OnlySellersMessage := "Only sellers can add products"

  /** The checks `handleSubmit` makes before sending anything: a stored token, then, when the signed-in
      user is known (`role` is `None` otherwise), a seller or admin role. */
  function SubmitGuard(loggedIn: bool, role: Option<Role>): (r: Check)
    ensures r == Pass <==> loggedIn && (role.Some? ==> role.value == Seller || role.value == Admin)
    ensures !loggedIn ==> r == Fail(LoginToAddMessage)
    ensures loggedIn && role.Some? && role.value == Buyer ==> r == Fail(OnlySellersMessage)
  {
    if !loggedIn then Fail(LoginToAddMessage)
    else if role.Some? && role.value != Seller && role.value != Admin then Fail(OnlySellersMessage)
    else Pass
  }

  /** For a signed-in user whose role the page knows, the page's guard lets a new product through exactly
      when the server creates it. */
  lemma SubmitGuardAgreesWithServer(products: seq<Product>, caller: Caller, body: Product, newId: Id, now: int)
    ensures SubmitGuard(true, Some(caller.role)) == Pass <==> ProductRoutes.CreateProduct(products, caller, body, newId, now).Ok?
  {
  }

  /** `handleEdit`: a listed category is selected in the drop-down; any other goes into the custom field
      with "Other" selected. */
  function EditFormOf(p: Product): (r: ProductForm)
    ensures r.category in ListedCategories || r.category == "Other"
    ensures r.category == "Other" <==> p.category !in ListedCategories
    ensures r.customCategory != "" ==> r.category == "Other"
  {
    var isOther := p.category !in ListedCategories;
    ProductForm(p.title, p.description, p.price, if isOther then "Other" else p.category,
                if isOther then p.category else "", p.images)
  }

  /** Editing a product and submitting the form untouched sends the product's own fields back, its
      category included, listed or not. */
  lemma EditSubmitRoundTrip(p: Product)
    ensures SubmitPayload(EditFormOf(p)) == ProductPayload(p.title, p.description, p.price, p.category, p.images)
  {
  }
}

=== FILE: seller_home.dfy ===
/** The seller's home page: the stat cards, the recent products and the recent orders. */
module SellerHome {
  import opened Entities
  import Seqs
  import OrderStats
  import ProductLists
  import SellerDashboard

  datatype HomeStats = HomeStats(totalProducts: nat, availableProducts: nat, soldProducts: nat, totalRevenue: int,
                                 totalOrders: nat, pendingOrders: nat)

  /** The stat cards: product counts by status, revenue over the successful orders (paid or approved) and
      the orders awaiting approval. */
  function HomeStatsOf(products: seq<Product>, orders: seq<Order>): (r: HomeStats)
    ensures r.totalProducts == |products| && r.totalOrders == |orders|
    ensures r.availableProducts + r.soldProducts == r.totalProducts
    ensures r.pendingOrders <= r.totalOrders
    ensures r.availableProducts == Seqs.CountIf(products, ProductLists.IsAvailable)
    ensures r.soldProducts == Seqs.CountIf(products, SellerDashboard.IsSold)
    ensures r.totalRevenue == OrderStats.Revenue(orders, OrderStats.Successful)
    ensures r.pendingOrders == Seqs.CountIf(orders, OrderStats.AwaitingApproval)
    ensures OrderStats.NonNegativePrices(orders) ==>
              OrderStats.Revenue(orders, OrderStats.Paid) <= r.totalRevenue <= Seqs.SumBy(orders, OrderStats.Price)
  {
    SellerDashboard.AvailablePlusSold(products);
    OrderStats.RevenueBounds(orders);
    HomeStats(|products|, Seqs.CountIf(products, ProductLists.IsAvailable), Seqs.CountIf(products, SellerDashboard.IsSold),
              OrderStats.Revenue(orders, OrderStats.Successful), |orders|, Seqs.CountIf(orders, OrderStats.AwaitingApproval))
  }

  /** The home page and the seller dashboard report the same product counts, revenue and order count. */
  lemma HomeAgreesWithDashboard(products: seq<Product>, orders: seq<Order>, monthKey: Product -> string)
    ensures var home := HomeStatsOf(products, orders);
            var dash := SellerDashboard.SellerStatsOf(products, orders, monthKey);
            && home.totalProducts == dash.totalProducts && home.availableProducts == dash.availableProducts
            && home.soldProducts == dash.soldProducts && home.totalRevenue == dash.totalRevenue
            && home.totalOrders == dash.totalOrders
  {
  }

  /** `products.slice(0, 6)` and `orders.slice(0, 5)`: the first few in the server's order. */
  function Recent(products: seq<Product>, orders: seq<Order>): (r: (seq<Product>, seq<Order>))
    ensures |r.0| == (if |products| < 6 then |products| else 6) && r.0 <= products
    ensures |r.1| == (if |orders| < 5 then |orders| else 5) && r.1 <= orders
  {
    (Seqs.Take(products, 6), Seqs.Take(orders, 5))
  }
}

=== FILE: seqs.dfy ===
/** Sequence operations the JavaScript code uses on arrays: filter, count, reduce-sum, slice, sort and
    de-duplication through a Set, each with the facts the marketplace model relies on. */
module Seqs {
  import opened Wrappers

  /** A store lookup in natural order (`findOne`, `findById`, `Array.prototype.find`): the first
      position whose element satisfies `p`. */
  function FindIndex<T>(s: seq<T>, p: T -> bool): (r: Option<nat>)
    ensures r.Some? ==> r.value < |s| && p(s[r.value])
    ensures r.Some? ==> forall j :: 0 <= j < r.value ==> !p(s[j])
    ensures r.None? ==> forall j :: 0 <= j < |s| ==> !p(s[j])
  {
    if |s| == 0 then None
    else if p(s[0]) then Some(0)
    else match FindIndex(s[1..], p)
      case None => None
      case Some(i) => Some(i + 1)
  }

  /** `Array.prototype.some`. */
  predicate Any<T>(s: seq<T>, p: T -> bool)
  {
    exists i :: 0 <= i < |s| && p(s[i])
  }

  lemma AnyIffFound<T>(s: seq<T>, p: T -> bool)
    ensures Any(s, p) <==> FindIndex(s, p).Some?
  {
    if FindIndex(s, p).Some? {
      assert p(s[FindIndex(s, p).value]);
    }
  }

  /** `Array.prototype.filter`: the elements satisfying `p`, in their original order. */
  function Filter<T(==)>(s: seq<T>, p: T -> bool): (r: seq<T>)
    ensures |r| <= |s|
    ensures forall i :: 0 <= i < |r| ==> p(r[i])
    ensures forall i :: 0 <= i < |r| ==> r[i] in s
    ensures forall i :: 0 <= i < |s| && p(s[i]) ==> s[i] in r
    ensures multiset(r) <= multiset(s)
  {
    if |s| == 0 then []
    else
      assert s == [s[0]] + s[1..];
      if p(s[0]) then [s[0]] + Filter(s[1..], p) else Filter(s[1..], p)
  }

  /** Filtering keeps every occurrence of an element that passes and none of one that fails. */
  lemma {:induction false} FilterCount<T>(s: seq<T>, p: T -> bool)
    ensures forall x :: multiset(Filter(s, p))[x] == if p(x) then multiset(s)[x] else 0
  {
    if |s| > 0 {
      FilterCount(s[1..], p);
      assert s == [s[0]] + s[1..];
    }
  }

  lemma {:induction false} FilterAppend<T>(s: seq<T>, t: seq<T>, p: T -> bool)
    ensures Filter(s + t, p) == Filter(s, p) + Filter(t, p)
    decreases |s|
  {
    if |s| == 0 {
      assert s + t == t;
    } else {
      assert (s + t)[1..] == s[1..] + t;
      FilterAppend(s[1..], t, p);
    }
  }

  /** When exactly the element at `k` fails, filtering splices it out and keeps the rest in order. */
  lemma {:induction false} FilterSplice<T>(s: seq<T>, p: T -> bool, k: nat)
    requires k < |s| && !p(s[k])
    requires forall j :: 0 <= j < |s| && j != k ==> p(s[j])
    ensures Filter(s, p) == s[..k] + s[k + 1..]
  {
    var a, b := s[..k], s[k + 1..];
    assert forall j :: 0 <= j < |a| ==> p(a[j]);
    assert forall j :: 0 <= j < |b| ==> p(b[j]) by {
      forall j | 0 <= j < |b| ensures p(b[j]) { assert b[j] == s[k + 1 + j]; }
    }
    assert s == (a + [s[k]]) + b;
    FilterDropsOne(a, s[k], b, p);
  }

  lemma {:induction false} FilterDropsOne<T>(a: seq<T>, x: T, b: seq<T>, p: T -> bool)
    requires forall j :: 0 <= j < |a| ==> p(a[j])
    requires forall j :: 0 <= j < |b| ==> p(b[j])
    requires !p(x)
    ensures Filter((a + [x]) + b, p) == a + b
  {
    var ax := a + [x];
    FilterAll(a, p);
    FilterAll(b, p);
    FilterNone([x], p);
    FilterAppend(a, [x], p);
    assert Filter(a, p) + Filter([x], p) == a + [];
    assert a + [] == a;
    assert Filter(ax, p) == a;
    FilterAppend(ax, b, p);
  }

  lemma FilterNone<T>(s: seq<T>, p: T -> bool)
    requires |s| == 1 && !p(s[0])
    ensures Filter(s, p) == []
  {
  }

  /** Filtering keeps everything when every element passes. */
  lemma {:induction false} FilterAll<T>(s: seq<T>, p: T -> bool)
    requires forall i :: 0 <= i < |s| ==> p(s[i])
    ensures Filter(s, p) == s
    decreases |s|
  {
    if |s| > 0 {
      FilterAll(s[1..], p);
      assert [s[0]] + s[1..] == s;
    }
  }

  /** Two predicates that agree on every element filter alike. */
  lemma {:induction false} FilterSame<T>(s: seq<T>, p: T -> bool, q: T -> bool)
    requires forall i :: 0 <= i < |s| ==> p(s[i]) == q(s[i])
    ensures Filter(s, p) == Filter(s, q)
    decreases |s|
  {
    if |s| > 0 {
      assert p(s[0]) == q(s[0]);
      FilterSame(s[1..], p, q);
    }
  }

  /** Filtering twice by the same predicate is filtering once. */
  lemma {:induction false} FilterIdempotent<T>(s: seq<T>, p: T -> bool)
    ensures Filter(Filter(s, p), p) == Filter(s, p)
    decreases |s|
  {
    if |s| > 0 {
      FilterIdempotent(s[1..], p);
      if p(s[0]) {
        assert ([s[0]] + Filter(s[1..], p))[1..] == Filter(s[1..], p);
      }
    }
  }

  /** No two positions carry the same key. */
  ghost predicate DistinctBy<T, K>(s: seq<T>, key: T -> K)
  {
    forall i, j :: 0 <= i < j < |s| ==> key(s[i]) != key(s[j])
  }

  /** Filtering keeps keys distinct, since it only drops elements. */
  lemma {:induction false} FilterDistinctBy<T, K>(s: seq<T>, p: T -> bool, key: T -> K)
    requires DistinctBy(s, key)
    ensures DistinctBy(Filter(s, p), key)
    decreases |s|
  {
    if |s| > 0 {
      FilterDistinctBy(s[1..], p, key);
      var rest := Filter(s[1..], p);
      if p(s[0]) {
        forall j | 0 <= j < |rest|
          ensures key(s[0]) != key(rest[j])
        {
          var k :| 0 <= k < |s[1..]| && s[1..][k] == rest[j];
          assert s[k + 1] == rest[j];
        }
      }
    }
  }

  /** `filter(p).length`. */
  function CountIf<T(==)>(s: seq<T>, p: T -> bool): (n: nat)
    ensures n <= |s|
  {
    |Filter(s, p)|
  }

  lemma CountIfAppend<T>(s: seq<T>, t: seq<T>, p: T -> bool)
    ensures CountIf(s + t, p) == CountIf(s, p) + CountIf(t, p)
  {
    FilterAppend(s, t, p);
  }

  /** Two predicates that never hold together count no more than the whole sequence. */
  lemma {:induction false} CountIfDisjoint<T>(s: seq<T>, p: T -> bool, q: T -> bool)
    requires forall x :: !(p(x) && q(x))
    ensures CountIf(s, p) + CountIf(s, q) <= |s|
    decreases |s|
  {
    if |s| > 0 {
      CountIfDisjoint(s[1..], p, q);
    }
  }

  /** Occurrences of one value. */
  function Count<T(==)>(s: seq<T>, x: T): (n: nat)
    ensures n <= |s|
    ensures n > 0 <==> x in s
  {
    if |s| == 0 then 0
    else (if s[0] == x then 1 else 0) + Count(s[1..], x)
  }

  lemma {:induction false} CountAppend<T>(s: seq<T>, t: seq<T>, x: T)
    ensures Count(s + t, x) == Count(s, x) + Count(t, x)
    decreases |s|
  {
    if |s| == 0 {
      assert s + t == t;
    } else {
      assert (s + t)[1..] == s[1..] + t;
      CountAppend(s[1..], t, x);
    }
  }

  /** `reduce((sum, x) => sum + f(x), 0)`. */
  function SumBy<T>(s: seq<T>, f: T -> int): int
  {
    if |s| == 0 then 0 else f(s[0]) + SumBy(s[1..], f)
  }

  lemma {:induction false} SumByAppend<T>(s: seq<T>, t: seq<T>, f: T -> int)
    ensures SumBy(s + t, f) == SumBy(s, f) + SumBy(t, f)
    decreases |s|
  {
    if |s| == 0 {
      assert s + t == t;
    } else {
      assert (s + t)[1..] == s[1..] + t;
      SumByAppend(s[1..], t, f);
    }
  }

  /** The first element counts in a filtered sum exactly when it passes the filter. */
  lemma SumByFilterStep<T>(s: seq<T>, p: T -> bool, f: T -> int)
    requires |s| > 0
    ensures SumBy(Filter(s, p), f) == (if p(s[0]) then f(s[0]) else 0) + SumBy(Filter(s[1..], p), f)
  {
    if p(s[0]) {
      assert (Filter(s, p))[1..] == Filter(s[1..], p);
    }
  }

  /** A sum of non-negative terms over a filtered sequence is at most the sum over all of it. */
  lemma {:induction false} SumByFilterLe<T>(s: seq<T>, p: T -> bool, f: T -> int)
    requires forall i :: 0 <= i < |s| ==> f(s[i]) >= 0
    ensures 0 <= SumBy(Filter(s, p), f) <= SumBy(s, f)
    decreases |s|
  {
    if |s| > 0 {
      SumByFilterLe(s[1..], p, f);
    }
  }

  /** Filtering by a stronger predicate cannot increase a non-negative sum. */
  lemma {:induction false} SumByFilterMono<T>(s: seq<T>, p: T -> bool, q: T -> bool, f: T -> int)
    requires forall x :: p(x) ==> q(x)
    requires forall i :: 0 <= i < |s| ==> f(s[i]) >= 0
    ensures SumBy(Filter(s, p), f) <= SumBy(Filter(s, q), f)
    decreases |s|
  {
    if |s| > 0 {
      SumByFilterMono(s[1..], p, q, f);
    }
  }

  /** `slice(0, n)`: at most the first `n` elements. */
  function Take<T>(s: seq<T>, n: nat): (r: seq<T>)
    ensures |r| == if n < |s| then n else |s|
    ensures r <= s
  {
    if n < |s| then s[..n] else s
  }

  /** Keys in ascending order; ties are allowed. */
  ghost predicate SortedBy<T>(s: seq<T>, key: T -> int)
  {
    forall i, j :: 0 <= i < j < |s| ==> key(s[i]) <= key(s[j])
  }

  /** Inserts `x` before the first element whose key is not smaller, i.e. after every strictly smaller one. */
  function Insert<T>(x: T, s: seq<T>, key: T -> int): (r: seq<T>)
    requires SortedBy(s, key)
    ensures SortedBy(r, key)
    ensures multiset(r) == multiset(s) + multiset{x}
    ensures |r| == |s| + 1
    ensures key(r[0]) == key(x) || (|s| > 0 && key(r[0]) == key(s[0]))
  {
    if |s| == 0 then [x]
    else if key(x) <= key(s[0]) then [x] + s
    else
      var rest := Insert(x, s[1..], key);
      assert s == [s[0]] + s[1..];
      assert key(s[0]) <= key(rest[0]);
      assert forall j :: 0 <= j < |rest| ==> key(rest[0]) <= key(rest[j]);
      [s[0]] + rest
  }

  /** `Array.prototype.sort` with the comparator `(a, b) => key(a) - key(b)`: a stable insertion sort.
      A descending sort is this sort on the negated key. */
  function SortBy<T>(s: seq<T>, key: T -> int): (r: seq<T>)
    ensures SortedBy(r, key)
    ensures multiset(r) == multiset(s)
    ensures |r| == |s|
  {
    if |s| == 0 then []
    else
      assert s == [s[0]] + s[1..];
      Insert(s[0], SortBy(s[1..], key), key)
  }

  /** `[...new Set(s)]`: each value once, at its first occurrence. */
  function Dedup<T(==)>(s: seq<T>): (r: seq<T>)
    ensures forall i :: 0 <= i < |r| ==> r[i] in s
    ensures forall i :: 0 <= i < |s| ==> s[i] in r
    ensures Distinct(r)
    ensures |r| <= |s|
  {
    DedupFrom(s, [])
  }

  ghost predicate Distinct<T>(s: seq<T>)
  {
    forall i, j :: 0 <= i < j < |s| ==> s[i] != s[j]
  }

  /** `seen` is what the Set already holds; elements of `s` not yet seen are appended in order. */
  function DedupFrom<T(==)>(s: seq<T>, seen: seq<T>): (r: seq<T>)
    requires Distinct(seen)
    ensures Distinct(r)
    ensures seen <= r
    ensures forall i :: 0 <= i < |r| ==> r[i] in s || r[i] in seen
    ensures forall i :: 0 <= i < |s| ==> s[i] in r
    ensures |r| <= |s| + |seen|
    decreases |s|
  {
    if |s| == 0 then seen
    else if s[0] in seen then DedupFrom(s[1..], seen)
    else
      var r := DedupFrom(s[1..], seen + [s[0]]);
      assert r[|seen|] == (seen + [s[0]])[|seen|];
      r
  }

  /** The Set grows in insertion order: one more element at the end of the input is appended to the
      result iff it has not been seen before. */
  lemma {:induction false} DedupFromAppend<T>(s: seq<T>, x: T, seen: seq<T>)
    requires Distinct(seen)
    ensures DedupFrom(s + [x], seen) == DedupFrom(s, seen) + (if x in s || x in seen then [] else [x])
    decreases |s|
  {
    if |s| > 0 {
      assert (s + [x])[0] == s[0] && (s + [x])[1..] == s[1..] + [x];
      if s[0] in seen {
        DedupFromAppend(s[1..], x, seen);
      } else {
        DedupFromAppend(s[1..], x, seen + [s[0]]);
      }
    }
  }

  /** `[...new Set(s)]` keeps the first occurrence of each element, in the order of first occurrence. */
  lemma DedupAppend<T>(s: seq<T>, x: T)
    ensures Dedup(s + [x]) == Dedup(s) + (if x in s then [] else [x])
  {
    DedupFromAppend(s, x, []);
  }

  /** Sum over `keys` of the number of occurrences of each key in `s`: the values of a JavaScript
      counting object `{ [k]: count }` added up. */
  function SumCounts<T(==)>(keys: seq<T>, s: seq<T>): nat
  {
    if |keys| == 0 then 0 else Count(s, keys[0]) + SumCounts(keys[1..], s)
  }

  lemma {:induction false} SumCountsAppend<T>(keys: seq<T>, s: seq<T>, x: T)
    ensures SumCounts(keys, s + [x]) == SumCounts(keys, s) + Count(keys, x)
    decreases |keys|
  {
    if |keys| > 0 {
      CountAppend(s, [x], keys[0]);
      SumCountsAppend(keys[1..], s, x);
    }
  }

  lemma {:induction false} CountDistinct<T>(keys: seq<T>, x: T)
    requires Distinct(keys)
    ensures Count(keys, x) == if x in keys then 1 else 0
    decreases |keys|
  {
    if |keys| > 0 {
      CountDistinct(keys[1..], x);
    }
  }

  /** For distinct keys, the per-key counts add up to the number of elements that are keys. */
  lemma {:induction false} SumCountsIsCountIn<T>(keys: seq<T>, s: seq<T>)
    requires Distinct(keys)
    ensures SumCounts(keys, s) == CountIf(s, x => x in keys)
    decreases |s|
  {
    if |s| == 0 {
      SumCountsZero(keys, s);
    } else {
      var init := s[..|s| - 1];
      var x := s[|s| - 1];
      assert s == init + [x];
      SumCountsIsCountIn(keys, init);
      SumCountsAppend(keys, init, x);
      CountDistinct(keys, x);
      CountIfAppend(init, [x], y => y in keys);
    }
  }

  lemma {:induction false} SumCountsZero<T>(keys: seq<T>, s: seq<T>)
    requires |s| == 0
    ensures SumCounts(keys, s) == 0
    decreases |keys|
  {
    if |keys| > 0 {
      SumCountsZero(keys[1..], s);
    }
  }

  /** The counting object as a list: the number of occurrences in `s` of each key, in key order. */
  function Tally<T(==)>(keys: seq<T>, s: seq<T>): (r: seq<nat>)
    ensures |r| == |keys|
    ensures forall i :: 0 <= i < |keys| ==> r[i] == Count(s, keys[i])
  {
    if |keys| == 0 then [] else [Count(s, keys[0])] + Tally(keys[1..], s)
  }

  function Sum(xs: seq<nat>): nat
  {
    if |xs| == 0 then 0 else xs[0] + Sum(xs[1..])
  }

  lemma {:induction false} SumTally<T>(keys: seq<T>, s: seq<T>)
    ensures Sum(Tally(keys, s)) == SumCounts(keys, s)
    decreases |keys|
  {
    if |keys| > 0 {
      SumTally(keys[1..], s);
      assert Tally(keys, s)[1..] == Tally(keys[1..], s);
    }
  }

  /** The counts for the distinct values of `s` add up to `|s|`: every element is counted exactly once. */
  lemma TallyTotal<T>(s: seq<T>)
    ensures SumCounts(Dedup(s), s) == |s|
  {
    var keys := Dedup(s);
    SumCountsIsCountIn(keys, s);
    FilterAll(s, x => x in keys);
  }

  /** `Array.prototype.map`. */
  function Map<T, U>(s: seq<T>, f: T -> U): (r: seq<U>)
    ensures |r| == |s|
    ensures forall i :: 0 <= i < |s| ==> r[i] == f(s[i])
  {
    if |s| == 0 then [] else [f(s[0])] + Map(s[1..], f)
  }

  /** `sort((a, b) => key(a) - key(b)).slice(0, k)`: the first `k` elements by ascending key. Every
      element left out has a key no smaller than any element kept. */
  function SmallestBy<T(==)>(s: seq<T>, key: T -> int, k: nat): (r: seq<T>)
    ensures |r| == if k < |s| then k else |s|
    ensures SortedBy(r, key)
    ensures multiset(r) <= multiset(s)
    ensures forall i :: 0 <= i < |r| ==> r[i] in s
    ensures forall x :: x in s && x !in r ==> forall i :: 0 <= i < |r| ==> key(r[i]) <= key(x)
  {
    var sorted := SortBy(s, key);
    var r := Take(sorted, k);
    SmallestFacts(s, sorted, r, key);
    r
  }

  lemma SmallestFacts<T>(s: seq<T>, sorted: seq<T>, r: seq<T>, key: T -> int)
    requires SortedBy(sorted, key) && multiset(sorted) == multiset(s) && r <= sorted
    ensures multiset(r) <= multiset(s)
    ensures forall i :: 0 <= i < |r| ==> r[i] in s
    ensures forall x :: x in s && x !in r ==> forall i :: 0 <= i < |r| ==> key(r[i]) <= key(x)
  {
    assert sorted == r + sorted[|r|..];
    assert multiset(sorted) == multiset(r) + multiset(sorted[|r|..]);
    forall i | 0 <= i < |r|
      ensures r[i] in s
    {
      assert r[i] in multiset(sorted);
    }
    forall x | x in s && x !in r
      ensures forall i :: 0 <= i < |r| ==> key(r[i]) <= key(x)
    {
      assert x in multiset(sorted);
      assert forall j :: 0 <= j < |r| ==> sorted[j] == r[j];
      var j :| 0 <= j < |sorted| && sorted[j] == x;
      assert j >= |r|;
    }
  }

  /** A JavaScript counting object built with `obj[k] = (obj[k] || 0) + 1` over `s`: its keys in
      insertion order and the matching values. */
  function CountingObject<T(==)>(s: seq<T>): (r: (seq<T>, seq<nat>))
    ensures Distinct(r.0) && |r.1| == |r.0|
    ensures forall i :: 0 <= i < |s| ==> s[i] in r.0
    ensures forall i :: 0 <= i < |r.0| ==> r.0[i] in s
    ensures forall i :: 0 <= i < |r.0| ==> r.1[i] == Count(s, r.0[i]) && r.1[i] > 0
    ensures Sum(r.1) == |s|
    ensures Tallies(s, r)
  {
    var keys := Dedup(s);
    SumTally(keys, s);
    TallyTotal(s);
    (keys, Tally(keys, s))
  }

  /** `t` is a counting object of `s`: each value of `s` is a key exactly once, and each key is paired with
      its number of occurrences in `s`. */
  ghost predicate Tallies<T>(s: seq<T>, t: (seq<T>, seq<nat>))
  {
    && Distinct(t.0) && |t.1| == |t.0|
    && (forall i :: 0 <= i < |s| ==> s[i] in t.0)
    && (forall i :: 0 <= i < |t.0| ==> t.0[i] in s)
    && (forall i :: 0 <= i < |t.0| ==> t.1[i] == Count(s, t.0[i]))
  }

  /** Whatever the key order, a counting object's values add up to the number of elements counted. */
  lemma TalliesTotal<T>(s: seq<T>, t: (seq<T>, seq<nat>))
    requires Tallies(s, t)
    ensures Sum(t.1) == |s|
  {
    assert t.1 == Tally(t.0, s);
    SumTally(t.0, s);
    SumCountsIsCountIn(t.0, s);
    FilterAll(s, x => x in t.0);
  }
}

=== FILE: shop_page.dfy ===
/** The shop page: best deals, new arrivals, the browse list and the category cards. */
module ShopPage {
  import opened Entities
  import Seqs
  import ProductLists

  /** The twelve cheapest available products, cheapest first. */
  function BestDeals(products: seq<Product>): (r: seq<Product>)
    ensures |r| == if 12 < |ProductLists.AvailableOnly(products)| then 12 else |ProductLists.AvailableOnly(products)|
    ensures forall i :: 0 <= i < |r| ==> r[i] in products && r[i].status == Available
    ensures forall i, j :: 0 <= i < j < |r| ==> r[i].price <= r[j].price
    ensures multiset(r) <= multiset(products)
    ensures forall p :: p in products && p.status == Available && p !in r ==>
              forall i :: 0 <= i < |r| ==> r[i].price <= p.price
  {
    var r := ProductLists.CheapestWhere(products, ProductLists.IsAvailable, 12);
    assert ProductLists.AvailableOnly(products) == Seqs.Filter(products, ProductLists.IsAvailable);
    forall i | 0 <= i < |r|
      ensures r[i] in products && r[i].status == Available
    {
      assert ProductLists.IsAvailable(r[i]);
    }
    forall p, i | p in products && p.status == Available && p !in r && 0 <= i < |r|
      ensures r[i].price <= p.price
    {
      assert ProductLists.IsAvailable(p);
    }
    r
  }

  /** The twelve newest available products, newest first. */
  function NewArrivals(products: seq<Product>): (r: seq<Product>)
    ensures |r| == if 12 < |ProductLists.AvailableOnly(products)| then 12 else |ProductLists.AvailableOnly(products)|
    ensures forall i :: 0 <= i < |r| ==> r[i] in products && r[i].status == Available
    ensures forall i, j :: 0 <= i < j < |r| ==> r[i].createdAt >= r[j].createdAt
    ensures multiset(r) <= multiset(products)
    ensures forall p :: p in products && p.status == Available && p !in r ==>
              forall i :: 0 <= i < |r| ==> r[i].createdAt >= p.createdAt
  {
    ProductLists.NewestAvailable(products, 12)
  }

  /** The browse heading: the number of available products. */
  function BrowseCount(products: seq<Product>): (n: nat)
    ensures n <= |products|
    ensures n == 0 <==> forall p :: p in products ==> p.status != Available
    ensures n == Seqs.CountIf(products, ProductLists.IsAvailable)
  {
    var available := ProductLists.AvailableOnly(products);
    assert |available| > 0 ==> available[0] in available;
    |available|
  }

  /** One more product raises the browse count exactly when it is available. */
  lemma BrowseCountAppend(products: seq<Product>, p: Product)
    ensures BrowseCount(products + [p]) == BrowseCount(products) + (if p.status == Available then 1 else 0)
  {
    Seqs.CountIfAppend(products, [p], ProductLists.IsAvailable);
    assert Seqs.Filter([p], ProductLists.IsAvailable) == (if p.status == Available then [p] else []);
  }

  /** The category cards: each non-empty category of the catalogue once, with the number of its available
      products. */
  function CategoryCards(products: seq<Product>): (r: (seq<string>, seq<nat>))
    ensures Seqs.Distinct(r.0) && |r.1| == |r.0|
    ensures forall c :: c in r.0 <==> c != "" && exists j :: 0 <= j < |products| && products[j].category == c
    ensures forall i :: 0 <= i < |r.0| ==> r.1[i] == ProductLists.AvailableIn(products, r.0[i])
  {
    var categories := ProductLists.UniqueCategories(products);
    var names := Seqs.Map(ProductLists.AvailableOnly(products), ProductLists.CategoryOf);
    forall i | 0 <= i < |categories|
      ensures Seqs.Tally(categories, names)[i] == ProductLists.AvailableIn(products, categories[i])
    {
      ProductLists.AvailableInIsCount(products, categories[i]);
    }
    (categories, Seqs.Tally(categories, names))
  }

  /** The cards together count every available product that has a category, once: never more than the
      browse heading, and exactly as many when every product has a category. */
  lemma CardsAddUp(products: seq<Product>)
    ensures Seqs.Sum(CategoryCards(products).1)
            == Seqs.CountIf(Seqs.Map(ProductLists.AvailableOnly(products), ProductLists.CategoryOf), ProductLists.NonEmpty)
    ensures Seqs.Sum(CategoryCards(products).1) <= BrowseCount(products)
  {
    var categories := ProductLists.UniqueCategories(products);
    var available := ProductLists.AvailableOnly(products);
    var names := Seqs.Map(available, ProductLists.CategoryOf);
    Seqs.SumTally(categories, names);
    Seqs.SumCountsIsCountIn(categories, names);
    forall i | 0 <= i < |names|
      ensures (names[i] in categories) == ProductLists.NonEmpty(names[i])
    {
      assert available[i] in products;
    }
    CountIfAgree(names, x => x in categories, ProductLists.NonEmpty);
  }

  /** Two tests that agree on every element count the same. */
  lemma {:induction false} CountIfAgree<T>(s: seq<T>, p: T -> bool, q: T -> bool)
    requires forall i :: 0 <= i < |s| ==> p(s[i]) == q(s[i])
    ensures Seqs.CountIf(s, p) == Seqs.CountIf(s, q)
    decreases |s|
  {
    if |s| > 0 {
      CountIfAgree(s[1..], p, q);
    }
  }
}

=== FILE: text.dfy ===
/** The JavaScript string operations the marketplace relies on: `trim`, `toLowerCase`, `includes`,
    `startsWith`, the `\s`/`\d` character classes and `split(/\s+/)`. */
module Text {
  import Seqs

  /** ECMAScript WhiteSpace and LineTerminator code points: what `trim()` strips and `\s` matches. */
  predicate IsSpace(c: char)
  {
    || c == ' ' || c == '\t' || c == '\n' || c == '\r' || c == '\U{B}' || c == '\U{C}'
    || c == '\U{A0}' || c == '\U{1680}' || ('\U{2000}' <= c <= '\U{200A}')
    || c == '\U{2028}' || c == '\U{2029}' || c == '\U{202F}' || c == '\U{205F}'
    || c == '\U{3000}' || c == '\U{FEFF}'
  }

  /** `\d`: an ASCII decimal digit. */
  predicate IsDigit(c: char)
  {
    '0' <= c <= '9'
  }

  predicate AllDigits(s: string)
  {
    forall i :: 0 <= i < |s| ==> IsDigit(s[i])
  }

  predicate NoSpaces(s: string)
  {
    forall i :: 0 <= i < |s| ==> !IsSpace(s[i])
  }

  /** `/^\d{10}$/.test(s)`. */
  predicate IsTenDigits(s: string)
  {
    |s| == 10 && AllDigits(s)
  }

  function LowerChar(c: char): char
  {
    if 'A' <= c <= 'Z' then (c as int + 32) as char else c
  }

  /** `toLowerCase()` on the ASCII letters. */
  function Lower(s: string): (r: string)
    ensures |r| == |s|
    ensures forall i :: 0 <= i < |s| ==> r[i] == LowerChar(s[i])
  {
    if |s| == 0 then "" else [LowerChar(s[0])] + Lower(s[1..])
  }

  /** `trimStart()`: drops the leading white space, nothing else. */
  function TrimStart(s: string): (r: string)
    ensures |r| <= |s| && r == s[|s| - |r|..]
    ensures forall i :: 0 <= i < |s| - |r| ==> IsSpace(s[i])
    ensures |r| > 0 ==> !IsSpace(r[0])
  {
    if |s| > 0 && IsSpace(s[0]) then
      var t := TrimStart(s[1..]);
      assert s[1..][|s| - 1 - |t|..] == s[|s| - |t|..];
      t
    else s
  }

  /** `trimEnd()`: drops the trailing white space, nothing else. */
  function TrimEnd(s: string): (r: string)
    ensures |r| <= |s| && r == s[..|r|]
    ensures forall i :: |r| <= i < |s| ==> IsSpace(s[i])
    ensures |r| > 0 ==> !IsSpace(r[|r| - 1])
  {
    if |s| > 0 && IsSpace(s[|s| - 1]) then TrimEnd(s[..|s| - 1]) else s
  }

  /** `trim()`. */
  function Trim(s: string): (r: string)
    ensures |r| <= |s|
    ensures |r| > 0 ==> !IsSpace(r[0]) && !IsSpace(r[|r| - 1])
    ensures forall i :: 0 <= i < |r| ==> r[i] in s
  {
    var e := TrimEnd(s);
    var r := TrimStart(e);
    forall i | 0 <= i < |r|
      ensures r[i] in s
    {
      assert r[i] == e[|e| - |r| + i] == s[|e| - |r| + i];
    }
    if |r| > 0 then
      assert r[|r| - 1] == e[|e| - 1];
      r
    else r
  }

  /** `trim()` keeps a slice of `s` with white space, and only white space, cut on either side. */
  lemma TrimIsSlice(s: string)
    ensures IsTrimOf(s, Trim(s))
  {
    var e := TrimEnd(s);
    var r := TrimStart(e);
    var k := |e| - |r|;
    assert r == s[k..k + |r|];
    assert forall j :: 0 <= j < k ==> s[j] == e[j];
    assert CutAt(s, r, k);
  }

  /** `r` is what is left of `s` once white space, and only white space, is cut from both ends: a
      contiguous slice of `s` that neither starts nor ends with white space, with nothing but white space
      before and after it. */
  ghost predicate IsTrimOf(s: string, r: string)
  {
    && (|r| > 0 ==> !IsSpace(r[0]) && !IsSpace(r[|r| - 1]))
    && exists i :: CutAt(s, r, i)
  }

  /** `r` sits at position `i` of `s`, with only white space before and after it. */
  ghost predicate CutAt(s: string, r: string, i: int)
  {
    && 0 <= i && i + |r| <= |s| && r == s[i..i + |r|]
    && (forall j :: 0 <= j < i ==> IsSpace(s[j]))
    && (forall j :: i + |r| <= j < |s| ==> IsSpace(s[j]))
  }

  /** At most one string is the trimmed form of `s`, so the slice property pins `trim()` down. */
  lemma TrimOfUnique(s: string, r1: string, r2: string)
    requires IsTrimOf(s, r1) && IsTrimOf(s, r2)
    ensures r1 == r2
  {
  }

  /** A string without upper-case ASCII letters is its own lower-case form. */
  lemma LowerNoop(s: string)
    requires forall i :: 0 <= i < |s| ==> !('A' <= s[i] <= 'Z')
    ensures Lower(s) == s
  {
  }

  /** A string that neither starts nor ends with white space is its own trimmed form. */
  lemma TrimNoop(s: string)
    requires |s| > 0 ==> !IsSpace(s[0]) && !IsSpace(s[|s| - 1])
    ensures Trim(s) == s
  {
    assert TrimEnd(s) == s;
  }

  /** `!s.trim()`: the string is empty or all white space. */
  predicate IsBlank(s: string)
  {
    forall i :: 0 <= i < |s| ==> IsSpace(s[i])
  }

  /** Blank strings are exactly those that `trim()` empties. */
  lemma BlankIffTrimmedEmpty(s: string)
    ensures IsBlank(s) <==> Trim(s) == ""
  {
    var e := TrimEnd(s);
    if Trim(s) != "" {
      var t := TrimStart(e);
      assert t[0] == s[|e| - |t|];
    }
  }

  /** Lowering neither makes nor removes white space. */
  lemma LowerKeepsBlank(s: string)
    ensures IsBlank(Lower(s)) <==> IsBlank(s)
  {
    assert forall i :: 0 <= i < |s| ==> (IsSpace(Lower(s)[i]) <==> IsSpace(s[i]));
  }

  /** What `s.toLowerCase().trim()` yields: the lowered string with white space, and only white space,
      cut from both ends; so no upper-case ASCII letter, no white space at either end, only characters of
      the lowered string, and the empty string exactly for a blank input. */
  lemma TrimLowerFacts(s: string)
    ensures var r := Trim(Lower(s));
            && |r| <= |s|
            && (forall i :: 0 <= i < |r| ==> !('A' <= r[i] <= 'Z'))
            && (|r| > 0 ==> !IsSpace(r[0]) && !IsSpace(r[|r| - 1]))
            && (forall i :: 0 <= i < |r| ==> r[i] in Lower(s))
            && (r == "" <==> IsBlank(s))
            && IsTrimOf(Lower(s), r)
  {
    TrimLowerShape(s);
    TrimIsSlice(Lower(s));
  }

  /** The facts of `TrimLowerFacts` other than the slice. */
  lemma TrimLowerShape(s: string)
    ensures var r := Trim(Lower(s));
            && |r| <= |s|
            && (forall i :: 0 <= i < |r| ==> !('A' <= r[i] <= 'Z'))
            && (|r| > 0 ==> !IsSpace(r[0]) && !IsSpace(r[|r| - 1]))
            && (forall i :: 0 <= i < |r| ==> r[i] in Lower(s))
            && (r == "" <==> IsBlank(s))
  {
    var l := Lower(s);
    assert forall c :: c in l ==> !('A' <= c <= 'Z');
    BlankIffTrimmedEmpty(l);
    LowerKeepsBlank(s);
  }

  predicate StartsWith(s: string, prefix: string)
  {
    |prefix| <= |s| && s[..|prefix|] == prefix
  }

  /** `s.includes(sub)`: some position of `s` starts a copy of `sub`. */
  predicate Contains(s: string, sub: string)
    decreases |s|
  {
    StartsWith(s, sub) || (|s| > 0 && Contains(s[1..], sub))
  }

  /** `sub` starts at position `i` of `s`. */
  predicate OccursAt(s: string, sub: string, i: int)
  {
    0 <= i <= |s| - |sub| && s[i..i + |sub|] == sub
  }

  /** `includes` agrees with the positional definition of a substring, in both directions. */
  lemma {:induction false} ContainsIffOccurs(s: string, sub: string)
    ensures Contains(s, sub) <==> exists i :: OccursAt(s, sub, i)
    decreases |s|
  {
    if StartsWith(s, sub) {
      assert OccursAt(s, sub, 0);
    } else if |s| > 0 {
      ContainsIffOccurs(s[1..], sub);
      if Contains(s[1..], sub) {
        var i :| OccursAt(s[1..], sub, i);
        assert s[i + 1..i + 1 + |sub|] == s[1..][i..i + |sub|];
        assert OccursAt(s, sub, i + 1);
      }
      if exists i :: OccursAt(s, sub, i) {
        var i :| OccursAt(s, sub, i);
        assert i != 0;
        assert s[1..][i - 1..i - 1 + |sub|] == s[i..i + |sub|];
        assert OccursAt(s[1..], sub, i - 1);
      }
    } else {
      assert forall i :: OccursAt(s, sub, i) ==> StartsWith(s, sub);
    }
  }

  /** Every character of a contained string occurs in the containing one. */
  lemma ContainedCharsPresent(s: string, sub: string, k: nat)
    requires k < |sub|
    ensures Contains(s, sub) ==> sub[k] in s
  {
    ContainsIffOccurs(s, sub);
    forall i | OccursAt(s, sub, i)
      ensures sub[k] in s
    {
      assert s[i + k] == sub[k];
    }
  }

  predicate NotSpace(c: char)
  {
    !IsSpace(c)
  }

  /** `replace(/\s/g, '')`. */
  function RemoveSpaces(s: string): (r: string)
    ensures NoSpaces(r)
    ensures |r| <= |s|
  {
    Seqs.Filter(s, NotSpace)
  }

  lemma RemoveSpacesAppend(s: string, t: string)
    ensures RemoveSpaces(s + t) == RemoveSpaces(s) + RemoveSpaces(t)
  {
    Seqs.FilterAppend(s, t, NotSpace);
  }

  /** Removing white space from a string without any changes nothing. */
  lemma RemoveSpacesNoop(s: string)
    requires NoSpaces(s)
    ensures RemoveSpaces(s) == s
  {
    Seqs.FilterAll(s, NotSpace);
  }

  /** `replace(/\D/g, '')`. */
  function KeepDigits(s: string): (r: string)
    ensures AllDigits(r)
    ensures |r| <= |s|
  {
    Seqs.Filter(s, IsDigit)
  }

  lemma KeepDigitsAppend(s: string, t: string)
    ensures KeepDigits(s + t) == KeepDigits(s) + KeepDigits(t)
  {
    Seqs.FilterAppend(s, t, IsDigit);
  }

  /** Keeping the digits of a string of digits changes nothing. */
  lemma KeepDigitsNoop(s: string)
    requires AllDigits(s)
    ensures KeepDigits(s) == s
  {
    Seqs.FilterAll(s, IsDigit);
  }

  /** `s.split(/\s+/)`: the pieces between maximal runs of white space (an empty first or last piece
      when `s` starts or ends with white space, `[""]` for the empty string). */
  function SplitWords(s: string): (r: seq<string>)
    ensures |r| > 0
    ensures forall i :: 0 <= i < |r| ==> NoSpaces(r[i])
  {
    SplitFrom(s, "")
  }

  function SplitFrom(s: string, cur: string): (r: seq<string>)
    requires NoSpaces(cur)
    ensures |r| > 0
    ensures forall i :: 0 <= i < |r| ==> NoSpaces(r[i])
    decreases |s|
  {
    if |s| == 0 then [cur]
    else if IsSpace(s[0]) then
      var rest := TrimStart(s);
      assert |rest| < |s|;
      [cur] + SplitFrom(rest, "")
    else SplitFrom(s[1..], cur + [s[0]])
  }
}

=== FILE: user_routes.dfy ===
/** The user-management endpoints (`/api/users`): profile update, deletion and activation. */
module UserRoutes {
  import opened Wrappers
  import opened Entities
  import Text

  /** A JSON body field that may be absent, explicitly `null`, or given. */
  datatype Field<T> = Absent | Null | Given(value: T)

  /** The `PUT /:id` body fields this model follows. The body is passed to the update as it is, so each
      given field overwrites the stored one: the role, the e-mail, the account flags and the verification
      token as much as the profile fields. A given `password` is stored as it is, since an update of this
      kind runs no hashing step. */
  datatype ProfileBody = ProfileBody(
    name: Option<string>,
    role: Option<Role>,
    phone: Field<string>,
    address: Option<string>,
    location: Option<string>,
    email: Option<string>,
    password: Option<string>,
    isActive: Option<bool>,
    isEmailVerified: Option<bool>,
    verificationToken: Option<string>)

  /** A body that touches only the role. */
  function RoleOnly(role: Role): ProfileBody
  {
    ProfileBody(None, Some(role), Absent, None, None, None, None, None, None, None)
  }

  /** The phone rule of `PUT /:id`: the value is trimmed; an empty result is stored as `null`; anything else
      must be exactly ten digits, or the request is refused with 400. */
  function NormalizePhone(raw: string): (r: Result<Option<string>>)
    ensures r.Err? ==> r.status == BadRequest
    ensures r == Ok(None) <==> Text.IsBlank(raw)
    ensures r.Ok? && r.value.Some? <==> Text.IsTenDigits(Text.Trim(raw))
    ensures r.Ok? && r.value.Some? ==> r.value.value == Text.Trim(raw) && |r.value.value| == 10
  {
    var t := Text.Trim(raw);
    Text.BlankIffTrimmedEmpty(raw);
    if t != "" && !Text.IsTenDigits(t) then Err(BadRequest)
    else Ok(if t == "" then None else Some(t))
  }

  /** The whole field: an absent or `null` phone skips the rule (`null` is stored as given). */
  function PhoneUpdate(phone: Field<string>): (r: Result<Field<Option<string>>>)
    ensures phone == Absent ==> r == Ok(Absent)
    ensures phone == Null ==> r == Ok(Given(None))
    ensures phone.Given? ==> (r.Ok? <==> NormalizePhone(phone.value).Ok?)
    ensures phone.Given? && r.Ok? ==> r == Ok(Given(NormalizePhone(phone.value).value))
  {
    match phone
    case Absent => Ok(Absent)
    case Null => Ok(Given(None))
    case Given(raw) =>
      match NormalizePhone(raw)
      case Err(s) => Err(s)
      case Ok(p) => Ok(Given(p))
  }

  /** The write of `findByIdAndUpdate(id, body)`: every given field replaces the stored one, every absent
      field keeps it, and nothing outside the body changes. */
  function Apply(u: User, body: ProfileBody, phone: Field<Option<string>>): (r: User)
    ensures r.id == u.id && r.tokenExpiry == u.tokenExpiry && r.lastActive == u.lastActive
    ensures r.name == body.name.GetOr(u.name) && r.role == body.role.GetOr(u.role)
    ensures r.address == body.address.GetOr(u.address) && r.location == body.location.GetOr(u.location)
    ensures r.phone == (if phone.Given? then phone.value else u.phone)
    ensures r.email == body.email.GetOr(u.email)
    ensures r.password == (if body.password.Some? then body.password else u.password)
    ensures r.isActive == body.isActive.GetOr(u.isActive)
    ensures r.isEmailVerified == body.isEmailVerified.GetOr(u.isEmailVerified)
    ensures r.verificationToken == (if body.verificationToken.Some? then body.verificationToken else u.verificationToken)
  {
    u.(name := body.name.GetOr(u.name),
       role := body.role.GetOr(u.role),
       phone := if phone.Given? then phone.value else u.phone,
       address := body.address.GetOr(u.address),
       location := body.location.GetOr(u.location),
       email := body.email.GetOr(u.email),
       password := if body.password.Some? then body.password else u.password,
       isActive := body.isActive.GetOr(u.isActive),
       isEmailVerified := body.isEmailVerified.GetOr(u.isEmailVerified),
       verificationToken := if body.verificationToken.Some? then body.verificationToken else u.verificationToken)
  }

  /** `PUT /:id`: 403 unless the caller is an admin or the user themself; then 400 for a bad phone; then
      404 for an unknown id. Otherwise the first user with that id is updated in place. */
  function UpdateUser(users: seq<User>, caller: Caller, id: Id, body: ProfileBody): (r: Result<(seq<User>, User)>)
    ensures caller.role != Admin && caller.id != id ==> r == Err(Forbidden)
    ensures (caller.role == Admin || caller.id == id) && PhoneUpdate(body.phone).Err? ==> r == Err(BadRequest)
    ensures (caller.role == Admin || caller.id == id) && PhoneUpdate(body.phone).Ok? ==>
              (r.Ok? <==> FindUser(users, id).Some?)
    ensures r.Ok? ==>
              var i := FindUser(users, id).value;
              && r.value.0 == users[i := r.value.1]
              && r.value.1.id == id
              && r.value.1 == Apply(users[i], body, PhoneUpdate(body.phone).value)
  {
    if caller.role != Admin && caller.id != id then Err(Forbidden)
    else
      match PhoneUpdate(body.phone)
      case Err(s) => Err(s)
      case Ok(phone) =>
        match FindUser(users, id)
        case None => Err(NotFound)
        case Some(i) =>
          var u := Apply(users[i], body, phone);
          Ok((users[i := u], u))
  }

  /** Nothing stops a buyer from giving themself the seller role, which is what opens the buyer-edit branch
      of the order update to an order's buyer. */
  lemma SelfRoleChange(users: seq<User>, caller: Caller)
    requires FindUser(users, caller.id).Some?
    ensures var r := UpdateUser(users, caller, caller.id, RoleOnly(Seller));
            r.Ok? && r.value.1.role == Seller
  {
  }

  /** Nor from writing their own password, e-mail or verification flag: the body's values are stored as
      given, the password without hashing, and every field the body leaves out keeps its value. */
  lemma SelfAccountRewrite(users: seq<User>, caller: Caller, email: string, password: string)
    requires FindUser(users, caller.id).Some?
    ensures var body := ProfileBody(None, None, Absent, None, None, Some(email), Some(password), None, Some(true), None);
            var r := UpdateUser(users, caller, caller.id, body);
            var old_u := users[FindUser(users, caller.id).value];
            && r.Ok?
            && r.value.1 == old_u.(email := email, password := Some(password), isEmailVerified := true)
  {
  }

  /** `DELETE /:id` (admins only): 403 for one's own id before any lookup, 404 for an unknown id, 403 for an
      admin target; otherwise exactly that user is removed. */
  function DeleteUser(users: seq<User>, caller: Caller, id: Id): (r: Result<seq<User>>)
    ensures caller.role != Admin || caller.id == id ==> r == Err(Forbidden)
    ensures caller.role == Admin && caller.id != id && FindUser(users, id).None? ==> r == Err(NotFound)
    ensures caller.role == Admin && caller.id != id && FindUser(users, id).Some? ==>
              (r.Ok? <==> users[FindUser(users, id).value].role != Admin)
    ensures r.Ok? ==>
              var i := FindUser(users, id).value;
              && |r.value| == |users| - 1
              && r.value == users[..i] + users[i + 1..]
              && (forall u :: u in users && u != users[i] ==> u in r.value)
  {
    if caller.role != Admin then Err(Forbidden)
    else if caller.id == id then Err(Forbidden)
    else match FindUser(users, id)
      case None => Err(NotFound)
      case Some(i) =>
        if users[i].role == Admin then Err(Forbidden)
        else
          var r := users[..i] + users[i + 1..];
          assert forall u :: u in users && u != users[i] ==> u in r by {
            forall u | u in users && u != users[i] ensures u in r {
              var k :| 0 <= k < |users| && users[k] == u;
              if k < i { assert r[k] == u; } else { assert r[k - 1] == u; }
            }
          }
          Ok(r)
  }

  /** An admin account can never be deleted through this endpoint. */
  lemma AdminsSurviveDelete(users: seq<User>, caller: Caller, id: Id, a: User)
    requires a in users && a.role == Admin
    requires DeleteUser(users, caller, id).Ok?
    ensures a in DeleteUser(users, caller, id).value
  {
  }

  /** The `isActive` value of a `PATCH /:id/status` body. */
  datatype ActiveValue = BoolValue(b: bool) | StringValue(s: string) | OtherValue

  /** A string becomes `s === 'true'`; a boolean is kept; anything else is refused with 400. */
  function CoerceActive(v: ActiveValue): (r: Result<bool>)
    ensures r.Err? <==> v.OtherValue?
    ensures r.Err? ==> r.status == BadRequest
    ensures v.StringValue? ==> (r == Ok(true) <==> v.s == "true")
    ensures v.BoolValue? ==> r == Ok(v.b)
  {
    match v
    case BoolValue(b) => Ok(b)
    case StringValue(s) => Ok(s == "true")
    case OtherValue => Err(BadRequest)
  }

  /** `PATCH /:id/status` (admins only): 403 for one's own id, then 400 for a non-boolean value, then 404
      for an unknown id; otherwise only `isActive` of that user changes. */
  function SetStatus(users: seq<User>, caller: Caller, id: Id, v: ActiveValue): (r: Result<(seq<User>, User)>)
    ensures caller.role != Admin || caller.id == id ==> r == Err(Forbidden)
    ensures caller.role == Admin && caller.id != id && v.OtherValue? ==> r == Err(BadRequest)
    ensures caller.role == Admin && caller.id != id && !v.OtherValue? ==> (r.Ok? <==> FindUser(users, id).Some?)
    ensures r.Ok? ==>
              var i := FindUser(users, id).value;
              && r.value.1 == users[i].(isActive := CoerceActive(v).value)
              && r.value.0 == users[i := r.value.1]
  {
    if caller.role != Admin then Err(Forbidden)
    else if caller.id == id then Err(Forbidden)
    else
      match CoerceActive(v)
      case Err(s) => Err(s)
      case Ok(active) =>
        match FindUser(users, id)
        case None => Err(NotFound)
        case Some(i) =>
          var u := users[i].(isActive := active);
          Ok((users[i := u], u))
  }

  /** The admin's own account cannot be deactivated by them, whatever the body says. */
  lemma CannotDeactivateSelf(users: seq<User>, caller: Caller, v: ActiveValue)
    ensures SetStatus(users, caller, caller.id, v) == Err(Forbidden)
  {
  }
}

=== FILE: virtual_assistant.dfy ===
/** The chat assistant's catalogue helpers: the product search behind "do you have …" questions, the
    guesses of a category from a product name, the category emoji, and the category list it offers. */
module VirtualAssistant {
  import opened Wrappers
  import opened Entities
  import Seqs
  import Text
  import ProductLists

  /** The search term as the assistant compares it: lowercased, then trimmed. */
  function NormalTerm(searchTerm: string): (r: string)
    ensures |r| <= |searchTerm|
    ensures forall i :: 0 <= i < |r| ==> !('A' <= r[i] <= 'Z')
    ensures |r| > 0 ==> !Text.IsSpace(r[0]) && !Text.IsSpace(r[|r| - 1])
    ensures forall i :: 0 <= i < |r| ==> r[i] in Text.Lower(searchTerm)
    ensures r == "" <==> Text.IsBlank(searchTerm)
    ensures Text.IsTrimOf(Text.Lower(searchTerm), r)
  {
    Text.TrimLowerFacts(searchTerm);
    Text.Trim(Text.Lower(searchTerm))
  }

  /** A term already in normal form stays as it is. */
  lemma NormalTermIdempotent(searchTerm: string)
    ensures NormalTerm(NormalTerm(searchTerm)) == NormalTerm(searchTerm)
  {
    var r := NormalTerm(searchTerm);
    Text.LowerNoop(r);
    Text.TrimNoop(r);
  }

  /** A word of the term long enough to search for on its own (more than two characters) that the title
      or description contains. */
  predicate WordHit(title: string, description: string, term: string)
  {
    exists w :: w in Text.SplitWords(term) && |w| > 2 && (Text.Contains(title, w) || Text.Contains(description, w))
  }

  /** The filter of `checkProductAvailability` for one product: the category equals, contains or is
      contained in the term; or the title or description contains the term; or one of its long words. */
  predicate Matches(p: Product, term: string)
  {
    var title := Text.Lower(p.title);
    var category := Text.Trim(Text.Lower(p.category));
    var description := Text.Lower(p.description);
    || category == term || Text.Contains(category, term) || Text.Contains(term, category)
    || Text.Contains(title, term) || Text.Contains(description, term)
    || WordHit(title, description, term)
  }

  function MatcherFor(term: string): Product -> bool
  {
    p => Matches(p, term)
  }

  /** `checkProductAvailability`: nothing without products or with a blank term; otherwise the matching
      products in catalogue order. */
  function CheckAvailability(products: seq<Product>, searchTerm: string): (r: seq<Product>)
    ensures |products| == 0 || NormalTerm(searchTerm) == "" ==> r == []
    ensures |products| > 0 && NormalTerm(searchTerm) != "" ==>
              forall p :: p in r <==> p in products && Matches(p, NormalTerm(searchTerm))
    ensures multiset(r) <= multiset(products)
  {
    if |products| == 0 then []
    else
      var term := NormalTerm(searchTerm);
      if term == "" then [] else Seqs.Filter(products, MatcherFor(term))
  }

  /** The search keeps catalogue order: one more product at the end of the catalogue adds at most that
      product, at the end of the result. */
  lemma AvailabilityKeepsOrder(products: seq<Product>, p: Product, searchTerm: string)
    requires |products| > 0 && NormalTerm(searchTerm) != ""
    ensures CheckAvailability(products + [p], searchTerm)
              == CheckAvailability(products, searchTerm) + (if Matches(p, NormalTerm(searchTerm)) then [p] else [])
  {
    var m := MatcherFor(NormalTerm(searchTerm));
    Seqs.FilterAppend(products, [p], m);
    assert Seqs.Filter([p], m) == (if m(p) then [p] else []) by {
      assert [p][1..] == [];
    }
  }

  /** `term.includes('')` holds for every term, so a product without a category matches any non-blank
      search. */
  lemma UncategorisedMatchesEverything(products: seq<Product>, p: Product, searchTerm: string)
    requires p in products && p.category == "" && NormalTerm(searchTerm) != ""
    ensures p in CheckAvailability(products, searchTerm)
  {
    var term := NormalTerm(searchTerm);
    assert Text.Trim(Text.Lower(p.category)) == "";
    assert Text.StartsWith(term, "");
  }

  /** The keyword table of `getCategoryFromProduct`, in declaration order. */
  const CategoryKeys: seq<(string, seq<string>)> := [
    ("shoe", ["Shoes", "Clothes"]), ("shoes", ["Shoes", "Clothes"]), ("jutta", ["Shoes", "Clothes"]),
    ("boot", ["Shoes", "Clothes"]), ("sneaker", ["Shoes", "Clothes"]),
    ("phone", ["Electronics"]), ("mobile", ["Electronics"]), ("laptop", ["Electronics"]),
    ("computer", ["Electronics"]), ("tablet", ["Electronics"]),
    ("chair", ["Furniture"]), ("table", ["Furniture"]), ("sofa", ["Furniture"]), ("furniture", ["Furniture"]),
    ("book", ["Books"]), ("books", ["Books"]),
    ("cloth", ["Clothes"]), ("clothes", ["Clothes"]), ("dress", ["Clothes"]), ("shirt", ["Clothes"]),
    ("clothing", ["Clothes"])]

  /** The first entry of a keyword table whose key the lowercased name contains. */
  function FirstKeyIn<V>(table: seq<(string, V)>, name: string): (r: Option<nat>)
    ensures r.Some? ==> r.value < |table| && Text.Contains(Text.Lower(name), table[r.value].0)
    ensures r.Some? ==> forall j :: 0 <= j < r.value ==> !Text.Contains(Text.Lower(name), table[j].0)
    ensures r.None? ==> forall j :: 0 <= j < |table| ==> !Text.Contains(Text.Lower(name), table[j].0)
  {
    var lower := Text.Lower(name);
    Seqs.FindIndex(table, (e: (string, V)) => Text.Contains(lower, e.0))
  }

  /** `getCategoryFromProduct`: the categories of the first key the name contains, or `null`. */
  function CategoryFromProduct(name: string): (r: Option<seq<string>>)
    ensures r.None? <==> forall j :: 0 <= j < |CategoryKeys| ==> !Text.Contains(Text.Lower(name), CategoryKeys[j].0)
    ensures r.Some? ==> exists j :: 0 <= j < |CategoryKeys| && Text.Contains(Text.Lower(name), CategoryKeys[j].0)
                                    && r.value == CategoryKeys[j].1
                                    && forall k :: 0 <= k < j ==> !Text.Contains(Text.Lower(name), CategoryKeys[k].0)
  {
    match FirstKeyIn(CategoryKeys, name)
    case None => None
    case Some(j) => Some(CategoryKeys[j].1)
  }

  /** Declaration order decides between overlapping keys: "tablet" comes before "table", so a tablet is
      electronics, not furniture. */
  lemma TabletIsElectronics()
    ensures CategoryFromProduct("Tablet") == Some(["Electronics"])
  {
    var lower := Text.Lower("Tablet");
    assert lower == "tablet";
    KeysBeforeTabletMissing();
    assert Text.StartsWith(lower, CategoryKeys[9].0);
    FirstContainedKey("Tablet", 9);
    assert CategoryKeys[9].1 == ["Electronics"];
  }

  /** A name whose earliest contained key is entry `j` gets that entry's categories. */
  lemma FirstContainedKey(name: string, j: nat)
    requires j < |CategoryKeys| && Text.Contains(Text.Lower(name), CategoryKeys[j].0)
    requires forall k :: 0 <= k < j ==> !Text.Contains(Text.Lower(name), CategoryKeys[k].0)
    ensures CategoryFromProduct(name) == Some(CategoryKeys[j].1)
  {
    var r := FirstKeyIn(CategoryKeys, name);
    assert r.Some?;
    assert r.value == j;
  }

  /** None of the nine keys before "tablet" is part of "tablet". */
  lemma KeysBeforeTabletMissing()
    ensures forall j :: 0 <= j < 9 ==> !Text.Contains("tablet", CategoryKeys[j].0)
  {
    forall j | 0 <= j < 9
      ensures !Text.Contains("tablet", CategoryKeys[j].0)
    {
      // for each earlier key, a position holding a letter "tablet" lacks
      var k := [0, 0, 0, 1, 0, 0, 0, 2, 0][j];
      assert CategoryKeys[j].0[k] !in "tablet";
      Text.ContainedCharsPresent("tablet", CategoryKeys[j].0, k);
    }
  }

  /** The keyword table of `getCategoryEmoji`, in declaration order. */
  const EmojiKeys: seq<(string, string)> := [
    ("electronics", "📱"), ("furniture", "🪑"), ("clothing", "👕"), ("books", "📚"), ("home", "🏠"),
    ("kitchen", "🍳"), ("vehicles", "🚗"), ("gaming", "🎮"), ("jewelry", "💍"), ("sports", "⚽"),
    ("toys", "🧸")]

  const DefaultEmoji := "📦"

  /** `getCategoryEmoji`: the emoji of the first key the category contains, the parcel otherwise. */
  function CategoryEmoji(category: string): (r: string)
    ensures (forall j :: 0 <= j < |EmojiKeys| ==> !Text.Contains(Text.Lower(category), EmojiKeys[j].0)) ==>
              r == DefaultEmoji
    ensures (exists j :: 0 <= j < |EmojiKeys| && Text.Contains(Text.Lower(category), EmojiKeys[j].0)) ==>
              exists j :: 0 <= j < |EmojiKeys| && Text.Contains(Text.Lower(category), EmojiKeys[j].0)
                          && r == EmojiKeys[j].1
                          && forall k :: 0 <= k < j ==> !Text.Contains(Text.Lower(category), EmojiKeys[k].0)
  {
    match FirstKeyIn(EmojiKeys, category)
    case None => DefaultEmoji
    case Some(j) => EmojiKeys[j].1
  }

  /** The marketplace's own "Clothes" category gets the parcel: the table's clothing key is not a part
      of "clothes". */
  lemma ClothesGetsParcel()
    ensures CategoryEmoji("Clothes") == DefaultEmoji
  {
    assert Text.Lower("Clothes") == "clothes";
    NoEmojiKeyInClothes();
  }

  /** No key of the emoji table is part of "clothes". */
  lemma NoEmojiKeyInClothes()
    ensures forall j :: 0 <= j < |EmojiKeys| ==> !Text.Contains("clothes", EmojiKeys[j].0)
  {
    forall j | 0 <= j < |EmojiKeys|
      ensures !Text.Contains("clothes", EmojiKeys[j].0)
    {
      // for each key, a position holding a letter "clothes" lacks
      var k := [5, 0, 5, 0, 2, 0, 0, 0, 0, 1, 2][j];
      assert EmojiKeys[j].0[k] !in "clothes";
      Text.ContainedCharsPresent("clothes", EmojiKeys[j].0, k);
    }
  }

  /** The assistant's category list: the catalogue it fetches holds available products only, and the list
      is each of their non-empty categories once. */
  function Categories(catalogue: seq<Product>): (r: seq<string>)
    ensures Seqs.Distinct(r)
    ensures forall c :: c in r <==> c != "" && exists p :: p in catalogue && p.status == Available && p.category == c
  {
    var available := ProductLists.AvailableOnly(catalogue);
    var r := ProductLists.UniqueCategories(available);
    forall c | c in r
      ensures exists p :: p in catalogue && p.status == Available && p.category == c
    {
      var i :| 0 <= i < |r| && r[i] == c;
      var j :| 0 <= j < |available| && available[j].category == c;
      assert available[j] in available;
    }
    forall p | p in catalogue && p.status == Available && p.category != ""
      ensures p.category in r
    {
      assert p in available;
      var j :| 0 <= j < |available| && available[j] == p;
    }
    r
  }

  /** The list is in order of first occurrence among the available products: one more product adds its
      category at the end exactly when it is available, non-empty and not yet listed. */
  lemma CategoriesAppend(catalogue: seq<Product>, p: Product)
    ensures Categories(catalogue + [p])
              == Categories(catalogue)
                 + (if p.status != Available || p.category == "" || p.category in Categories(catalogue) then []
                    else [p.category])
  {
    var available := ProductLists.AvailableOnly(catalogue);
    Seqs.FilterAppend(catalogue, [p], ProductLists.IsAvailable);
    if p.status == Available {
      assert Seqs.Filter([p], ProductLists.IsAvailable) == [p];
      ProductLists.UniqueCategoriesAppend(available, p);
    } else {
      assert Seqs.Filter([p], ProductLists.IsAvailable) == [];
      assert available + [] == available;
    }
  }
}

=== FILE: wishlist_routes.dfy ===
/** The wishlist endpoints (`/api/wishlist`). Each user owns at most one wishlist, a list of product ids. */
module WishlistRoutes {
  import opened Wrappers
  import opened Entities
  import Seqs

  type Wishlists = map<Id, seq<Id>>

  /** `GET /`: the caller's wishlist, created empty when there is none. */
  function GetWishlist(lists: Wishlists, caller: Caller): (r: (Wishlists, seq<Id>))
    ensures caller.id in r.0 && r.0[caller.id] == r.1
    ensures caller.id in lists ==> r.0 == lists
    ensures caller.id !in lists ==> r.1 == [] && r.0 == lists[caller.id := []]
  {
    if caller.id in lists then (lists, lists[caller.id]) else (lists[caller.id := []], [])
  }

  lemma GetWishlistIdempotent(lists: Wishlists, caller: Caller)
    ensures GetWishlist(GetWishlist(lists, caller).0, caller) == GetWishlist(lists, caller)
  {
  }

  /** `POST /add`: 404 for an unknown product (sold products are accepted: there is no availability check),
      400 when the product is already listed, otherwise it is appended once. */
  function AddToWishlist(products: seq<Product>, lists: Wishlists, caller: Caller, productId: Id): (r: Result<Wishlists>)
    ensures FindProduct(products, productId).None? ==> r == Err(NotFound)
    ensures FindProduct(products, productId).Some? ==>
              (r.Ok? <==> (caller.id !in lists || productId !in lists[caller.id]))
    ensures r.Err? ==> r.status == NotFound || r.status == BadRequest
    ensures r.Ok? ==>
              var before := if caller.id in lists then lists[caller.id] else [];
              && r.value == lists[caller.id := before + [productId]]
              && (Seqs.Distinct(before) ==> Seqs.Distinct(r.value[caller.id]))
  {
    if FindProduct(products, productId).None? then Err(NotFound)
    else
      var before := if caller.id in lists then lists[caller.id] else [];
      if Seqs.Any(before, (p: Id) => p == productId) then Err(BadRequest)
      else Ok(lists[caller.id := before + [productId]])
  }

  /** Starting from lists without duplicates, no sequence of adds introduces one. */
  lemma {:induction false} AddsKeepDistinct(products: seq<Product>, lists: Wishlists, caller: Caller, ids: seq<Id>)
    requires forall u :: u in lists ==> Seqs.Distinct(lists[u])
    ensures var after := AddAll(products, lists, caller, ids);
            forall u :: u in after ==> Seqs.Distinct(after[u])
    decreases |ids|
  {
    if |ids| > 0 {
      var next := match AddToWishlist(products, lists, caller, ids[0])
        case Ok(l) => l
        case Err(_) => lists;
      var before: seq<Id> := if caller.id in lists then lists[caller.id] else [];
      assert Seqs.Distinct(before);
      assert forall u :: u in next && u != caller.id ==> u in lists && next[u] == lists[u];
      assert forall u :: u in next ==> Seqs.Distinct(next[u]);
      AddsKeepDistinct(products, next, caller, ids[1..]);
      assert AddAll(products, lists, caller, ids) == AddAll(products, next, caller, ids[1..]);
    }
  }

  /** A run of `POST /add` requests by one caller; a refused request leaves the lists as they were. */
  function AddAll(products: seq<Product>, lists: Wishlists, caller: Caller, ids: seq<Id>): Wishlists
    decreases |ids|
  {
    if |ids| == 0 then lists
    else
      var next := match AddToWishlist(products, lists, caller, ids[0])
        case Ok(l) => l
        case Err(_) => lists;
      AddAll(products, next, caller, ids[1..])
  }

  /** `DELETE /remove/:productId`: 404 only when the caller has no wishlist at all; otherwise every entry
      for the product is dropped and the others are kept. */
  function RemoveFromWishlist(lists: Wishlists, caller: Caller, productId: Id): (r: Result<Wishlists>)
    ensures r.Ok? <==> caller.id in lists
    ensures r.Err? ==> r.status == NotFound
    ensures r.Ok? ==>
              && caller.id in r.value && r.value - {caller.id} == lists - {caller.id}
              && productId !in r.value[caller.id]
              && (forall p :: p in r.value[caller.id] <==> p in lists[caller.id] && p != productId)
              && |r.value[caller.id]| <= |lists[caller.id]|
    ensures r.Ok? ==> r.value[caller.id] == Seqs.Filter(lists[caller.id], (p: Id) => p != productId)
  {
    if caller.id !in lists then Err(NotFound)
    else Ok(lists[caller.id := Seqs.Filter(lists[caller.id], (p: Id) => p != productId)])
  }

  /** Removing twice is removing once. */
  lemma RemoveIdempotent(lists: Wishlists, caller: Caller, productId: Id)
    requires caller.id in lists
    ensures RemoveFromWishlist(RemoveFromWishlist(lists, caller, productId).value, caller, productId)
            == RemoveFromWishlist(lists, caller, productId)
  {
    var once := RemoveFromWishlist(lists, caller, productId).value;
    Seqs.FilterIdempotent(lists[caller.id], (p: Id) => p != productId);
    assert once[caller.id := once[caller.id]] == once;
  }

  /** On a duplicate-free wishlist, removing the entry at `k` splices exactly it out and keeps the others
      in order. */
  lemma RemoveSplicesEntry(lists: Wishlists, caller: Caller, k: nat)
    requires caller.id in lists && k < |lists[caller.id]| && Seqs.Distinct(lists[caller.id])
    ensures var l := lists[caller.id];
            RemoveFromWishlist(lists, caller, l[k]) == Ok(lists[caller.id := l[..k] + l[k + 1..]])
  {
    var l := lists[caller.id];
    Seqs.FilterSplice(l, (p: Id) => p != l[k], k);
  }

  /** Removal keeps a wishlist free of duplicates. */
  lemma RemoveKeepsDistinct(lists: Wishlists, caller: Caller, productId: Id)
    requires caller.id in lists && Seqs.Distinct(lists[caller.id])
    ensures Seqs.Distinct(RemoveFromWishlist(lists, caller, productId).value[caller.id])
  {
    var l := lists[caller.id];
    assert Seqs.DistinctBy(l, (p: Id) => p);
    Seqs.FilterDistinctBy(l, (p: Id) => p != productId, (p: Id) => p);
  }
}

=== FILE: wrappers.dfy ===
/** Failure-carrying results shared by every route handler of the marketplace backend. */
module Wrappers {

  datatype Option<+T> = None | Some(value: T) {
    function GetOr(default: T): T {
      match this
      case Some(v) => v
      case None => default
    }
  }

  /** The error statuses the Express handlers answer with (a thrown exception, 500, is not modelled). */
  datatype Status = BadRequest | Unauthorized | Forbidden | NotFound {
    function Code(): nat {
      match this
      case BadRequest => 400
      case Unauthorized => 401
      case Forbidden => 403
      case NotFound => 404
    }
  }

  /** A handler's outcome: the new value (state, payload) or the error status it answered with. */
  datatype Result<+T> = Ok(value: T) | Err(status: Status) {
    predicate IsFailure() {
      Err?
    }

    function PropagateFailure<U>(): Result<U>
      requires Err?
    {
      Err(status)
    }

    function Extract(): T
      requires Ok?
    {
      value
    }
  }

  /** Client-side form checks: pass, or fail with the message the page shows. */
  datatype Check = Pass | Fail(message: string)
}
